=== FILE: README.md ===
# TI 15.4 sensor stack and MSP430 ESP8266 firmware: a Dafny model

This project models the sequential core of a repository holding two firmware
families.

- **TI 15.4-Stack sensor node (CC13xx).** It covers:
  - the joining device's link controller (`jdllc.c`), including the sleepy
    frequency-hopping channel choice;
  - the sensor support functions (`ssf.c`): timers, trickle and association
    jitter, the frame-counter save window and the NV blacklist;
  - the sensor application's codecs and validators (`sensor.c`);
  - the frequency-hopping neighbour table (`fh_nt.c`);
  - the coprocessor's payload-IE parser and capability/TX-option codecs
    (`api_mac.c`);
  - the debug UART's minimal printf (`uart_debug.c`, in both copies).
- **MSP430 + ESP8266 Wi-Fi node.** It covers:
  - the 10-slot string ring buffer (`ringBuffer.c`);
  - the AT-command state machine of `main`;
  - the receive interrupt that cuts the UART byte stream into lines.

Each piece is a Dafny module in its own file:

| module | file | models |
|---|---|---|
| `Types` | types.dfy | `uint8_t`/`uint16_t`/`uint32_t` as subset types, `Option` |
| `Bytes` | bytes.dfy | little-endian 16/32-bit fields (`Util_buildUint16`, `Util_bufferUint32` and friends) |
| `RingBuffer` | ring_buffer.dfy | `ringBufferPush`, `ringBufferPop`, `strcpy` |
| `EspAt` | esp_at.dfy | the `switch (sysState)` of `main`, `USCI0RX_ISR` |
| `Printf` | printf.dfy | `prints`, `printi`, `print`, `sprintf` (buffer path) |
| `NeighbourTable` | fh_nt.dfy | `FHNT_*` create/get/remove/purge/reset and the eviction choice |
| `Ssf` | ssf.dfy | clock setters, jitter, frame counter, blacklist |
| `SensorApp` | sensor_app.dfy | MSDU handles, data confirm statistics, config request/response, sensor message layout, `dataIndCB` |
| `ApiMac` | api_mac.dfy | `parsePayloadIEs`, capability and TX-option codecs, the one-scan-at-a-time guard |
| `FhHop` | fh_hop.dfy | `getFHSleepNodeHopChannel`, as written and as intended |
| `Jdllc` | jdllc.dfy | the join state machine: callbacks, `Jdllc_process` flag handlers, join/rejoin, security parameters |

The models share some conventions:

- The MAC, the PIB, the clocks, the NV store and the random-byte source are
  not called. A transition returns the effects it would have on them, as a
  list of `Effect` values ("poll clock armed with d", "scan request issued",
  "PIB attribute := v"). Anything read back from them, such as a random byte,
  an NV read's outcome or the PIB's PAN ID, is a parameter.
- The compile-time `CONFIG_*` values (`config.h`) are the fields of a `Config`
  parameter.
- C's fixed-width arithmetic is written out. For example, `uint8_t` counters
  wrap with `% 0x100`, elapsed time is 32-bit modular subtraction, and the
  division and remainder of `printi` truncate toward zero.

Eight places where the code does not do what its authors evidently meant are
modelled twice, once as written and once corrected (see "## Findings"). The
rest of the model uses the corrected definitions.

## Model

| member | source | states |
|---|---|---|
| `RingBuffer.NulIndex` | Msp430_Esp8266/ringBuffer/ringBuffer.c:41 | the position `strcpy` stops at: every earlier byte is non-NUL and the byte there is NUL, or the array ends |
| `RingBuffer.CString` | Msp430_Esp8266/ringBuffer/ringBuffer.c:74 | the string a slot holds is the prefix before its first NUL, and contains no NUL |
| `RingBuffer.StrCopy` | Msp430_Esp8266/ringBuffer/ringBuffer.c:41 | copying a terminated string into a slot gives the slot the same C string and leaves the bytes after the terminator untouched |
| `RingBuffer.Initial` | Msp430_Esp8266/ringBuffer/ringBuffer.h:40-45 | the zero-initialised buffer is well formed and holds the empty queue |
| `RingBuffer.Advance` | Msp430_Esp8266/ringBuffer/ringBuffer.c:43-44 | an index moved on by one stays below `MAX_RING_BUFFER` and wraps from 9 to 0 |
| `RingBuffer.SlotOf` | Msp430_Esp8266/ringBuffer/ringBuffer.h:28 | the k-th queued string lies in a slot below `MAX_RING_BUFFER` |
| `RingBuffer.Queue` | Msp430_Esp8266/ringBuffer/ringBuffer.h:27-28 | the queue the slots from tail to head stand for has at most 9 strings |
| `RingBuffer.Push` | Msp430_Esp8266/ringBuffer/ringBuffer.c:29-46 | push reports FULL exactly when 9 strings are queued, and then changes nothing; otherwise it returns OK and appends the pushed C string to the queue |
| `RingBuffer.PushQueue` | Msp430_Esp8266/ringBuffer/ringBuffer.c:41-45 | writing slot `head` and advancing `head` keeps the buffer well formed and appends exactly the pushed string |
| `RingBuffer.Pop` | Msp430_Esp8266/ringBuffer/ringBuffer.c:55-85 | pop reports EMPTY exactly on an empty queue, changing nothing; otherwise it returns OK with the oldest string and removes only that string; it never reports HAS_DATA |
| `RingBuffer.Run` | Msp430_Esp8266/ringBuffer/ringBuffer.c:29-85 | any sequence of pushes and pops keeps the buffer well formed |
| `RingBuffer.RunIsFifo` | Msp430_Esp8266/ringBuffer/ringBuffer.c:29-85 | any sequence of pushes and pops returns the same strings as a bounded FIFO queue that drops a push when it holds 9 |
| `EspAt.Step` | Msp430_Esp8266/main.c:60-198 | one main-loop turn either keeps the state or moves to its fixed successor, and it moves exactly when the line is the one that state waits for; on moving it sends the command of the state it enters (the `Entry` table: "AT", "ATE0", …, `AT+CIPSEND`, the report); "3,CLOSED" re-sends `AT+CIPSTART` without moving; otherwise it sends nothing; "WIFI CONNECTED" and "WIFI GOT IP" set the Wi-Fi status in the Wi-Fi state and send nothing, leaving that state makes it READY, any other line there that does not move the state changes nothing, and no other state changes the status; consistency of the two is kept |
| `EspAt.EmptyLineIdles` | Msp430_Esp8266/main.c:63-197 | in every state after start-up, the empty line an empty buffer yields changes nothing and sends nothing |
| `EspAt.ReadyOnlyAfterGotIp` | Msp430_Esp8266/main.c:120-140 | the Wi-Fi status becomes READY only on "OK" in the Wi-Fi state after "WIFI GOT IP" |
| `EspAt.StepsConsistent` | Msp430_Esp8266/main.c:60-198 | any sequence of received lines keeps the state machine and the Wi-Fi status consistent |
| `EspAt.TranscriptAppend` | Msp430_Esp8266/main.c:60-198 | what the loop sends over two batches of lines is what it sends over the first followed by what it sends over the second |
| `EspAt.SetupPhase` | Msp430_Esp8266/main.c:72-119 | from the initial state, four "OK"s lead to the Wi-Fi state, sending "AT", "ATE0", "AT+CWMODE=1", "AT+CWDHCP=1,1" and "AT+CWJAP=…" in that order |
| `EspAt.WifiPhase` | Msp430_Esp8266/main.c:120-140 | "WIFI CONNECTED", "WIFI GOT IP", "OK" make the link READY and move on to CIPMUX, sending only "AT+CIPMUX=1" |
| `EspAt.ConnectPhase` | Msp430_Esp8266/main.c:141-181 | "OK", "OK", ">" take a READY link from CIPMUX to closing, sending `AT+CIPSTART`, `AT+CIPSEND`, the report and its line end |
| `EspAt.HappyPath` | Msp430_Esp8266/main.c:60-198 | the whole expected dialogue from power-up reaches the close state with the link READY |
| `EspAt.HappyPathSends` | Msp430_Esp8266/main.c:60-198 | along the whole expected dialogue each set-up command is sent once, in order, followed by the report |
| `EspAt.RxStep` | Msp430_Esp8266/main.c:203-231 | one received byte completes a line exactly on CR LF or on '>'; the line is NUL-terminated within 20 bytes and is the bytes before CR LF, or the bytes up to and including '>'; otherwise the byte is appended, and the index restarts at 20; an LF at index 0 after a CR stored just before the array clears that byte, and no other byte clears it |
| `EspAt.CrLfLine` | Msp430_Esp8266/main.c:208-216 | overwriting CR LF with NULs yields a terminated line holding the bytes before the CR |
| `EspAt.PromptLine` | Msp430_Esp8266/main.c:218-224 | terminating after '>' yields a line holding the received bytes and the '>' |
| `EspAt.Feed` | Msp430_Esp8266/main.c:203-231 | feeding a byte stream keeps the framer's index within the receive array |
| `EspAt.LfClearsByteBelow` | Msp430_Esp8266/main.c:208-211 | after a CR stored just before the array, an LF completes an empty line and clears that CR, so a second LF completes nothing |
| `EspAt.FeedPlain` | Msp430_Esp8266/main.c:206 | ordinary bytes that fit are appended one by one and complete no line |
| `EspAt.FeedLine` | Msp430_Esp8266/main.c:206-216 | a text followed by CR LF, fed from a fresh framer, yields exactly that text as one line |
| `EspAt.LfCompletes` | Msp430_Esp8266/main.c:208-212 | an LF after a pending text ending in CR yields that text and resets the index |
| `EspAt.FeedCr` | Msp430_Esp8266/main.c:206-208 | a text followed by a lone CR completes no line and leaves the text and the CR pending |
| `EspAt.Isr` | Msp430_Esp8266/main.c:203-231 | the interrupt pushes a completed line into the ring buffer unless it is full, and leaves the ring unchanged otherwise |
| `EspAt.MainTurn` | Msp430_Esp8266/main.c:60-65 | a main-loop turn pops the oldest line (or the empty line), leaves the rest of the queue, and takes both the new state and the transmissions from the state machine's step on that line |
| `Printf.PadBits` | sensor_cc13xx_lp/Application/uart_debug.h:24-29 | the `pad` bits: bit 0 is PAD_RIGHT and bit 1 is PAD_ZERO |
| `Printf.StrLen` | sensor_cc13xx_lp/Application/uart_debug.c:74-75 | the length of a C string: the characters before its first NUL |
| `Printf.Fill` | sensor_cc13xx_lp/Application/uart_debug.c:87-91 | `n` copies of the pad character, and none when `n` is not positive |
| `Printf.Prints` | sensor_cc13xx_lp/Application/uart_debug.c:65-105 | `prints` writes the padded string and returns its length, which is the width when the string is shorter and the string's length otherwise |
| `Printf.Length` | Include_Files/Sensor/uart_debug.c:76-77 | the length loop counts the characters before the NUL |
| `Printf.EmitPadding` | Include_Files/Sensor/uart_debug.c:89-94 | a padding loop writes exactly `width` pad characters |
| `Printf.EmitString` | Include_Files/Sensor/uart_debug.c:95-99 | the copy loop writes the string up to its NUL |
| `Printf.ToBaseRoundTrip` | sensor_cc13xx_lp/Application/uart_debug.c:138-145 | the digits of a positive value read back as that value in the same base, with no leading zero |
| `Printf.ToBaseDigits` | sensor_cc13xx_lp/Application/uart_debug.c:140-143 | every character produced is a digit of the base, letters starting at `letbase` |
| `Printf.ToBaseLength` | sensor_cc13xx_lp/Application/uart_debug.c:135-145 | a value below b^k needs at most k digits |
| `Printf.DigitsFitBuffer` | sensor_cc13xx_lp/Application/uart_debug.h:24-29 | a sign, the digits of any 32-bit value and the NUL fit the 12-byte `PRINT_BUF_LEN` buffer |
| `Printf.Unsigned` | sensor_cc13xx_lp/Application/uart_debug.c:120 | the unsigned reading of a `long` agrees with it modulo 2^32 |
| `Printf.Printi` | sensor_cc13xx_lp/Application/uart_debug.c:114-162 | `printi` (unsigned conversions and LONG_MIN corrected) writes the text of any `long` with the padding rules and returns its length |
| `Printf.Digits` | Include_Files/Sensor/uart_debug.c:137-147 | the digit loop writes the base-b digits of a positive value, most significant first, within the buffer |
| `Printf.SignedDecimalRoundTrip` | sensor_cc13xx_lp/Application/uart_debug.c:129-159 | an unpadded `%d` reads back as the signed value: a '-' exactly for negatives, followed by the digits of the magnitude |
| `Printf.NegativeDecimalRoundTrip` | sensor_cc13xx_lp/Application/uart_debug.c:129-133 | a negative value prints as '-' followed by the digits of its magnitude |
| `Printf.PositiveDecimalRoundTrip` | sensor_cc13xx_lp/Application/uart_debug.c:135-145 | a positive value prints as its digits alone |
| `Printf.UnpaddedDigits` | sensor_cc13xx_lp/Application/uart_debug.c:129-161 | an unpadded nonzero integer is all digits, prefixed by '-' only for a signed decimal negative |
| `Printf.CRem` | sensor_cc13xx_lp/Application/uart_debug.c:140 | C's `%` truncates toward zero: the remainder lies strictly between -b and b and agrees with the mathematical one for non-negatives |
| `Printf.CDiv` | sensor_cc13xx_lp/Application/uart_debug.c:144 | C's `/` moves a nonzero value strictly toward zero |
| `Printf.CDivRem` | sensor_cc13xx_lp/Application/uart_debug.c:140-144 | C's quotient and remainder recompose the dividend, with a non-positive remainder for negatives |
| `Printf.DigitsAsWrittenPositive` | sensor_cc13xx_lp/Application/uart_debug.c:138-145 | for positive values the source's digit loop produces the intended digits |
| `Printf.PrintiAgreesElsewhere` | sensor_cc13xx_lp/Application/uart_debug.c:114-162 | `printi` as written and as corrected agree on every value except a negative one given to `%x`, `%X` or `%u`, and LONG_MIN given to `%d` |
| `Printf.PrintiAsWritten` | sensor_cc13xx_lp/Application/uart_debug.c:114-162 | `printi` as written writes the corrected text for every non-negative value |
| `Printf.NegativeUnpaddedAsWritten` | sensor_cc13xx_lp/Application/uart_debug.c:129-159 | as written, unpadded `%d` of a negative value is '-' followed by the digit loop run on the wrapped negation |
| `Printf.LongMinAsWritten` | sensor_cc13xx_lp/Application/uart_debug.c:129-145 | as written, `%d` of LONG_MIN prints "-./,),(-*,(", where the corrected `printi` prints "-2147483648" |
| `Printf.NegativeHexAsWritten` | sensor_cc13xx_lp/Application/uart_debug.c:135-145 | `%x` of -1 yields "/" as written, where "ffffffff" is intended |
| `Printf.HexAllOnes` | sensor_cc13xx_lp/Application/uart_debug.c:213-217 | the hex digits of 0xFFFFFFFF are "ffffffff" |
| `Printf.UnsignedRoundTrip` | sensor_cc13xx_lp/Application/uart_debug.c:213-227 | an unsigned conversion reads back as the value modulo 2^32 |
| `Printf.SkipZeros` | sensor_cc13xx_lp/Application/uart_debug.c:192-196 | the zero-flag loop stops at the first character that is not '0' |
| `Printf.SkipDigits` | sensor_cc13xx_lp/Application/uart_debug.c:197-201 | the width loop stops at the first character that is not a decimal digit |
| `Printf.ParseDirective` | sensor_cc13xx_lp/Application/uart_debug.c:181-201 | a parsed directive ends at its conversion character and has a width that fits in `int` |
| `Printf.Sprintf` | sensor_cc13xx_lp/Application/uart_debug.c:259-266 | the buffer receives the rendered text (integers converted with the corrected `printi`) followed by a NUL, and the count excludes the NUL |
| `Printf.PrintStep` | Include_Files/Sensor/uart_debug.c:179-245 | one pass of the format loop writes a piece that, followed by the rest's rendering, is the whole rendering |
| `Printf.DirectiveStep` | Include_Files/Sensor/uart_debug.c:181-237 | one directive writes its conversion and moves past its argument, if it takes one |
| `Printf.DirectiveParses` | sensor_cc13xx_lp/Application/uart_debug.c:181-201 | a rendered format's every directive parses |
| `Printf.DirectiveWithArgAt` | sensor_cc13xx_lp/Application/uart_debug.c:202-235 | s/d/x/X/u/c take the next argument and write its conversion |
| `Printf.DirectiveWithoutArgAt` | sensor_cc13xx_lp/Application/uart_debug.c:202-236 | any other conversion character is consumed, writes nothing and takes no argument |
| `Printf.RenderChar` | sensor_cc13xx_lp/Application/uart_debug.c:237-242 | an ordinary character is copied to the output |
| `Printf.RenderPercent` | sensor_cc13xx_lp/Application/uart_debug.c:185-186 | "%%" writes one '%' |
| `Printf.RenderDirective` | sensor_cc13xx_lp/Application/uart_debug.c:179-236 | a '%' that is not "%%" is a directive rendered by its conversion |
| `Printf.Render` | sensor_cc13xx_lp/Application/uart_debug.c:171-253 | an empty format writes nothing, a lone '%' at the end writes nothing, and a one-character format is copied |
| `Printf.PlainFormatCopied` | sensor_cc13xx_lp/Application/uart_debug.c:237-242 | a format without '%' is copied unchanged |
| `Printf.DecimalDirectiveRoundTrip` | sensor_cc13xx_lp/Application/uart_debug.c:208-212 | `sprintf("%d", i)` reads back as `i` |
| `Printf.NullStringDirective` | sensor_cc13xx_lp/Application/uart_debug.c:202-207 | `%s` of a NULL pointer prints "(null)" |
| `NeighbourTable.Live` | timac_cc13xx/MAC/fh/fh_nt.c:201-221 | the number of slots in use is at most the table size |
| `NeighbourTable.LiveUpdate` | timac_cc13xx/MAC/fh/fh_nt.c:230-246 | overwriting one slot changes the in-use count by exactly the change in that slot's use |
| `NeighbourTable.LiveAll` | timac_cc13xx/MAC/fh/fh_nt.c:262-265 | every slot is in use exactly when the count equals the table size |
| `NeighbourTable.Reset` | timac_cc13xx/MAC/fh/fh_nt.c:157-161 | reset leaves every slot free and the count at zero, which is consistent |
| `NeighbourTable.Elapsed` | timac_cc13xx/MAC/fh/fh_nt.c:87-101 | the elapsed time is the 32-bit difference: adding it to the start gives the current ticks |
| `NeighbourTable.AssessTime` | timac_cc13xx/MAC/fh/fh_nt.c:87-101 | an entry is to be purged exactly when the current time minus its stamp, modulo 2^32, reaches the valid time |
| `NeighbourTable.ElapsedAfter` | timac_cc13xx/MAC/fh/fh_nt.c:87-101 | `d` ticks after a timestamp, the elapsed time is `d`, across the 32-bit wrap too |
| `NeighbourTable.AssessAfter` | timac_cc13xx/MAC/fh/fh_nt.c:87-101 | `FHNT_assessTime` answers PURGE exactly when the time elapsed is at least the valid time |
| `NeighbourTable.GetRemoveEntryAsWritten` | timac_cc13xx/MAC/fh/fh_nt.c:114-146 | the source's eviction loop picks the oldest non-parent slot with a positive age, the lowest index on ties, and slot 0 when none has aged |
| `NeighbourTable.ParentEvictedAsWritten` | timac_cc13xx/MAC/fh/fh_nt.c:128-145 | with the parent in slot 0 and the other node aged 0, the source evicts the parent |
| `NeighbourTable.GetRemoveEntry` | timac_cc13xx/MAC/fh/fh_nt.c:114-146 | the corrected eviction picks the oldest non-parent slot, the lowest index on ties, and nothing only when every slot holds the parent |
| `NeighbourTable.ParentKept` | timac_cc13xx/MAC/fh/fh_nt.c:128-145 | on the same table the corrected choice evicts the other node |
| `NeighbourTable.ChosenUnique` | timac_cc13xx/MAC/fh/fh_nt.c:128-145 | the eviction choice is unique |
| `NeighbourTable.FirstFree` | timac_cc13xx/MAC/fh/fh_nt.c:267-283 | the free-slot search returns the lowest free slot, or none exactly when every slot is in use |
| `NeighbourTable.CreateEntry` | timac_cc13xx/MAC/fh/fh_nt.c:253-293 | not full: the lowest free slot gets a fresh entry and the count grows; full: the eviction victim is overwritten and the count is kept; no slot leaves the table unchanged; a consistent count stays consistent |
| `NeighbourTable.FindEntry` | timac_cc13xx/MAC/fh/fh_nt.c:313-318 | the lookup returns the first in-use slot holding the address, or none exactly when no slot does |
| `NeighbourTable.GetEntry` | timac_cc13xx/MAC/fh/fh_nt.c:300-346 | `FHNT_getEntry` finds the first matching slot and reports NO_ENTRY when there is none, EXPIRED (marking the slot) exactly for an aged DH1CF entry, and ERR for an unknown channel function; only the expired case changes the table |
| `NeighbourTable.Invalidate` | timac_cc13xx/MAC/fh/fh_nt.c:236-238 | an invalidated slot is not in use |
| `NeighbourTable.Decrement` | timac_cc13xx/MAC/fh/fh_nt.c:240-243 | the count goes down by one and never below zero |
| `NeighbourTable.RemoveEntry` | timac_cc13xx/MAC/fh/fh_nt.c:230-246 | remove frees the first slot holding the address whatever its status, changes nothing when none does, and keeps the count consistent |
| `NeighbourTable.CountStale` | timac_cc13xx/MAC/fh/fh_nt.c:201-221 | the number of slots a purge frees is at most the table size |
| `NeighbourTable.PurgeEntry` | timac_cc13xx/MAC/fh/fh_nt.c:186-222 | purge does nothing on an empty count; otherwise it frees exactly the stale non-parent UTIE slots, lowers the count by that many without going below zero, and keeps a consistent count consistent |
| `Ssf.Restart` | sensor_cc13xx_lp/Application/ssf.c:562-571 | restarting with a duration arms the clock with it, and zero leaves it stopped |
| `Ssf.SetReadingClock` | sensor_cc13xx_lp/Application/ssf.c:558-572 | only the reading clock changes; zero stops it and any other duration arms it |
| `Ssf.SetPollClock` | sensor_cc13xx_lp/Application/ssf.c:690-704 | only the poll clock changes; zero stops it and any other duration arms it |
| `Ssf.SetScanBackoffClock` | sensor_cc13xx_lp/Application/ssf.c:727-741 | only the scan-backoff clock changes; zero stops it and any other duration arms it |
| `Ssf.SetClockForgets` | sensor_cc13xx_lp/Application/ssf.c:558-741 | setting a clock twice is the same as setting it once with the second duration |
| `Ssf.Random16` | sensor_cc13xx_lp/Application/ssf.c:636-645 | the 16-bit random value has the first byte as its high byte and the second as its low byte |
| `Ssf.SetFHAssocClock` | sensor_cc13xx_lp/Application/ssf.c:764-781 | only the association clock changes; zero stops it; otherwise it is armed with the duration plus less than 10000 |
| `Ssf.FHAssocDelayReachable` | sensor_cc13xx_lp/Application/ssf.c:764-781 | every delay in the window is reached by some random bytes |
| `Ssf.TrickleDelay` | sensor_cc13xx_lp/Application/ssf.c:636-645 | the trickle delay lies in [t/2, 2(t/2) - 1], below t |
| `Ssf.SetTrickleClock` | sensor_cc13xx_lp/Application/ssf.c:625-666 | only the clock chosen by the frame type changes; zero stops it, a positive window arms it within the trickle bounds, other frame types change nothing, and a window of 1 divides by zero |
| `Ssf.TrickleDelayReachable` | sensor_cc13xx_lp/Application/ssf.c:636-645 | every delay in the trickle window is reached by some random bytes |
| `Ssf.UpdateFrameCounter` | sensor_cc13xx_lp/Application/ssf.c:848-870 | only the own counter is saved, only once it reaches the last saved value plus 25, and the last saved value follows only a successful write |
| `Ssf.GetFrameCounter` | sensor_cc13xx_lp/Application/ssf.c:877-926 | a readable own counter is returned advanced by 25 with true; an unreadable one writes 0 to NV and returns 0 with false; another device's returns 0 with false |
| `Ssf.NextCounterCovered` | sensor_cc13xx_lp/Application/ssf.c:848-870 | offering each next counter keeps every used counter below the saved value plus the window |
| `Ssf.NoCounterReuse` | sensor_cc13xx_lp/Application/ssf.c:877-926 | after a restart the counter read back exceeds every counter used before |
| `Ssf.Scan` | sensor_cc13xx_lp/Application/ssf.c:809-836 | the search loop answers -1 or a sub-ID at or after where it started and below 500 |
| `Ssf.ScanFinds` | sensor_cc13xx_lp/Application/ssf.c:809-836 | the search loop finds the first listed record holding the address, and answers -1 only when no listed record holds it |
| `Ssf.FindBlackListIndex` | sensor_cc13xx_lp/Application/ssf.c:789-841 | the index is -1 for a NULL or none address; otherwise it is the smallest listed sub-ID holding the address, or -1 when none does |
| `Ssf.UnusedFromSpec` | sensor_cc13xx_lp/Application/ssf.c:1261-1304 | the free-index loop passes only occupied sub-IDs and stops at the first free one, at the count or at the limit |
| `Ssf.FindUnusedIndex` | sensor_cc13xx_lp/Application/ssf.c:1261-1304 | every sub-ID below the answer is occupied, and the answer is free unless the count or the limit was reached |
| `Ssf.EmptyBlacklistValid` | sensor_cc13xx_lp/Application/ssf.c:1311-1333 | an empty NV store is a valid blacklist in which nothing is found |
| `Ssf.FindIffRecorded` | sensor_cc13xx_lp/Application/ssf.c:789-841 | in a valid blacklist, the search answers sub-ID k exactly when k holds the address |
| `Ssf.UnusedIsFree` | sensor_cc13xx_lp/Application/ssf.c:1261-1304 | in a valid blacklist the unused index is below the limit and holds no record |
| `Ssf.Insert` | sensor_cc13xx_lp/Application/ssf.c:1048-1070 | the record is written at the unused index exactly when there is room and the record write succeeds, and the add then reports success whatever the count save does; the stored count becomes one higher only when that save succeeds; otherwise nothing changes |
| `Ssf.AddBlackListItemAsWritten` | sensor_cc13xx_lp/Application/ssf.c:1036-1075 | as written, the list changes only when the address is already at sub-ID 0, and a new address returns true with no write |
| `Ssf.NewAddressLostAsWritten` | sensor_cc13xx_lp/Application/ssf.c:1043 | adding a new address to an empty blacklist reports success but the address is then not found |
| `Ssf.AddBlackListItem` | sensor_cc13xx_lp/Application/ssf.c:1036-1075 | corrected add: unusable addresses fail; a present address succeeds without a write; only an absent address is written |
| `Ssf.AddBlackListItemSpec` | sensor_cc13xx_lp/Application/ssf.c:1036-1075 | the corrected add succeeds exactly when the address was present or there was room and the record write succeeded; with the count saved it keeps the blacklist valid and a reported success leaves the address found; with the count save failed the stored count is one short of the records |
| `Ssf.RemoveBlackListItemAsWritten` | sensor_cc13xx_lp/Application/ssf.c:1082-1114 | as written, only a record found at a sub-ID above 0 is deleted, and the count drops by one only when it was positive and its save succeeds |
| `Ssf.SubIdZeroKeptAsWritten` | sensor_cc13xx_lp/Application/ssf.c:1090 | a record at sub-ID 0 is still found after removing it |
| `Ssf.RemoveBlackListItem` | sensor_cc13xx_lp/Application/ssf.c:1082-1114 | corrected remove deletes the record found at any sub-ID when the NV delete succeeds, and changes nothing otherwise; the count drops by one only when it was positive and its save succeeds |
| `Ssf.RemoveBlackListItemSpec` | sensor_cc13xx_lp/Application/ssf.c:1082-1114 | after a successful delete the address is no longer found; with the count saved the blacklist stays valid, and with the count save failed the stored count is one more than the records |
| `Ssf.AddThenRemove` | sensor_cc13xx_lp/Application/ssf.c:1036-1114 | adding an absent address and removing it again restores the records |
| `Ssf.UnsavedCountHidesRecord` | sensor_cc13xx_lp/Application/ssf.c:1062-1068 | when only the count save fails, an address added to the empty blacklist is reported added and stored, yet the search (which reads no more records than the stale count) does not find it |
| `SensorApp.TypeBits` | sensor_cc13xx_lp/Application/sensor.c:540-555 | the type bits of a command lie within the 0x60 application mask |
| `SensorApp.GetMsduHandle` | sensor_cc13xx_lp/Application/sensor.c:526-558 | the handle counter stays within 0..0x1F and advances by one modulo 0x20 |
| `SensorApp.HandleRoundTrip` | sensor_cc13xx_lp/Application/sensor.c:526-558 | the handle's 0x60 bits recover the message kind and its low bits the counter |
| `SensorApp.StatsWords` | sensor_cc13xx_lp/Application/sensor.c:747-768 | the statistics field is sixteen 16-bit words |
| `SensorApp.DataCnf` | sensor_cc13xx_lp/Application/sensor.c:394-444 | each failure status increments only its own counter; success increments only the sent counter of the handle's kind and offers the frame counter for saving; nothing else changes |
| `SensorApp.ConfirmCountsIssuedKind` | sensor_cc13xx_lp/Application/sensor.c:397-443 | a successful confirm of a handle from `getMsduHandle` counts a message of the kind it was issued for |
| `SensorApp.FailuresCountedOnce` | sensor_cc13xx_lp/Application/sensor.c:397-443 | a confirm changes the failure counters by at most one in total |
| `SensorApp.SendMsg` | sensor_cc13xx_lp/Application/sensor.c:571-626 | a sent frame carries the next handle and is appended to the sent list; only the attempt counter of its kind changes |
| `SensorApp.Compose` | sensor_cc13xx_lp/Application/sensor.c:902-934 | a frame-control value built from five field flags has exactly those field bits |
| `SensorApp.BitsDetermine` | sensor_cc13xx_lp/Application/sensor.c:902-934 | two frame-control values below 0x20 with the same field bits are equal |
| `SensorApp.Decompose` | sensor_cc13xx_lp/Application/sensor.c:902-934 | a frame-control value below 0x20 is the composition of its own field bits |
| `SensorApp.ValidateFrameControl` | sensor_cc13xx_lp/Application/sensor.c:902-934 | the validated frame control keeps exactly the requested fields this build supports |
| `SensorApp.ValidateFrameControlIdempotent` | sensor_cc13xx_lp/Application/sensor.c:829-833 | validating twice equals validating once, and validation changes nothing exactly when every requested field is supported and nothing else is set |
| `SensorApp.ConfigRspBytes` | sensor_cc13xx_lp/Application/sensor.c:880-893 | the config response has the fixed response length |
| `SensorApp.ConfigRspRoundTrip` | sensor_cc13xx_lp/Application/sensor.c:880-893 | the config response layout reads back as the response written |
| `SensorApp.ConfigReqBytes` | sensor_cc13xx_lp/Application/sensor.c:802-815 | the config request has the fixed request length |
| `SensorApp.ConfigReqRoundTrip` | sensor_cc13xx_lp/Application/sensor.c:804-815 | the config request layout reads back as the request written |
| `SensorApp.ApplyConfig` | sensor_cc13xx_lp/Application/sensor.c:794-870 | a request of the wrong length is invalid and changes nothing; otherwise the frame control is filtered and each interval is applied only in range, with partial success whenever a value is changed or refused; nothing else changes |
| `SensorApp.ProcessConfigRequest` | sensor_cc13xx_lp/Application/sensor.c:794-870 | the settings, collector, reading clock and poll rate become those of applying the request; exactly one response goes back to the requester, and it reads back as the outcome of applying the request |
| `SensorApp.ConfigRequestAccepted` | sensor_cc13xx_lp/Application/sensor.c:829-858 | a request with supported fields and in-range intervals succeeds and is applied as sent |
| `SensorApp.SensorBytes` | sensor_cc13xx_lp/Application/sensor.c:695-717 | the sensor message length is the basic length plus the length of each selected field |
| `SensorApp.TakeTempRoundTrip` | sensor_cc13xx_lp/Application/sensor.c:731-735 | the temperature field reads back when selected and takes no bytes otherwise |
| `SensorApp.TakeLightRoundTrip` | sensor_cc13xx_lp/Application/sensor.c:736-739 | the light field reads back when selected and takes no bytes otherwise |
| `SensorApp.TakeHumidityRoundTrip` | sensor_cc13xx_lp/Application/sensor.c:740-744 | the humidity field reads back when selected and takes no bytes otherwise |
| `SensorApp.TakeStatsRoundTrip` | sensor_cc13xx_lp/Application/sensor.c:745-771 | the statistics field reads back when selected and takes no bytes otherwise |
| `SensorApp.TakeConfigRoundTrip` | sensor_cc13xx_lp/Application/sensor.c:772-779 | the config settings field reads back when selected and takes no bytes otherwise |
| `SensorApp.SensorRoundTrip` | sensor_cc13xx_lp/Application/sensor.c:724-779 | a well-formed sensor message, laid out in the fixed field order, reads back as itself |
| `SensorApp.FieldsRoundTrip` | sensor_cc13xx_lp/Application/sensor.c:731-779 | the selected fields read back exactly |
| `SensorApp.FieldsParsed` | sensor_cc13xx_lp/Application/sensor.c:731-779 | for any message, parsing the field bytes recovers the selected fields and zeroes the rest |
| `SensorApp.ProcessSensorMsgEvt` | sensor_cc13xx_lp/Application/sensor.c:631-681 | when buffered, one message goes to the collector and reads back as the message built from the readings; otherwise nothing is sent |
| `SensorApp.BuildSensorMsg` | sensor_cc13xx_lp/Application/sensor.c:631-681 | the built message is well formed, carries the configured frame control and the device address, and reports the security failure and reset counts |
| `SensorApp.DataInd` | sensor_cc13xx_lp/Application/sensor.c:451-511 | an empty or insecure frame is ignored; tracking and toggle requests act only at their exact lengths; a config request is counted, answered once and applies its settings, collector, reading clock and poll rate; unknown commands are ignored; any reply goes to the sender |
| `SensorApp.TrackingAnswered` | sensor_cc13xx_lp/Application/sensor.c:473-489 | a secure tracking request is answered with one tracking response to its sender |
| `ApiMac.ConvertCapabilityInfo` | coprocessor_cc13xx_lp/Application/CoP/api_mac.c:1480-1515 | each capability bit is set exactly when its field is true, and no other bit is set |
| `ApiMac.BuildMsgCapInfo` | coprocessor_cc13xx_lp/Application/CoP/api_mac.c:1522-1553 | each field is set when its bit is set and otherwise keeps the target's value: fields are set, never cleared |
| `ApiMac.CapabilityRoundTrip` | coprocessor_cc13xx_lp/Application/CoP/api_mac.c:1480-1553 | decoding an encoded capability into a zeroed target gives it back |
| `ApiMac.CapabilityByteRoundTrip` | coprocessor_cc13xx_lp/Application/CoP/api_mac.c:1480-1553 | encoding a decoded capability byte gives back its defined bits |
| `ApiMac.ConvertTxOptions` | coprocessor_cc13xx_lp/Application/CoP/api_mac.c:3314-3348 | each TX option flag is present exactly when its option is set |
| `ApiMac.TxOptionsRoundTrip` | coprocessor_cc13xx_lp/Application/CoP/api_mac.c:3314-3348 | the TX options read back from their flags |
| `ApiMac.ParseLoopShape` | coprocessor_cc13xx_lp/Application/CoP/api_mac.c:3208-3302 | the parse loop ends with a list within the room, of group IEs in group mode, and empty on any error |
| `ApiMac.ParseLoop` | coprocessor_cc13xx_lp/Application/CoP/api_mac.c:3208-3289 | the loop stops with success and the list so far once the consumed length reaches the content length; it reads beyond the buffer only at a header position at or after where it started whose two bytes do not fit |
| `ApiMac.ParseHeader` | coprocessor_cc13xx_lp/Application/CoP/api_mac.c:3214-3288 | one pass over a header: in group mode a short IE ends the parse as unsupported with no records kept; a read beyond the buffer happens only at a later header that does not fit |
| `ApiMac.ParsePayloadIes` | coprocessor_cc13xx_lp/Application/CoP/api_mac.c:3191-3305 | a NULL or empty payload gives no data and leaves the prior list; an error empties the list; a group parse lists only long-type group IEs; the list fits the room |
| `ApiMac.HeaderOf` | coprocessor_cc13xx_lp/Application/CoP/api_mac.c:155-179 | a header encodes the IE's type, ID and length in the long or short layout |
| `ApiMac.EncodeIe` | coprocessor_cc13xx_lp/Application/CoP/api_mac.c:3214-3225 | an IE is its two-byte little-endian header followed by its content |
| `ApiMac.Records` | coprocessor_cc13xx_lp/Application/CoP/api_mac.c:3250-3282 | one record per IE, in input order |
| `ApiMac.ParseOne` | coprocessor_cc13xx_lp/Application/CoP/api_mac.c:3214-3282 | one well-formed IE is listed with its type, ID, length and a content offset just after its header |
| `ApiMac.ParseEncoded` | coprocessor_cc13xx_lp/Application/CoP/api_mac.c:3208-3289 | a run of encoded IEs is listed in order, each with its content right after its own header |
| `ApiMac.SubIesRoundTrip` | coprocessor_cc13xx_lp/Application/CoP/api_mac.c:3191-3305 | parsing encoded sub-IEs succeeds and lists exactly those IEs with their offsets |
| `ApiMac.ParseAtTerminator` | coprocessor_cc13xx_lp/Application/CoP/api_mac.c:3236-3240 | in group mode a termination IE stops the parse with success and is not listed |
| `ApiMac.ParseAtShort` | coprocessor_cc13xx_lp/Application/CoP/api_mac.c:3227-3234 | in group mode a short-type IE stops the parse as unsupported with an empty list |
| `ApiMac.GroupStopsAt` | coprocessor_cc13xx_lp/Application/CoP/api_mac.c:3208-3289 | group IEs followed by a terminator are all listed and parsing stops there |
| `ApiMac.GroupRejectsAt` | coprocessor_cc13xx_lp/Application/CoP/api_mac.c:3227-3234 | group IEs followed by a short IE give unsupported and an empty list |
| `ApiMac.GroupIesStopAtTerminator` | coprocessor_cc13xx_lp/Application/CoP/api_mac.c:3191-3305 | encoded group IEs, a terminator and any trailer parse to exactly those IEs with success |
| `ApiMac.GroupRejectsShortIe` | coprocessor_cc13xx_lp/Application/CoP/api_mac.c:3191-3305 | encoded group IEs followed by a short IE parse to unsupported with an empty list |
| `ApiMac.TruncatedHeaderReadsBeyond` | coprocessor_cc13xx_lp/Application/CoP/api_mac.c:3214 | a one-byte payload makes the header read go past the buffer |
| `ApiMac.MlmeScanReq` | coprocessor_cc13xx_lp/Application/CoP/api_mac.c:954-1016 | a scan request while one is outstanding returns scan-in-progress; success needs no scan outstanding and both allocations; afterwards a scan is outstanding exactly when one was or this one succeeded |
| `ApiMac.RunScans` | coprocessor_cc13xx_lp/Application/CoP/api_mac.c:954-1016 | a sequence of requests and confirms answers each request once |
| `ApiMac.OneScanAtATime` | coprocessor_cc13xx_lp/Application/CoP/api_mac.c:2504-2508 | between two successful scan requests a scan confirm was processed |
| `ApiMac.NoSuccessWhileBusy` | coprocessor_cc13xx_lp/Application/CoP/api_mac.c:960-963 | while a scan is outstanding no request succeeds until a confirm |
| `FhHop.SearchKeepsState` | sensor_cc13xx_lp/Application/jdllc.c:913-928 | the byte search keeps the bitmap equal to the rest of the byte the index points into |
| `FhHop.BitScanFindsSetBit` | sensor_cc13xx_lp/Application/jdllc.c:930-949 | the bit scan stops on an enabled channel at or after the index, and leaves the index just past it |
| `FhHop.HopAsWrittenFindsSetChannel` | sensor_cc13xx_lp/Application/jdllc.c:896-953 | as written, an index past the mask gives channel 0 and leaves the index; any other non-default answer is an enabled channel with the index left just past it |
| `FhHop.HopAsWritten` | sensor_cc13xx_lp/Application/jdllc.c:896-953 | as written, an index past the mask gives the default channel and leaves the index without reading the mask; a non-default channel leaves the index just past it |
| `FhHop.SearchAsWritten` | sensor_cc13xx_lp/Application/jdllc.c:913-928 | the byte search ends on a non-empty bitmap or back at its start byte, never beyond the end of the mask, and an over-read once recorded stays recorded |
| `FhHop.BitScan` | sensor_cc13xx_lp/Application/jdllc.c:930-952 | the bit scan returns a non-default channel with the index just past it; with no positions left it returns the default with the index where it stands |
| `FhHop.TrimMaskBits` | sensor_cc13xx_lp/Application/jdllc.c:355-366 | the trimmed mask enables exactly the enabled channels below the radio's channel count |
| `FhHop.StartByteNotRevisitedAsWritten` | sensor_cc13xx_lp/Application/jdllc.c:916 | with only channel 9 enabled, the source answers the default channel from index 10 and channel 9 from index 0, where channel 9 is intended both times |
| `FhHop.LastByteSkippedAsWritten` | sensor_cc13xx_lp/Application/jdllc.c:916-927 | with only channel 8 enabled in a two-byte mask, the source returns the default channel where channel 8 is intended |
| `FhHop.OverreadAsWritten` | sensor_cc13xx_lp/Application/jdllc.c:916-921 | a search starting in the last byte reads one byte past the mask |
| `FhHop.FirstSet` | sensor_cc13xx_lp/Application/jdllc.c:896-953 | the first enabled channel in a range, and none only when the range has no enabled channel |
| `FhHop.GetHopChannel` | sensor_cc13xx_lp/Application/jdllc.c:896-953 | corrected hop: an index past the mask gives the default and leaves it; otherwise the answer is the first enabled channel at or after the index, wrapping to the first overall, with the index left just past it (channel 0 included); with any channel enabled an enabled channel is returned, and with none the default with the index unchanged |
| `Jdllc.UpdateState` | sensor_cc13xx_lp/Application/jdllc.c:1588-1600 | moving to the current state does nothing; otherwise the previous state becomes the old current one and exactly one state-change notice is issued |
| `Jdllc.UpdateStateIdempotent` | sensor_cc13xx_lp/Application/jdllc.c:1588-1600 | a second update to the same state changes nothing and issues nothing |
| `Jdllc.SwitchState` | sensor_cc13xx_lp/Application/jdllc.c:803-807 | the scan sub-state is set and the state-change flag raised; no other flag changes |
| `Jdllc.Rescan` | sensor_cc13xx_lp/Application/jdllc.c:1042-1096 | a non-beacon device still scanning rescans actively, a beacon-mode device passively, otherwise nothing changes |
| `Jdllc.LoseParent` | sensor_cc13xx_lp/Application/jdllc.c:1607-1650 | losing the parent clears the failure count, orphans the device, turns the receiver on and stops polling; a hopping device forgets its parent and restarts the PCS trickle; another starts an orphan scan |
| `Jdllc.Init` | sensor_cc13xx_lp/Application/jdllc.c:247-389 | init waits in the initial state with no failures, the configured PAN and polling interval, and starts active or passive scanning by network type; a sleepy hopping device's mask keeps exactly its enabled channels below the radio's channel count, and its index moves past the first fixed channel taken from that mask; otherwise mask and index are untouched |
| `Jdllc.Boot` | sensor_cc13xx_lp/Application/jdllc.c:141-154 | a booted controller has no parent, no pending flags and all counters at zero; a sleepy hopping device's index sits just past the first fixed channel of its trimmed mask, any other device's at 0 with the mask as configured |
| `Jdllc.SleepyHoppingBoot` | sensor_cc13xx_lp/Application/jdllc.c:355-369 | a sleepy hopping device booted with channels 0 and 1 enabled has index 1, so its first poll writes fixed channel 1 |
| `Jdllc.Join` | sensor_cc13xx_lp/Application/jdllc.c:515-548 | joining enters the joining state; a hopping device starts the PAS trickle, another starts scanning and, when sleepy, the backoff clock |
| `Jdllc.Rejoin` | sensor_cc13xx_lp/Application/jdllc.c:556-618 | rejoining restores the stored device and parent; a hopping device restarts the PCS trickle, a sleepy non-hopping one polls |
| `Jdllc.SfsBeaconOrder` | sensor_cc13xx_lp/Application/jdllc.c:871-886 | the beacon order of a superframe spec is a 4-bit value |
| `Jdllc.SfsSuperframeOrder` | sensor_cc13xx_lp/Application/jdllc.c:960-1035 | the superframe order of a superframe spec is a 4-bit value |
| `Jdllc.SfsRoundTrip` | sensor_cc13xx_lp/Application/jdllc.c:871-886 | a superframe spec built from its fields reads them back |
| `Jdllc.CheckBeaconOrder` | sensor_cc13xx_lp/Application/jdllc.c:871-886 | a non-beacon device accepts only beacon order 15; a beacon-mode device any order up to its own |
| `Jdllc.BeaconOrderAcceptance` | sensor_cc13xx_lp/Application/jdllc.c:871-886 | a beacon-mode device accepting an order accepts every lower one |
| `Jdllc.BeaconNotify` | sensor_cc13xx_lp/Application/jdllc.c:960-1035 | a beacon is adopted only without a parent, from a coordinator not blacklisted, with association permitted, an acceptable order and a matching or wildcard PAN; adopting records the PAN, channel and coordinator; otherwise nothing changes |
| `Jdllc.BeaconsIgnoredOnceParentFound` | sensor_cc13xx_lp/Application/jdllc.c:960-1035 | once a parent is found, or from a blacklisted coordinator, beacons change nothing |
| `Jdllc.ScanCnf` | sensor_cc13xx_lp/Application/jdllc.c:1042-1096 | a successful active scan asks to associate, a passive one moves to sync, an orphan one to realignment; a failed orphan scan stays orphaned; other failures rescan |
| `Jdllc.AssocGranted` | sensor_cc13xx_lp/Application/jdllc.c:1103-1222 | a granted association joins, records the short address, notifies the application and starts polling when sleepy |
| `Jdllc.AssocRefused` | sensor_cc13xx_lp/Application/jdllc.c:1224-1238 | a refused hopping device counts the attempt (wrapping at 256) and retries below the maximum, and at the maximum forgets its parent and restarts the PCS trickle; a non-hopping device rescans |
| `Jdllc.AssocCnf` | sensor_cc13xx_lp/Application/jdllc.c:1103-1246 | the confirm dispatches on whether the association was granted |
| `Jdllc.RefusalsUntilGiveUp` | sensor_cc13xx_lp/Application/jdllc.c:1224-1238 | after k refusals the attempt count is k, and the parent is kept exactly while k is below the maximum |
| `Jdllc.DisassocCnf` | sensor_cc13xx_lp/Application/jdllc.c:1254-1277 | a successful disassociation returns to waiting without a parent and stops polling; a failure only notifies |
| `Jdllc.DisassocInd` | sensor_cc13xx_lp/Application/jdllc.c:1863-1885 | being disassociated returns to waiting without a parent, stops polling and notifies the application last |
| `Jdllc.SyncLoss` | sensor_cc13xx_lp/Application/jdllc.c:1563-1581 | losing sync orphans the device and starts an orphan scan |
| `Jdllc.DataCnf` | sensor_cc13xx_lp/Application/jdllc.c:1607-1650 | success clears the failure count, noAck increments it and at the maximum loses the parent, other statuses change nothing; the count stays below the maximum |
| `Jdllc.PollCnf` | sensor_cc13xx_lp/Application/jdllc.c:1743-1856 | success or no data clears the failure count and finishes a restore; noAck counts like a data confirm and re-polls; a channel access failure re-polls; the count stays below the maximum |
| `Jdllc.ProcessCoordRealign` | sensor_cc13xx_lp/Application/jdllc.c:1679-1736 | with a matching PAN the join state returns to the previous one (restoring becomes rejoined) and polling restarts; otherwise the device is orphaned and scans |
| `Jdllc.RealignRestores` | sensor_cc13xx_lp/Application/jdllc.c:1679-1736 | an orphan realigned on its own PAN returns to its previous joined state with a state-change notice |
| `Jdllc.Pad` | sensor_cc13xx_lp/Application/jdllc.c:1328-1336 | the network name is zero-padded to 32 bytes |
| `Jdllc.Gather` | sensor_cc13xx_lp/Application/jdllc.c:1302-1394 | the sub-IE walk only appends PAN-size PIB writes to the effects |
| `Jdllc.GatherNetName` | sensor_cc13xx_lp/Application/jdllc.c:1302-1394 | the network name gathered is the last network-name sub-IE present |
| `Jdllc.AddSecDeviceFx` | sensor_cc13xx_lp/Application/jdllc.c:762-796 | a device is added to the security table exactly when security is on |
| `Jdllc.AcceptAsync` | sensor_cc13xx_lp/Application/jdllc.c:1406-1513 | solicits are counted; a PAN advert records the PAN and coordinator and starts the PCS trickle without a parent; a PAN config stops the trickle, finds the parent and resets the attempts when none was known |
| `Jdllc.WsAsyncInd` | sensor_cc13xx_lp/Application/jdllc.c:1285-1518 | a frame other than PAN config is ignored unless it names this network, with only the sub-IE loop's PAN-size writes; an accepted frame has the sub-IE loop's effects followed by exactly those of `AcceptAsync` (PIB writes, `addSecDevice`, clocks); the join states and the failure count never change |
| `Jdllc.PasTick` | sensor_cc13xx_lp/Application/jdllc.c:394-409 | the PAS trickle sends a solicit only when none was heard, zeroes the count and re-arms itself |
| `Jdllc.PcsTick` | sensor_cc13xx_lp/Application/jdllc.c:412-427 | the PCS trickle sends a solicit only when none was heard, zeroes the count and re-arms itself |
| `Jdllc.ProcessState` | sensor_cc13xx_lp/Application/jdllc.c:815-862 | each scan sub-state issues its scan, backoff issues nothing, and sync requests sync and asks to associate once a parent is known |
| `Jdllc.PollTick` | sensor_cc13xx_lp/Application/jdllc.c:439-465 | in a non-beacon network a poll goes to the parent and a joined device re-arms the poll clock; a hopping device takes the next fixed channel, writes it to the unicast fixed-channel PIB and moves its index past it; a non-hopping device's record is unchanged; in beacon mode nothing happens |
| `Jdllc.ScanBackoffTick` | sensor_cc13xx_lp/Application/jdllc.c:486-507 | backoff alternates between silence and resuming the previous scan sub-state, re-arming the backoff clock each time |
| `Jdllc.HandlerFacts` | sensor_cc13xx_lp/Application/jdllc.c:391-507 | no flag handler touches the failure count, the attempts or the parent flag, and each raises only its listed flags |
| `Jdllc.RunFlags` | sensor_cc13xx_lp/Application/jdllc.c:391-507 | running the handlers only appends effects |
| `Jdllc.RunKeepsCounters` | sensor_cc13xx_lp/Application/jdllc.c:391-507 | a run over any flag order keeps the counters and the consistency of the join states |
| `Jdllc.RunClearsFlags` | sensor_cc13xx_lp/Application/jdllc.c:391-507 | when every handler raises only later flags or a state change, a run leaves only the unhandled flags and possibly a state change |
| `Jdllc.SecurityFill` | sensor_cc13xx_lp/Application/jdllc.c:712-727 | with security on, frames carry the key source of the first key-lookup entry, level 5, key-ID mode 3 and key index 3; with it off, an all-zero key source and zeros |
| `Jdllc.SecurityCheck` | sensor_cc13xx_lp/Application/jdllc.c:734-755 | a frame passes exactly when security is off or it carries parameters at level 5 |
| `Jdllc.FillPassesCheck` | sensor_cc13xx_lp/Application/jdllc.c:712-755 | a frame sent with the filled-in parameters passes the check, and one without parameters fails it when security is on |
| `Jdllc.BootInvariant` | sensor_cc13xx_lp/Application/jdllc.c:141-154 | a booted controller satisfies the invariant when at least one failure is tolerated |
| `Jdllc.ProcessKeepsCounters` | sensor_cc13xx_lp/Application/jdllc.c:391-507 | a pass of `Jdllc_process` touches neither the failure count nor the attempts, and keeps the join states consistent |
| `Jdllc.Process` | sensor_cc13xx_lp/Application/jdllc.c:391-508 | a pass with no event flag pending changes nothing and has no effect |
| `Jdllc.Step` | sensor_cc13xx_lp/Application/jdllc.c:625-657 | setting the poll rate changes only the poll interval; a disassociation request changes nothing and sends one request to the coordinator; raising a flag only adds it; processing with no flag pending does nothing |
| `Jdllc.SendAssocReq` | sensor_cc13xx_lp/Application/jdllc.c:1525-1556 | the association request goes to the device's PAN, on channel 0 to the coordinator's extended address when hopping, else on the device's channel to its short address |
| `Jdllc.ProcessClearsFlags` | sensor_cc13xx_lp/Application/jdllc.c:391-507 | after one pass only a state-change flag can be pending |
| `Jdllc.StepFactsOnCalls` | sensor_cc13xx_lp/Application/jdllc.c:247-657 | the application's calls keep the invariant and change the attempts and the parent flag only as allowed |
| `Jdllc.StepFactsOnConfirms` | sensor_cc13xx_lp/Application/jdllc.c:1042-1277 | the scan, association and disassociation confirms keep the invariant and change the attempts and parent flag only as allowed |
| `Jdllc.StepFactsOnTraffic` | sensor_cc13xx_lp/Application/jdllc.c:1607-1856 | the data and poll confirms keep the invariant |
| `Jdllc.StepFactsOnIndications` | sensor_cc13xx_lp/Application/jdllc.c:960-1581 | the beacon, async, disassociation and sync-loss indications keep the invariant |
| `Jdllc.StepKeepsInvariant` | sensor_cc13xx_lp/Application/jdllc.c:391-1885 | every input keeps the invariant; the attempts change only on a hopping device's refusal or a PAN config without a parent; a parent is found only by a beacon, a hopping device's grant or a PAN config |
| `Jdllc.RunKeepsInvariant` | sensor_cc13xx_lp/Application/jdllc.c:391-1885 | every state reached by any sequence of inputs keeps the failure count below the maximum and the join states consistent |

## Left out

- Hardware, RTOS and startup code is not modelled. This covers UART and LCD set-up, TI-RTOS clock objects, ISR plumbing, critical sections and busy waits. A timer is an armed duration or stopped.
- ISR-versus-main concurrency on the ring buffer is not modelled. Everything runs sequentially.
- The MAC, PIB, NV driver and random-byte source are not called. The random bytes, the NV read, write and delete outcomes the blacklist and frame-counter code depend on (including the unchecked write of the blacklist count in `saveNumBlackListEntries`) and the PIB's PAN ID are parameters.
- `Ssf.AddBlackListItemSpec` and `Ssf.RemoveBlackListItemSpec` promise a valid blacklist only when the count save succeeds: `saveNumBlackListEntries` ignores the write's result, so a failed save leaves the stored count one off, and the model states that mismatch instead.
- Values from headers that are not part of this model are assumed:
  - the superframe-spec bit layout;
  - the 32-byte network-name limit;
  - security level 5 and key-ID mode 3;
  - the `fh_nt` flag bits CREATED=1, UTIE=2, EXPIRED=4;
  - the channel-function codes `FHIE_CF_SINGLE_CHANNEL` = 0 and `FHIE_CF_DH1CF` = 2 that `FHNT_getEntry` compares with.
- `printchar`'s UART path (`writechar`) and `SOS_DEBUG`/`debug_print` are not modelled. Only the buffer path of `sprintf` is.
- `Printf.ParseDirective` gives no meaning to a width that overflows `int`, or to a format that ends after flags or width digits (the loop steps past the NUL). Rendering is `Undefined` there.
- `Printf.Sprintf` requires the format and arguments to render, because C gives no meaning to a missing or mistyped variadic argument.
- `Printf.Sprintf` converts integers with the corrected `printi` (`Printf.IntText`), so it differs from `sprintf` as written on a negative value under `%x`, `%X` or `%u` and on LONG_MIN under `%d`; `Printf.PrintiAsWritten` and the two findings rows give the as-written text.
- `RingBuffer.Push` requires a NUL within 20 bytes when there is room: `strcpy` is unbounded.
- `EspAt.RxStep` excludes a '>' arriving as the 20th byte, which writes one past the 20-byte array at main.c:220. The byte stored just before the array, which main.c:208-210 reads and clears when the index is 1, is the framer's `below` field: what other variable it belongs to is not modelled.
- `EspAt.Feed` excludes '>' from the stream for the same reason.
- `EspAt.Step`: the generated sensor payload (`faceData`) is the `Report` item, and the busy waits are not modelled.
- `Ssf.SetTrickleClock`: a window of 1 is modelled as a `DivisionByZero` outcome.
- `ApiMac.ParsePayloadIes` requires `contentLen` not to exceed the buffer. A header read past the buffer returns `ReadsBeyond` instead of reading memory.
- `ApiMac.MlmeScanReq`: the result copying in `processScanCnf` is not modelled, only its release of the outstanding-scan guard.
- The ICall message plumbing and the `ApiMac_*` request wrappers of api_mac.c are not modelled.
- `FHNT_init` and the purge timer callback are not modelled.
- Jdllc statistics counters are not modelled. This covers the `Sensor_msgStats` increments in jdllc.c (`joinFails`, `joinAttempts`, `syncLossIndications`).
- The pass-throughs from the jdllc.c callbacks to the application's `macCallbacksCopy.p*Cb` are not modelled: they hand the same indication on unchanged.
- `Jdllc_init`'s PIB writes and callback registration are not modelled. `Jdllc.Init` states only the controller's fields; the first fixed channel it takes is written to the PIB there, and only the index it leaves is modelled.
- `Jdllc.Init`: `APIMAC_154G_MAX_NUM_CHANNEL` comes from a header that is not part of this model; it is the configuration's `maxChannels`, 129 in `DefaultConfig`. The first hop uses the corrected `FhHop.GetHopChannel`, as `Jdllc.PollTick` does.
- `Jdllc_securityInit` is not modelled: it only registers keys with the MAC.
- In `Jdllc.BeaconNotify`, the coordinator's short address is a separate parameter, where the source reads it from the address union.
- `Jdllc.AcceptAsync` reads the PAN IE's route cost and flags from the same byte, as the source does.
- `Jdllc.WsAsyncInd`: sub-IEs from several group IEs are flattened into one list.
- `SensorApp.ProcessSensorMsgEvt`: the sensor readings are parameters, and the LED, LCD and key handling is not modelled.
- NV reset-count bookkeeping and `Ssf_init` are not modelled.

## Findings

| source | as written | input that shows it | evidently intended | confidence | as-written member | corrected member |
|---|---|---|---|---|---|---|
| sensor_cc13xx_lp/Application/uart_debug.c:135-145 | `printi` keeps `u` signed, so a negative value under `%x`, `%X` or `%u` yields negative remainders and characters below '0' | `sprintf(buf, "%x", -1)` writes "/" | the 32-bit unsigned digits, "ffffffff" | high, not executed | `Printf.NegativeHexAsWritten` | `Printf.UnsignedRoundTrip` |
| timac_cc13xx/MAC/fh/fh_nt.c:128-145 | `FHNT_getRemoveEntry` starts from slot 0 and moves only on a strictly greater positive age, so with no aged non-parent entry it evicts slot 0 even when it holds the parent | a full two-slot table with the parent in slot 0 and the other node aged 0 | evict the non-parent node | high, not executed | `NeighbourTable.ParentEvictedAsWritten` | `NeighbourTable.ParentKept` |
| sensor_cc13xx_lp/Application/ssf.c:1043 | `if(Ssf_findBlackListIndex(pAddr))` treats -1 (not found) as found and 0 as not found | adding a new address to an empty blacklist returns true with no write | write when not found (-1) | high, not executed | `Ssf.NewAddressLostAsWritten` | `Ssf.AddBlackListItemSpec` |
| sensor_cc13xx_lp/Application/ssf.c:1090 | `removeBlackListItem` deletes only when `index > 0`, so the record at sub-ID 0 is never removed | a blacklist holding one address at sub-ID 0 | delete when `index >= 0` | high, not executed | `Ssf.SubIdZeroKeptAsWritten` | `Ssf.RemoveBlackListItemSpec` |
| sensor_cc13xx_lp/Application/jdllc.c:916-927 | the hop search wraps to byte 0 as soon as the next position reaches the last byte, so the last mask byte is never searched | mask `[0x00, 0x01]`, index 0: returns channel 0 | channel 8, the only enabled one | medium, not executed | `FhHop.LastByteSkippedAsWritten` | `FhHop.GetHopChannel` |
| sensor_cc13xx_lp/Application/jdllc.c:916 | the hop search stops on returning to its start byte, so the channels of that byte below the index are never searched | mask `[0x00, 0x02, 0x00]`, index 10: returns channel 0 and resets the index, then channel 9 on the next call | channel 9 on every call | medium, not executed | `FhHop.StartByteNotRevisitedAsWritten` | `FhHop.GetHopChannel` |
| sensor_cc13xx_lp/Application/uart_debug.c:129-133 | `u = -i` overflows for LONG_MIN and leaves `u` negative, so the truncating remainders give characters below '0' | `sprintf(buf, "%d", LONG_MIN)` writes "-./,),(-*,(" | "-2147483648" | high, not executed | `Printf.LongMinAsWritten` | `Printf.SignedDecimalRoundTrip` |
| sensor_cc13xx_lp/Application/jdllc.c:916-921 | the hop search reads `fhChannelMask[cur]` one byte past the array before wrapping | mask `[0x01]`, index 1 | never read past the mask | medium, not executed | `FhHop.OverreadAsWritten` | `FhHop.GetHopChannel` |

=== FILE: api_mac.dfy ===
/**
 * The parts of the co-processor's MAC API layer that do more than copy
 * structures: the payload information-element parser, the capability
 * byte codec, the transmit-option conversion, and the guard that allows
 * one scan at a time.
 */
module ApiMac {
  import opened Types
  import opened Bytes

  // ---------------------------------------------------------------------
  // Capability information
  // ---------------------------------------------------------------------

  /** The capability bits of an association request. */
  datatype CapabilityInfo = CapabilityInfo(
    panCoord: bool, ffd: bool, mainsPower: bool,
    rxOnWhenIdle: bool, security: bool, allocAddr: bool)

  const CapablePanCoord: bv8 := 0x01
  const CapableFfd: bv8 := 0x02
  const CapableMainsPower: bv8 := 0x04
  const CapableRxOnIdle: bv8 := 0x08
  const CapableSecurity: bv8 := 0x40
  const CapableAllocAddr: bv8 := 0x80

  /** The bits the capability byte defines; 0x10 and 0x20 are reserved. */
  const CapableMask: bv8 := 0xCF

  const NoCapabilities := CapabilityInfo(false, false, false, false, false, false)

  function Flag(b: bool, mask: bv8): bv8
  {
    if b then mask else 0
  }

  /** `ApiMac_convertCapabilityInfo`: ORs in one bit per set field. */
  function ConvertCapabilityInfo(c: CapabilityInfo): (r: bv8)
    ensures r & CapablePanCoord != 0 <==> c.panCoord
    ensures r & CapableFfd != 0 <==> c.ffd
    ensures r & CapableMainsPower != 0 <==> c.mainsPower
    ensures r & CapableRxOnIdle != 0 <==> c.rxOnWhenIdle
    ensures r & CapableSecurity != 0 <==> c.security
    ensures r & CapableAllocAddr != 0 <==> c.allocAddr
    ensures r & !CapableMask == 0
  {
    Flag(c.panCoord, CapablePanCoord) | Flag(c.ffd, CapableFfd)
    | Flag(c.mainsPower, CapableMainsPower) | Flag(c.rxOnWhenIdle, CapableRxOnIdle)
    | Flag(c.security, CapableSecurity) | Flag(c.allocAddr, CapableAllocAddr)
  }

  /**
   * `ApiMac_buildMsgCapInfo`: sets the field of every bit present in
   * `cInfo` and leaves the other fields of the target as they were.
   */
  function BuildMsgCapInfo(cInfo: bv8, target: CapabilityInfo): (r: CapabilityInfo)
    ensures r.panCoord <==> target.panCoord || cInfo & CapablePanCoord != 0
    ensures r.ffd <==> target.ffd || cInfo & CapableFfd != 0
    ensures r.mainsPower <==> target.mainsPower || cInfo & CapableMainsPower != 0
    ensures r.rxOnWhenIdle <==> target.rxOnWhenIdle || cInfo & CapableRxOnIdle != 0
    ensures r.security <==> target.security || cInfo & CapableSecurity != 0
    ensures r.allocAddr <==> target.allocAddr || cInfo & CapableAllocAddr != 0
  {
    CapabilityInfo(
      target.panCoord || cInfo & CapablePanCoord != 0,
      target.ffd || cInfo & CapableFfd != 0,
      target.mainsPower || cInfo & CapableMainsPower != 0,
      target.rxOnWhenIdle || cInfo & CapableRxOnIdle != 0,
      target.security || cInfo & CapableSecurity != 0,
      target.allocAddr || cInfo & CapableAllocAddr != 0)
  }

  /** Decoding an encoded capability into a cleared structure gives it back. */
  lemma CapabilityRoundTrip(c: CapabilityInfo)
    ensures BuildMsgCapInfo(ConvertCapabilityInfo(c), NoCapabilities) == c
  {
  }

  /** Encoding a decoded byte keeps exactly the defined bits. */
  lemma CapabilityByteRoundTrip(cInfo: bv8)
    ensures ConvertCapabilityInfo(BuildMsgCapInfo(cInfo, NoCapabilities)) == cInfo & CapableMask
  {
    var c := BuildMsgCapInfo(cInfo, NoCapabilities);
    var r := ConvertCapabilityInfo(c);
    assert r == Flag(c.panCoord, CapablePanCoord) | Flag(c.ffd, CapableFfd)
      | Flag(c.mainsPower, CapableMainsPower) | Flag(c.rxOnWhenIdle, CapableRxOnIdle)
      | Flag(c.security, CapableSecurity) | Flag(c.allocAddr, CapableAllocAddr);
  }

  // ---------------------------------------------------------------------
  // Transmit options
  // ---------------------------------------------------------------------

  /** The transmit options of a data request. */
  datatype TxOptions = TxOptions(
    ack: bool, indirect: bool, pendingBit: bool, noRetransmits: bool,
    noConfirm: bool, useAltBE: bool, usePowerAndChannel: bool)

  /** The MAC's transmit-option flags, one distinct bit each. */
  datatype TxFlag = TxAck | TxIndirect | TxPendBit | TxNoRetrans | TxNoCnf | TxAltBE | TxPwrChan

  /** `convertTxOptions`: the set of flags the bitmask carries. */
  function ConvertTxOptions(o: TxOptions): (r: set<TxFlag>)
    ensures TxAck in r <==> o.ack
    ensures TxIndirect in r <==> o.indirect
    ensures TxPendBit in r <==> o.pendingBit
    ensures TxNoRetrans in r <==> o.noRetransmits
    ensures TxNoCnf in r <==> o.noConfirm
    ensures TxAltBE in r <==> o.useAltBE
    ensures TxPwrChan in r <==> o.usePowerAndChannel
  {
    (if o.ack then {TxAck} else {})
    + (if o.indirect then {TxIndirect} else {})
    + (if o.pendingBit then {TxPendBit} else {})
    + (if o.noRetransmits then {TxNoRetrans} else {})
    + (if o.noConfirm then {TxNoCnf} else {})
    + (if o.useAltBE then {TxAltBE} else {})
    + (if o.usePowerAndChannel then {TxPwrChan} else {})
  }

  /** Reads the options back from a flag set. */
  function TxOptionsOf(flags: set<TxFlag>): TxOptions
  {
    TxOptions(TxAck in flags, TxIndirect in flags, TxPendBit in flags, TxNoRetrans in flags,
              TxNoCnf in flags, TxAltBE in flags, TxPwrChan in flags)
  }

  /** No option is lost: the conversion is one-to-one. */
  lemma TxOptionsRoundTrip(o: TxOptions)
    ensures TxOptionsOf(ConvertTxOptions(o)) == o
  {
  }

  // ---------------------------------------------------------------------
  // Payload information elements
  // ---------------------------------------------------------------------

  datatype Status = Success | NoData | Unsupported | NoResources | ScanInProgress

  /** Group ID of the payload termination IE (IEEE 802.15.4-2015, section 7.4.4.1). */
  const PayloadTerminationGroup: nat := 0x0F

  /** One parsed IE: its header fields and where its content starts. */
  datatype IeRec = IeRec(typeLong: bool, id: nat, contentLen: nat, content: nat)

  /**
   * What a parse comes to: the status and list the parser returns, or
   * `ReadsBeyond(at)` when it would read a header at offset `at` past the
   * caller's buffer (the parser does not check).
   */
  datatype Parse = Done(status: Status, list: seq<IeRec>) | ReadsBeyond(at: nat)

  /** Header fields: bit 15 is the type. */
  predicate TypeLong(h: Uint16) { h / 0x8000 == 1 }
  /** Long IEs: ID in bits 11-14, length in bits 0-10. */
  function IdLong(h: Uint16): nat { h / 0x800 % 0x10 }
  function LenLong(h: Uint16): nat { h % 0x800 }
  /** Short IEs: ID in bits 8-14, length in bits 0-7. */
  function IdShort(h: Uint16): nat { h / 0x100 % 0x80 }
  function LenShort(h: Uint16): nat { h % 0x100 }

  function IdOf(h: Uint16): nat { if TypeLong(h) then IdLong(h) else IdShort(h) }
  function LenOf(h: Uint16): nat { if TypeLong(h) then LenLong(h) else LenShort(h) }

  /** Whether a parse so far holds only records group mode accepts. */
  predicate GroupRecords(list: seq<IeRec>)
  {
    forall k :: 0 <= k < |list| ==> list[k].typeLong && list[k].id != PayloadTerminationGroup
  }

  /**
   * The loop of `parsePayloadIEs`. `pos` is where the next header is in
   * `mem`, `consumed` is the 16-bit `lenContent` (which wraps), `acc` the
   * list so far, and `room` how many records the allocator can still give.
   */
  function ParseLoop(mem: seq<Byte>, contentLen: Uint16, group: bool, room: nat,
                     pos: nat, consumed: Uint16, acc: seq<IeRec>): (r: Parse)
    ensures r.ReadsBeyond? ==> pos <= r.at && |mem| < r.at + 2
    ensures consumed >= contentLen ==> r == Done(Success, acc)
    decreases if pos < |mem| then |mem| - pos else 0, 1
  {
    if consumed >= contentLen then Done(Success, acc)
    else if pos + 2 > |mem| then ReadsBeyond(pos)
    else ParseHeader(mem, contentLen, group, room, pos, consumed, acc)
  }

  /** One pass of the loop body, over the header at `pos`. */
  function ParseHeader(mem: seq<Byte>, contentLen: Uint16, group: bool, room: nat,
                       pos: nat, consumed: Uint16, acc: seq<IeRec>): (r: Parse)
    requires pos + 2 <= |mem|
    ensures r.ReadsBeyond? ==> pos < r.at && |mem| < r.at + 2
    ensures group && !TypeLong(ParseLe16(mem[pos..pos + 2])) ==> r == Done(Unsupported, [])
    decreases |mem| - pos, 0
  {
    var h := ParseLe16(mem[pos..pos + 2]);
    if group && !TypeLong(h) then Done(Unsupported, [])
    else if group && IdOf(h) == PayloadTerminationGroup then Done(Success, acc)
    else if |acc| >= room then Done(NoResources, [])
    else
      var rec := IeRec(TypeLong(h), IdOf(h), LenOf(h), pos + 2);
      ParseLoop(mem, contentLen, group, room, pos + 2 + LenOf(h),
                (consumed + 2 + LenOf(h)) % 0x1_0000, acc + [rec])
  }

  /**
   * What any run of the loop returns: a failure carries an empty list, a
   * success extends the list it started from, group mode lists only long
   * non-terminator IEs, and no more records than the allocator can give.
   */
  lemma {:induction false} ParseLoopShape(mem: seq<Byte>, contentLen: Uint16, group: bool, room: nat,
                                          pos: nat, consumed: Uint16, acc: seq<IeRec>)
    decreases if pos < |mem| then |mem| - pos else 0
    ensures var r := ParseLoop(mem, contentLen, group, room, pos, consumed, acc);
            && (r.Done? ==> r.status in {Success, Unsupported, NoResources})
            && (r.Done? && r.status != Success ==> r.list == [])
            && (r.Done? && r.status == Success ==> acc <= r.list)
            && (r.Done? && group && GroupRecords(acc) ==> GroupRecords(r.list))
            && (r.Done? && |acc| <= room ==> |r.list| <= room)
  {
    if consumed < contentLen && pos + 2 <= |mem| {
      var h := ParseLe16(mem[pos..pos + 2]);
      if !(group && !TypeLong(h)) && !(group && IdOf(h) == PayloadTerminationGroup) && |acc| < room {
        var rec := IeRec(TypeLong(h), IdOf(h), LenOf(h), pos + 2);
        var next := (consumed + 2 + LenOf(h)) % 0x1_0000;
        ParseLoopShape(mem, contentLen, group, room, pos + 2 + LenOf(h), next, acc + [rec]);
        var r := ParseLoop(mem, contentLen, group, room, pos + 2 + LenOf(h), next, acc + [rec]);
        assert r == ParseLoop(mem, contentLen, group, room, pos, consumed, acc);
        if r.Done? && r.status == Success {
          assert acc <= acc + [rec] <= r.list;
        }
        if group && GroupRecords(acc) {
          assert GroupRecords(acc + [rec]);
        }
      }
    }
  }

  /**
   * `parsePayloadIEs` (group mode for `ApiMac_parsePayloadGroupIEs`, sub-IE
   * mode for `ApiMac_parsePayloadSubIEs`). A NULL buffer or a zero length
   * leaves the caller's list `prior` as it was.
   */
  function ParsePayloadIes(content: Option<seq<Byte>>, contentLen: Uint16, group: bool,
                           room: nat, prior: seq<IeRec>): (r: Parse)
    requires content.Some? ==> contentLen <= |content.value|
    ensures content.None? || contentLen == 0 <==> r == Done(NoData, prior)
    ensures r.Done? && r.status !in {Success, NoData} ==> r.list == []
    ensures r.Done? && r.status != NoData && group ==> GroupRecords(r.list)
    ensures r.Done? && r.status != NoData ==> |r.list| <= room
  {
    if content.None? || contentLen == 0 then Done(NoData, prior)
    else
      ParseLoopShape(content.value, contentLen, group, room, 0, 0, []);
      ParseLoop(content.value, contentLen, group, room, 0, 0, [])
  }

  /** An IE as a sender lays it out: header fields and content bytes. */
  datatype Ie = Ie(typeLong: bool, id: nat, body: seq<Byte>)

  predicate ValidIe(e: Ie)
  {
    if e.typeLong then e.id < 0x10 && |e.body| < 0x800 else e.id < 0x80 && |e.body| < 0x100
  }

  /** The 16-bit header of a valid IE. */
  function HeaderOf(e: Ie): (h: Uint16)
    requires ValidIe(e)
    ensures TypeLong(h) == e.typeLong && IdOf(h) == e.id && LenOf(h) == |e.body|
  {
    if e.typeLong then
      var h := 0x8000 + e.id * 0x800 + |e.body|;
      assert h / 0x800 == 0x10 + e.id && h % 0x800 == |e.body| && h / 0x8000 == 1;
      h
    else
      var h := e.id * 0x100 + |e.body|;
      assert h / 0x100 == e.id && h % 0x100 == |e.body| && h / 0x8000 == 0;
      h
  }

  function EncodeIe(e: Ie): (b: seq<Byte>)
    requires ValidIe(e)
    ensures |b| == 2 + |e.body|
  {
    Le16(HeaderOf(e)) + e.body
  }

  predicate ValidIes(es: seq<Ie>)
  {
    es == [] || (ValidIe(es[0]) && ValidIes(es[1..]))
  }

  /** IEs group mode accepts: long ones other than the terminator. */
  predicate GroupIes(es: seq<Ie>)
  {
    es == [] || (es[0].typeLong && es[0].id != PayloadTerminationGroup && GroupIes(es[1..]))
  }

  /** Bytes the IEs take, headers included. */
  function Span(es: seq<Ie>): nat
  {
    if es == [] then 0 else 2 + |es[0].body| + Span(es[1..])
  }

  function EncodeIes(es: seq<Ie>): (b: seq<Byte>)
    requires ValidIes(es)
    ensures |b| == Span(es)
  {
    if es == [] then [] else EncodeIe(es[0]) + EncodeIes(es[1..])
  }

  /** The records the parser should produce for `es` laid out from `pos`. */
  function Records(es: seq<Ie>, pos: nat): (r: seq<IeRec>)
    ensures |r| == |es|
  {
    if es == [] then []
    else [IeRec(es[0].typeLong, es[0].id, |es[0].body|, pos + 2)] + Records(es[1..], pos + 2 + |es[0].body|)
  }

  /** The headers of `es` sit in `mem` from `pos` on, each followed by its content. */
  predicate HeadersAt(mem: seq<Byte>, pos: nat, es: seq<Ie>)
    decreases |es|
  {
    es == [] ||
    (ValidIe(es[0]) && pos + 2 <= |mem| && mem[pos..pos + 2] == Le16(HeaderOf(es[0]))
     && HeadersAt(mem, pos + 2 + |es[0].body|, es[1..]))
  }

  /** One loop step over a well-formed IE header at `pos`. */
  lemma ParseOne(mem: seq<Byte>, contentLen: Uint16, group: bool, room: nat,
                 pos: nat, acc: seq<IeRec>, e: Ie)
    requires ValidIe(e) && (group ==> e.typeLong && e.id != PayloadTerminationGroup)
    requires pos + 2 + |e.body| <= contentLen <= |mem|
    requires mem[pos..pos + 2] == Le16(HeaderOf(e))
    requires |acc| < room
    ensures ParseLoop(mem, contentLen, group, room, pos, pos, acc)
            == ParseLoop(mem, contentLen, group, room, pos + 2 + |e.body|, pos + 2 + |e.body|,
                         acc + [IeRec(e.typeLong, e.id, |e.body|, pos + 2)])
  {
    Le16RoundTrip(HeaderOf(e));
  }

  /** Where an encoded list sits in memory, each of its headers does. */
  lemma {:induction false} EncodedHeadersAt(mem: seq<Byte>, pos: nat, es: seq<Ie>)
    requires ValidIes(es)
    requires pos + |EncodeIes(es)| <= |mem|
    requires mem[pos..pos + |EncodeIes(es)|] == EncodeIes(es)
    ensures HeadersAt(mem, pos, es)
    decreases |es|
  {
    if es != [] {
      var e := es[0];
      assert EncodeIes(es) == Le16(HeaderOf(e)) + (e.body + EncodeIes(es[1..]));
      EncodeAt(mem, pos, Le16(HeaderOf(e)), e.body, EncodeIes(es[1..]));
      EncodedHeadersAt(mem, pos + 2 + |e.body|, es[1..]);
    }
  }

  /** Where the encoded list sits in memory, its head's header and the rest sit too. */
  lemma EncodeAt(mem: seq<Byte>, pos: nat, h: seq<Byte>, body: seq<Byte>, tail: seq<Byte>)
    requires |h| == 2
    requires pos + |h + (body + tail)| <= |mem|
    requires mem[pos..pos + |h + (body + tail)|] == h + (body + tail)
    ensures mem[pos..pos + 2] == h
    ensures mem[pos + 2 + |body|..pos + 2 + |body| + |tail|] == tail
  {
    var enc := h + (body + tail);
    SliceOfSlice(mem, pos, |enc|, 0, 2);
    SliceOfSlice(mem, pos, |enc|, 2 + |body|, |enc|);
    assert enc[..2] == h;
    assert enc[2 + |body|..] == tail;
  }

  /** A slice of a slice is a slice of the whole. */
  lemma SliceOfSlice<T>(s: seq<T>, pos: nat, n: nat, a: nat, b: nat)
    requires pos + n <= |s| && a <= b <= n
    ensures s[pos..pos + n][a..b] == s[pos + a..pos + b]
  {
    var x, y := s[pos..pos + n][a..b], s[pos + a..pos + b];
    forall i | 0 <= i < |x|
      ensures x[i] == y[i]
    {
    }
  }

  /**
   * Over well-formed IEs the loop produces one record per IE, in order,
   * each pointing just past its own header, and ends where they end.
   */
  lemma {:induction false} ParseEncoded(mem: seq<Byte>, contentLen: Uint16, group: bool, room: nat,
                                        pos: nat, acc: seq<IeRec>, es: seq<Ie>)
    requires HeadersAt(mem, pos, es) && (group ==> GroupIes(es))
    requires pos + Span(es) <= contentLen <= |mem|
    requires |acc| + |es| <= room
    ensures ParseLoop(mem, contentLen, group, room, pos, pos, acc)
            == ParseLoop(mem, contentLen, group, room, pos + Span(es), pos + Span(es), acc + Records(es, pos))
    decreases |es|, 1
  {
    if es != [] {
      ParseCons(mem, contentLen, group, room, pos, acc, es);
    } else {
      assert acc + Records(es, pos) == acc;
    }
  }

  /** The inductive step of `ParseEncoded`: the head IE, then the rest. */
  lemma {:induction false} ParseCons(mem: seq<Byte>, contentLen: Uint16, group: bool, room: nat,
                                     pos: nat, acc: seq<IeRec>, es: seq<Ie>)
    requires es != []
    requires HeadersAt(mem, pos, es) && (group ==> GroupIes(es))
    requires pos + Span(es) <= contentLen <= |mem|
    requires |acc| + |es| <= room
    ensures ParseLoop(mem, contentLen, group, room, pos, pos, acc)
            == ParseLoop(mem, contentLen, group, room, pos + Span(es), pos + Span(es), acc + Records(es, pos))
    decreases |es|, 0
  {
    var e := es[0];
    var next := pos + 2 + |e.body|;
    var rec := IeRec(e.typeLong, e.id, |e.body|, pos + 2);
    ParseOne(mem, contentLen, group, room, pos, acc, e);
    ParseEncoded(mem, contentLen, group, room, next, acc + [rec], es[1..]);
    RecordsCons(es, acc, pos);
  }

  lemma RecordsCons(es: seq<Ie>, acc: seq<IeRec>, pos: nat)
    requires es != []
    ensures acc + [IeRec(es[0].typeLong, es[0].id, |es[0].body|, pos + 2)]
            + Records(es[1..], pos + 2 + |es[0].body|) == acc + Records(es, pos)
  {
    assert Records(es, pos) == [IeRec(es[0].typeLong, es[0].id, |es[0].body|, pos + 2)]
                               + Records(es[1..], pos + 2 + |es[0].body|);
  }

  /** From the start of a buffer, the loop walks over well-formed IEs to their end. */
  lemma {:induction false} ParseFromStart(mem: seq<Byte>, contentLen: Uint16, group: bool, room: nat, es: seq<Ie>)
    requires HeadersAt(mem, 0, es) && (group ==> GroupIes(es))
    requires Span(es) <= contentLen <= |mem|
    requires |es| <= room
    ensures ParseLoop(mem, contentLen, group, room, 0, 0, [])
            == ParseLoop(mem, contentLen, group, room, Span(es), Span(es), Records(es, 0))
  {
    ParseEncoded(mem, contentLen, group, room, 0, [], es);
    assert [] + Records(es, 0) == Records(es, 0);
  }

  /** Sub-IE mode reads back exactly the IEs that fill the buffer. */
  lemma SubIesRoundTrip(es: seq<Ie>, room: nat)
    requires ValidIes(es)
    requires 0 < |EncodeIes(es)| < 0x1_0000
    requires |es| <= room
    ensures ParsePayloadIes(Some(EncodeIes(es)), |EncodeIes(es)|, false, room, [])
            == Done(Success, Records(es, 0))
  {
    var b := EncodeIes(es);
    assert b[0..|b|] == b;
    EncodedHeadersAt(b, 0, es);
    ParseFromStart(b, |b|, false, room, es);
  }

  /** The termination IE of group mode: long type, no content. */
  const Terminator := Ie(true, PayloadTerminationGroup, [])

  /** In group mode the loop stops at a termination header, keeping what it has. */
  lemma ParseAtTerminator(mem: seq<Byte>, contentLen: Uint16, room: nat, pos: nat, acc: seq<IeRec>)
    requires pos < contentLen && pos + 2 <= |mem|
    requires mem[pos..pos + 2] == EncodeIe(Terminator)
    ensures ParseLoop(mem, contentLen, true, room, pos, pos, acc) == Done(Success, acc)
  {
    Le16RoundTrip(HeaderOf(Terminator));
  }

  /** In group mode the loop rejects a short header and drops its list. */
  lemma ParseAtShort(mem: seq<Byte>, contentLen: Uint16, room: nat, pos: nat, acc: seq<IeRec>, e: Ie)
    requires ValidIe(e) && !e.typeLong
    requires pos < contentLen && pos + 2 <= |mem|
    requires mem[pos..pos + 2] == Le16(HeaderOf(e))
    ensures ParseLoop(mem, contentLen, true, room, pos, pos, acc) == Done(Unsupported, [])
  {
    Le16RoundTrip(HeaderOf(e));
  }

  /** Group IEs followed by a termination header: the records of the IEs before it. */
  lemma GroupStopsAt(mem: seq<Byte>, contentLen: Uint16, room: nat, es: seq<Ie>)
    requires HeadersAt(mem, 0, es) && GroupIes(es)
    requires Span(es) < contentLen <= |mem| && Span(es) + 2 <= |mem|
    requires mem[Span(es)..Span(es) + 2] == EncodeIe(Terminator)
    requires |es| <= room
    ensures ParseLoop(mem, contentLen, true, room, 0, 0, []) == Done(Success, Records(es, 0))
  {
    ParseFromStart(mem, contentLen, true, room, es);
    ParseAtTerminator(mem, contentLen, room, Span(es), Records(es, 0));
  }

  /** Group IEs followed by a short header: rejected, nothing listed. */
  lemma GroupRejectsAt(mem: seq<Byte>, contentLen: Uint16, room: nat, es: seq<Ie>, e: Ie)
    requires HeadersAt(mem, 0, es) && GroupIes(es)
    requires ValidIe(e) && !e.typeLong
    requires Span(es) < contentLen <= |mem| && Span(es) + 2 <= |mem|
    requires mem[Span(es)..Span(es) + 2] == Le16(HeaderOf(e))
    requires |es| <= room
    ensures ParseLoop(mem, contentLen, true, room, 0, 0, []) == Done(Unsupported, [])
  {
    ParseFromStart(mem, contentLen, true, room, es);
    ParseAtShort(mem, contentLen, room, Span(es), Records(es, 0), e);
  }

  /**
   * Group mode stops at the termination IE without listing it, whatever
   * follows it in the buffer.
   */
  lemma GroupIesStopAtTerminator(es: seq<Ie>, trailer: seq<Byte>, room: nat)
    requires ValidIes(es) && GroupIes(es)
    requires |EncodeIes(es)| + 2 + |trailer| < 0x1_0000
    requires |es| <= room
    ensures ParsePayloadIes(Some(EncodeIes(es) + EncodeIe(Terminator) + trailer),
                            |EncodeIes(es)| + 2 + |trailer|, true, room, [])
            == Done(Success, Records(es, 0))
  {
    var b := EncodeIes(es) + EncodeIe(Terminator) + trailer;
    var n := |EncodeIes(es)|;
    assert b[0..n] == EncodeIes(es);
    EncodedHeadersAt(b, 0, es);
    assert b[n..n + 2] == EncodeIe(Terminator);
    GroupStopsAt(b, n + 2 + |trailer|, room, es);
  }

  /** Group mode rejects a short IE after any accepted prefix, and drops the list. */
  lemma GroupRejectsShortIe(es: seq<Ie>, e: Ie, trailer: seq<Byte>, room: nat)
    requires ValidIes(es) && GroupIes(es)
    requires ValidIe(e) && !e.typeLong
    requires |EncodeIes(es)| + 2 + |e.body| + |trailer| < 0x1_0000
    requires |es| <= room
    ensures ParsePayloadIes(Some(EncodeIes(es) + EncodeIe(e) + trailer),
                            |EncodeIes(es)| + 2 + |e.body| + |trailer|, true, room, [])
            == Done(Unsupported, [])
  {
    var b := EncodeIes(es) + EncodeIe(e) + trailer;
    var n := |EncodeIes(es)|;
    assert b[0..n] == EncodeIes(es);
    EncodedHeadersAt(b, 0, es);
    assert b[n..n + 2] == Le16(HeaderOf(e));
    GroupRejectsAt(b, n + 2 + |e.body| + |trailer|, room, es, e);
  }

  /** A buffer with one byte left for a header makes the parser read past it. */
  lemma TruncatedHeaderReadsBeyond(lo: Byte, group: bool, room: nat)
    ensures ParsePayloadIes(Some([lo]), 1, group, room, []) == ReadsBeyond(0)
  {
  }

  // ---------------------------------------------------------------------
  // One scan at a time
  // ---------------------------------------------------------------------

  /**
   * What reaches the scan guard: a scan request (with whether its message
   * and its result buffer could be allocated) or a scan confirm, which
   * frees the result buffer whether or not a callback is registered. The
   * guard's state `busy` stands for `scanResults != NULL`.
   */
  datatype ScanEvent =
    | ScanReq(msgAllocated: bool, resultsAllocated: bool)
    | ScanCnf

  /**
   * `ApiMac_mlmeScanReq`: refuses while a result buffer is held, and
   * otherwise holds one from the moment its allocation succeeds.
   */
  function MlmeScanReq(busy: bool, msgAllocated: bool, resultsAllocated: bool): (r: (Status, bool))
    ensures busy ==> r == (ScanInProgress, true)
    ensures r.0 == Success <==> !busy && msgAllocated && resultsAllocated
    ensures r.1 <==> busy || r.0 == Success
  {
    if busy then (ScanInProgress, true)
    else if !msgAllocated then (NoResources, false)
    else if !resultsAllocated then (NoResources, false)
    else (Success, true)
  }

  /** Runs events from `busy`: the status of each request, and the final state. */
  function RunScans(busy: bool, evs: seq<ScanEvent>): (r: (seq<Option<Status>>, bool))
    ensures |r.0| == |evs|
    decreases |evs|
  {
    if evs == [] then ([], busy)
    else
      match evs[0]
      case ScanCnf =>
        var rest := RunScans(false, evs[1..]);
        ([None] + rest.0, rest.1)
      case ScanReq(m, a) =>
        var (st, busy') := MlmeScanReq(busy, m, a);
        var rest := RunScans(busy', evs[1..]);
        ([Some(st)] + rest.0, rest.1)
  }

  /**
   * Between two accepted scan requests there is always a scan confirm:
   * the MAC never has two scans in flight.
   */
  lemma {:induction false} OneScanAtATime(busy: bool, evs: seq<ScanEvent>, i: nat, j: nat)
    requires i < j < |evs|
    requires RunScans(busy, evs).0[i] == Some(Success) && RunScans(busy, evs).0[j] == Some(Success)
    ensures exists k :: i < k < j && evs[k] == ScanCnf
    decreases |evs|
  {
    var r := RunScans(busy, evs);
    if i == 0 {
      match evs[0]
      case ScanCnf =>
        assert false;
      case ScanReq(m, a) =>
        var rest := RunScans(true, evs[1..]);
        assert r == ([Some(Success)] + rest.0, rest.1);
        assert rest.0[j - 1] == Some(Success);
        NoSuccessWhileBusy(evs[1..], j - 1);
        var k :| 0 <= k < j - 1 && evs[1..][k] == ScanCnf;
        assert evs[k + 1] == ScanCnf;
    } else {
      var b' := match evs[0] case ScanCnf => false case ScanReq(m, a) => MlmeScanReq(busy, m, a).1;
      var rest := RunScans(b', evs[1..]);
      assert r.0 == [r.0[0]] + rest.0;
      OneScanAtATime(b', evs[1..], i - 1, j - 1);
      var k :| i - 1 < k < j - 1 && evs[1..][k] == ScanCnf;
      assert evs[k + 1] == ScanCnf;
    }
  }

  /** While a scan is in flight no request succeeds until a confirm arrives. */
  lemma {:induction false} NoSuccessWhileBusy(evs: seq<ScanEvent>, j: nat)
    requires j < |evs| && RunScans(true, evs).0[j] == Some(Success)
    ensures exists k :: 0 <= k < j && evs[k] == ScanCnf
    decreases |evs|
  {
    match evs[0]
    case ScanCnf =>
      assert j != 0;
    case ScanReq(m, a) =>
      var rest := RunScans(true, evs[1..]);
      assert RunScans(true, evs).0 == [Some(ScanInProgress)] + rest.0;
      assert j != 0;
      NoSuccessWhileBusy(evs[1..], j - 1);
      var k :| 0 <= k < j - 1 && evs[1..][k] == ScanCnf;
      assert evs[k + 1] == ScanCnf;
  }
}

=== FILE: bytes.dfy ===
/**
 * Little-endian packing of 16- and 32-bit values, as `Util_bufferUint16`,
 * `Util_bufferUint32`, `Util_parseUint16` and `Util_parseUint32` do it
 * (low byte first) for the sensor messages and the IE headers.
 */
module Bytes {
  import opened Types

  /** `Util_bufferUint16`: the low byte, then the high byte. */
  function Le16(x: Uint16): (r: seq<Byte>)
    ensures |r| == 2
  {
    [x % 0x100, x / 0x100]
  }

  /** `Util_parseUint16` / `BUILD_UINT16`: the value of two bytes, low byte first. */
  function ParseLe16(b: seq<Byte>): (x: Uint16)
    requires |b| >= 2
  {
    b[0] as int + b[1] as int * 0x100
  }

  lemma Le16RoundTrip(x: Uint16)
    ensures ParseLe16(Le16(x)) == x
  {
  }

  lemma ParseLe16RoundTrip(b: seq<Byte>)
    requires |b| >= 2
    ensures Le16(ParseLe16(b)) == b[..2]
  {
  }

  /** `Util_bufferUint32`: four bytes, least significant first. */
  function Le32(x: Uint32): (r: seq<Byte>)
    ensures |r| == 4
  {
    Le16(x % 0x1_0000) + Le16(x / 0x1_0000)
  }

  /** `Util_parseUint32`. */
  function ParseLe32(b: seq<Byte>): (x: Uint32)
    requires |b| >= 4
  {
    ParseLe16(b[..2]) + ParseLe16(b[2..4]) * 0x1_0000
  }

  lemma Le32RoundTrip(x: Uint32)
    ensures ParseLe32(Le32(x)) == x
  {
    var lo, hi := x % 0x1_0000, x / 0x1_0000;
    Le16RoundTrip(lo);
    Le16RoundTrip(hi);
    assert Le32(x)[..2] == Le16(lo);
    assert Le32(x)[2..4] == Le16(hi);
  }

  lemma ParseLe32RoundTrip(b: seq<Byte>)
    requires |b| >= 4
    ensures Le32(ParseLe32(b)) == b[..4]
  {
    var lo, hi := ParseLe16(b[..2]), ParseLe16(b[2..4]);
    assert ParseLe32(b) % 0x1_0000 == lo && ParseLe32(b) / 0x1_0000 == hi;
    ParseLe16RoundTrip(b[..2]);
    ParseLe16RoundTrip(b[2..4]);
    assert b[..4] == b[..2] + b[2..4];
  }

  /** A run of 16-bit words, each packed little-endian, in order. */
  function Words16(ws: seq<Uint16>): (r: seq<Byte>)
    ensures |r| == 2 * |ws|
  {
    if ws == [] then [] else Le16(ws[0]) + Words16(ws[1..])
  }

  /** Reads `n` little-endian 16-bit words. */
  function ParseWords16(b: seq<Byte>, n: nat): (ws: seq<Uint16>)
    requires |b| >= 2 * n
    ensures |ws| == n
  {
    if n == 0 then [] else [ParseLe16(b)] + ParseWords16(b[2..], n - 1)
  }

  lemma {:induction false} Words16RoundTrip(ws: seq<Uint16>, rest: seq<Byte>)
    ensures ParseWords16(Words16(ws) + rest, |ws|) == ws
  {
    if ws != [] {
      var tail := Words16(ws[1..]) + rest;
      var b := Le16(ws[0]) + tail;
      assert Words16(ws) + rest == b;
      assert b[2..] == tail;
      assert ParseLe16(b) == ws[0] by {
        Le16RoundTrip(ws[0]);
        assert b[0] == Le16(ws[0])[0] && b[1] == Le16(ws[0])[1];
      }
      Words16RoundTrip(ws[1..], rest);
    }
  }
}

=== FILE: esp_at.dfy ===
/**
 * The MSP430 firmware that drives an ESP8266 Wi-Fi module with AT commands
 * (Msp430_Esp8266/main.c): a receive interrupt that cuts the UART byte
 * stream into lines and pushes them into the ring buffer, and a main loop
 * that pops one line per turn and advances the AT-command state machine.
 *
 * Sending on the UART is modelled as the list of strings the step sends; the
 * multi-minute busy waits and the generated sensor payload are not modelled
 * (the payload appears as the `Report` item).
 */
module EspAt {
  import opened Types
  import opened RingBuffer

  /** The `systemState` enumeration, in declaration order. */
  datatype SysState =
    | SendResetCommand | StartEsp8266 | CheckAt | ProcessAte0 | ProcessCwMode1
    | ProcessDhcp | ProcessConnectWifi | ProcessCipMux1 | ProcessConnectIp
    | SendData | Close

  /** The `wifiState` enumeration. */
  datatype WifiState = NotConnect | Connected | GotIp | Ready

  /** One item written to the UART: a literal command, or the sensor report built by `faceData`. */
  datatype Tx = Text(s: string) | Report

  const CipStart: string := "AT+CIPSTART=3,\"TCP\",\"184.106.153.149\",80\r\n"
  const CipSend: string := "AT+CIPSEND=3,68\r\n"

  /** The line popped from the ring buffer, as text. */
  function ToText(line: seq<Byte>): (t: string)
    ensures |t| == |line|
    ensures forall i :: 0 <= i < |t| ==> t[i] as int == line[i]
  {
    seq(|line|, i requires 0 <= i < |line| => line[i] as char)
  }

  /** The states in the order the device walks through them; `Close` loops back to `ProcessConnectIp`. */
  function Succ(s: SysState): SysState
  {
    match s
    case SendResetCommand => StartEsp8266
    case StartEsp8266 => CheckAt
    case CheckAt => ProcessAte0
    case ProcessAte0 => ProcessCwMode1
    case ProcessCwMode1 => ProcessDhcp
    case ProcessDhcp => ProcessConnectWifi
    case ProcessConnectWifi => ProcessCipMux1
    case ProcessCipMux1 => ProcessConnectIp
    case ProcessConnectIp => SendData
    case SendData => Close
    case Close => ProcessConnectIp
  }

  /** The reply that moves each state on (independent of how the step is written). */
  predicate Advances(s: SysState, w: WifiState, line: string)
  {
    match s
    case SendResetCommand => true
    case StartEsp8266 => true
    case ProcessConnectWifi => line == "OK" && w == GotIp
    case ProcessConnectIp => line == "OK" || line == "ALREAY CONNECT"
    case SendData => line == ">"
    case Close => line == "SEND OK"
    case _ => line == "OK"
  }

  /** Wi-Fi status is READY exactly once the module is past Wi-Fi setup, and untouched before it. */
  predicate Consistent(s: SysState, w: WifiState)
  {
    && (w == Ready <==> s in {ProcessCipMux1, ProcessConnectIp, SendData, Close})
    && (s in {SendResetCommand, StartEsp8266, CheckAt, ProcessAte0, ProcessCwMode1, ProcessDhcp} ==> w == NotConnect)
  }

  datatype Machine = Machine(sys: SysState, wifi: WifiState)

  const CwJap: string := "AT+CWJAP=\"Vincom-NN\",\"vincom!@!@\"\r\n"

  /**
   * What the device sends on entering each state: the command whose reply
   * the state waits for (the sensor report and its line end for `Close`).
   */
  function Entry(s: SysState): seq<Tx>
  {
    match s
    case SendResetCommand => []
    case StartEsp8266 => [Text("AT+RST\r\n")]
    case CheckAt => [Text("AT\r\n")]
    case ProcessAte0 => [Text("ATE0\r\n")]
    case ProcessCwMode1 => [Text("AT+CWMODE=1\r\n")]
    case ProcessDhcp => [Text("AT+CWDHCP=1,1\r\n")]
    case ProcessConnectWifi => [Text(CwJap)]
    case ProcessCipMux1 => [Text("AT+CIPMUX=1\r\n")]
    case ProcessConnectIp => [Text(CipStart)]
    case SendData => [Text(CipSend)]
    case Close => [Report, Text("\r\n")]
  }

  /** The initial state: `STATE_START_ESP8266`, Wi-Fi not connected. */
  const Start: Machine := Machine(StartEsp8266, NotConnect)

  /**
   * One turn of the `switch (sysState)` in the main loop on the popped line:
   * the next state and the strings sent.
   */
  function Step(m: Machine, line: string): (r: (Machine, seq<Tx>))
    ensures r.0.sys == m.sys || r.0.sys == Succ(m.sys)
    ensures r.0.sys == Succ(m.sys) <==> Advances(m.sys, m.wifi, line)
    ensures r.1 == [] <==> !Advances(m.sys, m.wifi, line) && !(m.sys == ProcessConnectIp && line == "3,CLOSED")
    ensures r.0.sys != m.sys ==> r.1 == Entry(r.0.sys)
    ensures m.sys == ProcessConnectIp && line == "3,CLOSED" ==> r == (m, Entry(ProcessConnectIp))
    ensures m.sys != ProcessConnectWifi ==> r.0.wifi == m.wifi
    ensures m.sys == ProcessConnectWifi && line == "WIFI CONNECTED" ==> r == (m.(wifi := Connected), [])
    ensures m.sys == ProcessConnectWifi && line == "WIFI GOT IP" ==> r == (m.(wifi := GotIp), [])
    ensures m.sys == ProcessConnectWifi && r.0.sys != m.sys ==> r.0.wifi == Ready
    ensures m.sys == ProcessConnectWifi && r.0.sys == m.sys && line != "WIFI CONNECTED" && line != "WIFI GOT IP" ==>
              r == (m, [])
    ensures Consistent(m.sys, m.wifi) ==> Consistent(r.0.sys, r.0.wifi)
  {
    match m.sys
    case SendResetCommand => (m.(sys := StartEsp8266), [Text("AT+RST\r\n")])
    case StartEsp8266 => (m.(sys := CheckAt), [Text("AT\r\n")])
    case CheckAt =>
      if line == "OK" then (m.(sys := ProcessAte0), [Text("ATE0\r\n")]) else (m, [])
    case ProcessAte0 =>
      if line == "OK" then (m.(sys := ProcessCwMode1), [Text("AT+CWMODE=1\r\n")]) else (m, [])
    case ProcessCwMode1 =>
      if line == "OK" then (m.(sys := ProcessDhcp), [Text("AT+CWDHCP=1,1\r\n")]) else (m, [])
    case ProcessDhcp =>
      if line == "OK" then (m.(sys := ProcessConnectWifi), [Text(CwJap)]) else (m, [])
    case ProcessConnectWifi =>
      if line == "WIFI CONNECTED" then (m.(wifi := Connected), [])
      else if line == "WIFI GOT IP" then (m.(wifi := GotIp), [])
      else if line == "OK" then
        if m.wifi == GotIp then (Machine(ProcessCipMux1, Ready), [Text("AT+CIPMUX=1\r\n")]) else (m, [])
      else (m, [])
    case ProcessCipMux1 =>
      if line == "OK" then (m.(sys := ProcessConnectIp), [Text(CipStart)]) else (m, [])
    case ProcessConnectIp =>
      if line == "ALREAY CONNECT" then (m.(sys := SendData), [Text(CipSend)])
      else if line == "3,CLOSED" then (m, [Text(CipStart)])
      else if line == "OK" then (m.(sys := SendData), [Text(CipSend)])
      else (m, [])
    case SendData =>
      if line == ">" then (m.(sys := Close), [Report, Text("\r\n")]) else (m, [])
    case Close =>
      if line == "SEND OK" then (m.(sys := ProcessConnectIp), [Text(CipStart)]) else (m, [])
  }

  /** An empty ring buffer yields "", which moves no state past the two unconditional ones. */
  lemma EmptyLineIdles(m: Machine)
    requires m.sys !in {SendResetCommand, StartEsp8266}
    ensures Step(m, "") == (m, [])
  {
  }

  /** Wi-Fi status can become READY only through the "OK" that leaves PROCESS_CONNECT_WIFI after "WIFI GOT IP". */
  lemma ReadyOnlyAfterGotIp(m: Machine, line: string)
    requires m.wifi != Ready && Step(m, line).0.wifi == Ready
    ensures m.sys == ProcessConnectWifi && m.wifi == GotIp && line == "OK"
  {
  }

  /** Runs the main loop over successive popped lines. */
  function Steps(m: Machine, lines: seq<string>): (r: Machine)
    decreases |lines|
  {
    if |lines| == 0 then m else Steps(Step(m, lines[0]).0, lines[1..])
  }

  /** From the initial state every reachable state keeps the Wi-Fi status consistent with the setup phase. */
  lemma {:induction false} StepsConsistent(m: Machine, lines: seq<string>)
    requires Consistent(m.sys, m.wifi)
    ensures Consistent(Steps(m, lines).sys, Steps(m, lines).wifi)
    decreases |lines|
  {
    if |lines| > 0 {
      StepsConsistent(Step(m, lines[0]).0, lines[1..]);
    }
  }

  /** Running two batches of lines is running their concatenation. */
  lemma {:induction false} StepsAppend(m: Machine, a: seq<string>, b: seq<string>)
    ensures Steps(m, a + b) == Steps(Steps(m, a), b)
    decreases |a|
  {
    if |a| > 0 {
      assert (a + b)[1..] == a[1..] + b;
      StepsAppend(Step(m, a[0]).0, a[1..], b);
    } else {
      assert a + b == b;
    }
  }

  /** Everything the main loop sends while it runs over successive popped lines. */
  function Transcript(m: Machine, lines: seq<string>): seq<Tx>
    decreases |lines|
  {
    if |lines| == 0 then [] else Step(m, lines[0]).1 + Transcript(Step(m, lines[0]).0, lines[1..])
  }

  /** The transcript of two batches of lines is the first batch's followed by the second's. */
  lemma {:induction false} TranscriptAppend(m: Machine, a: seq<string>, b: seq<string>)
    ensures Transcript(m, a + b) == Transcript(m, a) + Transcript(Steps(m, a), b)
    decreases |a|
  {
    if |a| > 0 {
      assert (a + b)[1..] == a[1..] + b;
      TranscriptAppend(Step(m, a[0]).0, a[1..], b);
    } else {
      assert a + b == b;
    }
  }

  /** Three consecutive batches: their transcripts chain like `TranscriptAppend` applied twice. */
  lemma {:induction false} TranscriptChain(m: Machine, a: seq<string>, b: seq<string>, c: seq<string>,
                                           ta: seq<Tx>, tb: seq<Tx>, tc: seq<Tx>)
    requires Transcript(m, a) == ta
    requires Transcript(Steps(m, a), b) == tb
    requires Transcript(Steps(Steps(m, a), b), c) == tc
    ensures Transcript(m, a + b + c) == ta + tb + tc
  {
    TranscriptAppend(m, a, b);
    StepsAppend(m, a, b);
    TranscriptAppend(m, a + b, c);
  }

  /** Power-up to `AT+CWJAP`: the empty first pop, then four "OK"s, answering each command with the next. */
  lemma SetupPhase()
    ensures Steps(Start, ["", "OK", "OK", "OK", "OK"]) == Machine(ProcessConnectWifi, NotConnect)
    ensures Transcript(Start, ["", "OK", "OK", "OK", "OK"])
            == [Text("AT\r\n"), Text("ATE0\r\n"), Text("AT+CWMODE=1\r\n"), Text("AT+CWDHCP=1,1\r\n"), Text(CwJap)]
  {
    assert Transcript(Machine(ProcessDhcp, NotConnect), ["OK"]) == [Text(CwJap)];
    assert Transcript(Machine(ProcessCwMode1, NotConnect), ["OK", "OK"]) == [Text("AT+CWDHCP=1,1\r\n"), Text(CwJap)];
    assert Transcript(Machine(ProcessAte0, NotConnect), ["OK", "OK", "OK"])
           == [Text("AT+CWMODE=1\r\n"), Text("AT+CWDHCP=1,1\r\n"), Text(CwJap)];
    assert Transcript(Machine(CheckAt, NotConnect), ["OK", "OK", "OK", "OK"])
           == [Text("ATE0\r\n"), Text("AT+CWMODE=1\r\n"), Text("AT+CWDHCP=1,1\r\n"), Text(CwJap)];
    assert Steps(Machine(ProcessDhcp, NotConnect), ["OK"]) == Machine(ProcessConnectWifi, NotConnect);
    assert Steps(Machine(ProcessCwMode1, NotConnect), ["OK", "OK"]) == Machine(ProcessConnectWifi, NotConnect);
    assert Steps(Machine(ProcessAte0, NotConnect), ["OK", "OK", "OK"]) == Machine(ProcessConnectWifi, NotConnect);
    assert Steps(Machine(CheckAt, NotConnect), ["OK", "OK", "OK", "OK"]) == Machine(ProcessConnectWifi, NotConnect);
  }

  /** Joining the access point: "WIFI CONNECTED", "WIFI GOT IP", then "OK". */
  lemma WifiPhase()
    ensures Steps(Machine(ProcessConnectWifi, NotConnect), ["WIFI CONNECTED", "WIFI GOT IP", "OK"]) == Machine(ProcessCipMux1, Ready)
    ensures Transcript(Machine(ProcessConnectWifi, NotConnect), ["WIFI CONNECTED", "WIFI GOT IP", "OK"])
            == [Text("AT+CIPMUX=1\r\n")]
  {
    assert Transcript(Machine(ProcessConnectWifi, GotIp), ["OK"]) == [Text("AT+CIPMUX=1\r\n")];
    assert Transcript(Machine(ProcessConnectWifi, Connected), ["WIFI GOT IP", "OK"]) == [Text("AT+CIPMUX=1\r\n")];
    assert Steps(Machine(ProcessConnectWifi, GotIp), ["OK"]) == Machine(ProcessCipMux1, Ready);
    assert Steps(Machine(ProcessConnectWifi, Connected), ["WIFI GOT IP", "OK"]) == Machine(ProcessCipMux1, Ready);
  }

  /** Opening the connection and the first send: "OK", "OK", then the '>' prompt. */
  lemma ConnectPhase()
    ensures Steps(Machine(ProcessCipMux1, Ready), ["OK", "OK", ">"]) == Machine(Close, Ready)
    ensures Transcript(Machine(ProcessCipMux1, Ready), ["OK", "OK", ">"])
            == [Text(CipStart), Text(CipSend), Report, Text("\r\n")]
  {
    assert Transcript(Machine(SendData, Ready), [">"]) == [Report, Text("\r\n")];
    assert Transcript(Machine(ProcessConnectIp, Ready), ["OK", ">"]) == [Text(CipSend), Report, Text("\r\n")];
    assert Steps(Machine(SendData, Ready), [">"]) == Machine(Close, Ready);
    assert Steps(Machine(ProcessConnectIp, Ready), ["OK", ">"]) == Machine(Close, Ready);
  }

  /** The happy path: the replies below take the device from power-up to its first report. */
  lemma HappyPath()
    ensures Steps(Start, ["", "OK", "OK", "OK", "OK", "WIFI CONNECTED", "WIFI GOT IP", "OK", "OK", "OK", ">"])
            == Machine(Close, Ready)
  {
    var setup: seq<string> := ["", "OK", "OK", "OK", "OK"];
    var wifi: seq<string> := ["WIFI CONNECTED", "WIFI GOT IP", "OK"];
    var connect: seq<string> := ["OK", "OK", ">"];
    assert Steps(Start, setup + wifi + connect) == Machine(Close, Ready) by {
      SetupPhase();
      WifiPhase();
      ConnectPhase();
      StepsAppend(Start, setup, wifi);
      StepsAppend(Start, setup + wifi, connect);
    }
    assert setup + wifi + connect == ["", "OK", "OK", "OK", "OK", "WIFI CONNECTED", "WIFI GOT IP", "OK", "OK", "OK", ">"];
  }

  /**
   * Along the happy path the device sends each set-up command once, in order, then its report:
   * the replies and the transmissions are grouped by the three phases above.
   */
  lemma HappyPathSends()
    ensures Transcript(Start, ["", "OK", "OK", "OK", "OK"] + ["WIFI CONNECTED", "WIFI GOT IP", "OK"] + ["OK", "OK", ">"])
            == [Text("AT\r\n"), Text("ATE0\r\n"), Text("AT+CWMODE=1\r\n"), Text("AT+CWDHCP=1,1\r\n"), Text(CwJap)]
               + [Text("AT+CIPMUX=1\r\n")]
               + [Text(CipStart), Text(CipSend), Report, Text("\r\n")]
  {
    SetupPhase();
    WifiPhase();
    ConnectPhase();
    TranscriptChain(Start, ["", "OK", "OK", "OK", "OK"], ["WIFI CONNECTED", "WIFI GOT IP", "OK"], ["OK", "OK", ">"],
                    [Text("AT\r\n"), Text("ATE0\r\n"), Text("AT+CWMODE=1\r\n"), Text("AT+CWDHCP=1,1\r\n"), Text(CwJap)],
                    [Text("AT+CIPMUX=1\r\n")],
                    [Text(CipStart), Text(CipSend), Report, Text("\r\n")]);
  }

  // ---------------------------------------------------------------------
  // The receive interrupt `USCI0RX_ISR` as a step on one byte.

  const CR: Byte := 0x0D
  const LF: Byte := 0x0A
  const Prompt: Byte := 0x3E  // '>'

  /**
   * `receiveArray[20]`, `indexReceiveArray`, and the byte stored just
   * before the array, which the interrupt reads and clears through
   * `receiveArray[indexReceiveArray - 2]` when the index is 1.
   */
  datatype Framer = Framer(arr: seq<Byte>, idx: nat, below: Byte)

  predicate FramerValid(f: Framer)
  {
    |f.arr| == SlotSize && f.idx < SlotSize
  }

  /** The bytes of the line received so far. */
  function Pending(f: Framer): seq<Byte>
    requires FramerValid(f)
  {
    f.arr[..f.idx]
  }

  /** The byte the interrupt compares with CR: `receiveArray[idx - 2]`, or the byte stored just before the array when idx was 0. */
  function PrevByte(f: Framer): Byte
    requires FramerValid(f)
  {
    if f.idx >= 1 then f.arr[f.idx - 1] else f.below
  }

  /**
   * One receive interrupt with byte `b`.  When the first byte of a line
   * arrives, the CR test reads the byte stored just before `receiveArray`,
   * and an LF there clears it.  A '>' arriving as the twentieth byte would
   * have its terminator written past the array, so that input is excluded.
   * The result is the new framer and, when a line is complete, the buffer
   * handed to `ringBufferPush`.
   */
  function RxStep(f: Framer, b: Byte): (r: (Framer, Option<seq<Byte>>))
    requires FramerValid(f)
    requires !(b == Prompt && f.idx + 1 == SlotSize)
    ensures FramerValid(r.0)
    ensures r.1.Some? <==> (b == LF && PrevByte(f) == CR) || b == Prompt
    ensures r.0.below == (if b == LF && f.idx == 0 && f.below == CR then 0 else f.below)
    ensures r.1.Some? ==> r.0.idx == 0 && Terminated(r.1.value, SlotSize)
    ensures r.1.None? && f.idx + 1 < SlotSize ==> Pending(r.0) == Pending(f) + [b]
    ensures r.1.None? && f.idx + 1 == SlotSize ==> Pending(r.0) == []
    ensures r.1.Some? && b == LF && f.idx >= 1 ==> CString(r.1.value) == CString(Pending(f)[..f.idx - 1])
    ensures r.1.Some? && b == LF && f.idx == 0 ==> CString(r.1.value) == []
    ensures r.1.Some? && b == Prompt ==> CString(r.1.value) == CString(Pending(f) + [b])
  {
    var n := f.idx + 1;
    var a := f.arr[f.idx := b];
    if PrevByte(f) == CR && b == LF then
      if n >= 2 then
        var line := a[n - 2 := 0][n - 1 := 0];
        CrLfLine(f, b, line);
        (Framer(line, 0, f.below), Some(line))
      else
        // the CR was the byte before the array, which is cleared with the LF
        var line := a[0 := 0];
        NulIndexUnique(line, 0);
        (Framer(line, 0, 0), Some(line))
    else if b == Prompt then
      var line := a[n := 0];
      PromptLine(f, b, line);
      (Framer(line, 0, f.below), Some(line))
    else if n >= SlotSize then
      (Framer(a, 0, f.below), None)
    else
      (Framer(a, n, f.below), None)
  }

  /** The CR LF case: both bytes are cleared and the line is what came before the CR. */
  lemma CrLfLine(f: Framer, b: Byte, line: seq<Byte>)
    requires FramerValid(f) && f.idx >= 1
    requires line == f.arr[f.idx := b][f.idx - 1 := 0][f.idx := 0]
    ensures Terminated(line, SlotSize)
    ensures CString(line) == CString(Pending(f)[..f.idx - 1])
  {
    var p := f.arr[..f.idx - 1];
    assert line[..f.idx] == p + [0];
    assert line[f.idx - 1] == 0;
    PrefixCString(line, f.idx);
    CStringAppendNul(p);
    assert Pending(f)[..f.idx - 1] == p;
    calc {
      CString(line);
      CString(line[..f.idx]);
      CString(p + [0]);
      CString(p);
    }
  }

  /** The '>' case: the prompt is kept and a NUL written after it. */
  lemma PromptLine(f: Framer, b: Byte, line: seq<Byte>)
    requires FramerValid(f) && f.idx + 1 < SlotSize
    requires line == f.arr[f.idx := b][f.idx + 1 := 0]
    ensures Terminated(line, SlotSize)
    ensures CString(line) == CString(Pending(f) + [b])
  {
    var n := f.idx + 1;
    assert line[..n + 1] == f.arr[..f.idx] + [b] + [0];
    assert line[n] == 0;
    PrefixCString(line, n + 1);
    CStringAppendNul(f.arr[..f.idx] + [b]);
  }

  /** Feeds `bytes` through the interrupt, collecting the completed lines as C strings. */
  function Feed(f: Framer, bytes: seq<Byte>): (r: (Framer, seq<seq<Byte>>))
    requires FramerValid(f)
    requires Prompt !in bytes
    ensures FramerValid(r.0)
    decreases |bytes|
  {
    if |bytes| == 0 then (f, [])
    else
      var before := Feed(f, bytes[..|bytes| - 1]);
      var s := RxStep(before.0, bytes[|bytes| - 1]);
      (s.0, before.1 + (if s.1.Some? then [CString(s.1.value)] else []))
  }

  /** Plain bytes accumulate in the receive array without completing a line. */
  lemma {:induction false} FeedPlain(f: Framer, s: seq<Byte>)
    requires FramerValid(f) && f.idx + |s| < SlotSize
    requires forall i :: 0 <= i < |s| ==> s[i] != 0 && s[i] != CR && s[i] != LF && s[i] != Prompt
    ensures Feed(f, s).1 == []
    ensures Feed(f, s).0.idx == f.idx + |s|
    ensures Pending(Feed(f, s).0) == Pending(f) + s
    decreases |s|
  {
    if |s| > 0 {
      var s' := s[..|s| - 1];
      FeedPlain(f, s');
      var g := Feed(f, s').0;
      assert Pending(f) + s == Pending(g) + [s[|s| - 1]];
    }
  }

  /** A reply of at most 18 plain bytes followed by CR LF reaches the ring buffer as exactly that text. */
  lemma FeedLine(f: Framer, s: seq<Byte>)
    requires FramerValid(f) && f.idx == 0 && |s| <= SlotSize - 2
    requires forall i :: 0 <= i < |s| ==> s[i] != 0 && s[i] != CR && s[i] != LF && s[i] != Prompt
    ensures Feed(f, s + [CR, LF]).1 == [s]
    ensures Feed(f, s + [CR, LF]).0.idx == 0
  {
    var sc := s + [CR];
    FeedCr(f, s);
    var line := s + [CR, LF];
    assert line[..|line| - 1] == sc;
    LfCompletes(Feed(f, sc).0, s);
  }

  /** An LF after a stored CR hands over the bytes before the CR. */
  lemma LfCompletes(h: Framer, s: seq<Byte>)
    requires FramerValid(h) && Pending(h) == s + [CR]
    requires forall i :: 0 <= i < |s| ==> s[i] != 0
    ensures RxStep(h, LF).1.Some?
    ensures RxStep(h, LF).0.idx == 0
    ensures CString(RxStep(h, LF).1.value) == s
  {
    assert PrevByte(h) == CR;
    assert Pending(h)[..h.idx - 1] == s;
    NoNulCString(s);
  }

  /** The CR of a line is stored like any other byte. */
  lemma FeedCr(f: Framer, s: seq<Byte>)
    requires FramerValid(f) && f.idx == 0 && |s| <= SlotSize - 2
    requires forall i :: 0 <= i < |s| ==> s[i] != 0 && s[i] != CR && s[i] != LF && s[i] != Prompt
    ensures Feed(f, s + [CR]).1 == []
    ensures Pending(Feed(f, s + [CR]).0) == s + [CR]
  {
    FeedPlain(f, s);
    var g := Feed(f, s).0;
    var sc := s + [CR];
    var h := RxStep(g, CR);
    assert h.1.None? by {
      if |s| == 0 { assert PrevByte(g) == g.below; }
    }
    assert sc[..|sc| - 1] == s;
  }

  /**
   * A CR stored just before the array and an LF as the first byte complete
   * an empty line and clear that CR, so a second LF completes nothing.
   */
  lemma LfClearsByteBelow(f: Framer)
    requires FramerValid(f) && f.idx == 0 && f.below == CR
    ensures Feed(f, [LF, LF]).1 == [[]]
    ensures Feed(f, [LF, LF]).0.below == 0 && Feed(f, [LF, LF]).0.idx == 1
  {
    var first := RxStep(f, LF);
    assert first.1.Some? && first.0.below == 0 && first.0.idx == 0;
    assert CString(first.1.value) == [] by {
      NulIndexUnique(first.1.value, 0);
    }
    assert [LF, LF][..1] == [LF] && [LF][..0] == [];
    assert Feed(f, []) == (f, []);
    assert Feed(f, [LF]) == (first.0, [] + [CString(first.1.value)]);
    var second := RxStep(first.0, LF);
    assert PrevByte(first.0) == 0;
    assert second.1.None? && second.0.below == 0 && second.0.idx == 1;
  }

  /** A buffer with no NUL is its own C string. */
  lemma NoNulCString(s: seq<Byte>)
    requires forall i :: 0 <= i < |s| ==> s[i] != 0
    ensures CString(s) == s
  {
  }

  /** The whole interrupt: frame the byte and push a completed line; a full buffer drops it. */
  function Isr(f: Framer, c: Ring, b: Byte): (r: (Framer, Ring))
    requires FramerValid(f) && Valid(c)
    requires !(b == Prompt && f.idx + 1 == SlotSize)
    ensures FramerValid(r.0) && Valid(r.1)
    ensures RxStep(f, b).1.None? ==> r.1 == c
    ensures RxStep(f, b).1.Some? && Count(c) < SlotCount - 1 ==>
              Queue(r.1) == Queue(c) + [CString(RxStep(f, b).1.value)]
    ensures Count(c) == SlotCount - 1 ==> r.1 == c
  {
    var s := RxStep(f, b);
    match s.1
    case None => (s.0, c)
    case Some(line) => (s.0, Push(c, line).0)
  }

  /**
   * One pass of the main loop: pop the oldest line (or "" when none is
   * stored) and run the state machine on it.
   */
  function MainTurn(m: Machine, c: Ring): (r: (Machine, Ring, seq<Tx>))
    requires Valid(c)
    ensures Valid(r.1)
    ensures Queue(c) == [] ==> r.1 == c && r.0 == Step(m, "").0
    ensures Queue(c) != [] ==> Queue(r.1) == Queue(c)[1..] && r.0 == Step(m, ToText(Queue(c)[0])).0
    ensures Queue(c) == [] ==> r.2 == Step(m, "").1
    ensures Queue(c) != [] ==> r.2 == Step(m, ToText(Queue(c)[0])).1
  {
    var p := Pop(c);
    var s := Step(m, ToText(p.1));
    (s.0, p.0, s.1)
  }

  /** A C string is unchanged by cutting its buffer after a NUL it contains. */
  lemma PrefixCString(s: seq<Byte>, k: nat)
    requires k <= |s|
    requires exists i :: 0 <= i < k && s[i] == 0
    ensures CString(s) == CString(s[..k])
    ensures NulIndex(s) < k
  {
    var i :| 0 <= i < k && s[i] == 0;
    assert NulIndex(s) <= i;
    NulIndexUnique(s[..k], NulIndex(s));
  }

  /** Appending a NUL to a buffer leaves its C string unchanged. */
  lemma CStringAppendNul(s: seq<Byte>)
    ensures CString(s + [0]) == CString(s)
  {
    var t := s + [0];
    if NulIndex(s) < |s| {
      NulIndexUnique(t, NulIndex(s));
    } else {
      NulIndexUnique(t, |s|);
    }
  }
}

=== FILE: fh_hop.dfy ===
/**
 * The sleepy frequency-hopping device's fixed-channel choice: the joining
 * device's link controller steps `sleepNodeChIdx` through the channels
 * whose bit is set in its channel mask, one channel per poll.
 *
 * A mask is a byte array; bit `k` of byte `j` (least significant bit
 * first) stands for channel `8 * j + k`.  `sleepNodeChIdx` is a `uint8_t`,
 * so only the first 32 bytes of a mask can be addressed; the configured
 * mask has 17.
 */
module FhHop {
  import opened Types

  /** A channel bitmap small enough for every channel to fit in a byte. */
  type ChannelMask = m: seq<Byte> | |m| <= 32

  /** `DEFAULT_FH_SLEEP_FIXED_CHANNEL`: the answer when no channel is found. */
  const DefaultChannel: Byte := 0

  /** `x >> k`. */
  function Shift(x: nat, k: nat): nat
  {
    if k == 0 then x else Shift(x, k - 1) / 2
  }

  /** Whether channel `ch` is enabled in `mask`. */
  predicate Bit(mask: seq<Byte>, ch: nat)
  {
    ch < 8 * |mask| && Shift(mask[ch / 8], ch % 8) % 2 == 1
  }

  /** The channel returned and the value `sleepNodeChIdx` is left with. */
  datatype Hop = Hop(channel: Byte, next: Byte)

  // ---------------------------------------------------------------------
  // The hop as the source computes it

  /** Where the byte search of the source stops: list position, bitmap, index, and whether a read fell past the end. */
  datatype Search = Search(cur: nat, bm: nat, idx: Byte, overread: bool)

  /**
   * The `while` loop of `getFHSleepNodeHopChannel` that looks for a
   * non-empty byte: it reads the byte at `cur`, moves on, and when `cur`
   * passes the last byte it wraps to byte 0 and reloads it.  The byte read
   * at `cur == |mask|` lies past the end of the array; its value is
   * overwritten by the wrap at once, so it stands in here as zero and is
   * recorded in `overread`.
   */
  function SearchAsWritten(mask: ChannelMask, start: nat, cur: nat, bm: nat, idx: Byte, overread: bool): (r: Search)
    requires start < |mask| && cur <= |mask|
    ensures r.bm != 0 || r.cur == start
    ensures r.cur <= |mask| && (overread ==> r.overread)
    decreases if cur > start then |mask| + 2 - cur + start else start - cur
  {
    if bm != 0 || cur == start then Search(cur, bm, idx, overread)
    else
      var read := if cur < |mask| then mask[cur] as nat else 0;
      var over := overread || cur >= |mask|;
      var idx' := (cur * 8) % 0x100;
      if cur + 1 > |mask| - 1 then SearchAsWritten(mask, start, 0, mask[0], 0, over)
      else SearchAsWritten(mask, start, cur + 1, read, idx', over)
  }

  /**
   * The second loop: shifts the bitmap right one bit per step, advancing
   * `sleepNodeChIdx`, until the low bit is set or `i` reaches `bound`.
   */
  function BitScan(bm: nat, idx: Byte, i: Byte, bound: nat): (r: Hop)
    requires bm > 0
    ensures r.channel != DefaultChannel ==> r.next == (r.channel + 1) % 0x100
    ensures i >= bound ==> r == Hop(DefaultChannel, idx)
    decreases bm
  {
    if i < bound then
      if bm % 2 == 1 then Hop(idx, (idx + 1) % 0x100)
      else BitScan(bm / 2, (idx + 1) % 0x100, (i + 1) % 0x100, bound)
    else Hop(DefaultChannel, idx)
  }

  /**
   * `getFHSleepNodeHopChannel` as written: the channel and the new
   * `sleepNodeChIdx`, and whether the search read past the end of the mask.
   */
  function HopAsWritten(mask: ChannelMask, idx: Byte): (r: (Hop, bool))
    ensures idx / 8 >= |mask| ==> r == (Hop(DefaultChannel, idx), false)
    ensures r.0.channel != DefaultChannel ==> r.0.next == (r.0.channel + 1) % 0x100
  {
    var start := idx / 8;
    if |mask| == 0 || start >= |mask| then (Hop(DefaultChannel, idx), false)
    else
      var sr := SearchAsWritten(mask, start, start + 1, Shift(mask[start], idx % 8), idx, false);
      if sr.bm != 0 then (BitScan(sr.bm, sr.idx, sr.idx, 8 * (sr.cur + 1)), sr.overread)
      else (Hop(DefaultChannel, sr.idx), sr.overread)
  }

  /** What the byte search keeps: a non-empty bitmap is the rest of the byte `idx` points into. */
  predicate SearchState(mask: seq<Byte>, cur: nat, bm: nat, idx: Byte)
  {
    bm != 0 ==> idx / 8 < |mask| && idx / 8 <= cur && bm == Shift(mask[idx / 8], idx % 8)
  }

  lemma {:induction false} SearchKeepsState(mask: ChannelMask, start: nat, cur: nat, bm: nat, idx: Byte, overread: bool)
    requires start < |mask| && cur <= |mask|
    requires SearchState(mask, cur, bm, idx)
    ensures var r := SearchAsWritten(mask, start, cur, bm, idx, overread);
            SearchState(mask, r.cur, r.bm, r.idx)
    decreases if cur > start then |mask| + 2 - cur + start else start - cur
  {
    if bm != 0 || cur == start {
    } else {
      var read := if cur < |mask| then mask[cur] as nat else 0;
      var over := overread || cur >= |mask|;
      if cur + 1 > |mask| - 1 {
        SearchKeepsState(mask, start, 0, mask[0], 0, over);
      } else {
        assert (cur * 8) % 0x100 == cur * 8;
        SearchKeepsState(mask, start, cur + 1, read, (cur * 8) % 0x100, over);
      }
    }
  }

  /** A byte shifted right seven times is at most one. */
  lemma ShiftSeven(x: Byte)
    ensures Shift(x, 7) <= 1
  {
    assert Shift(x, 1) <= 127;
    assert Shift(x, 2) <= 63;
    assert Shift(x, 3) <= 31;
    assert Shift(x, 4) <= 15;
    assert Shift(x, 5) <= 7;
    assert Shift(x, 6) <= 3;
  }

  /** Every bit of a zero byte is clear. */
  lemma {:induction false} ShiftZero(k: nat)
    ensures Shift(0, k) == 0
  {
    if k > 0 {
      ShiftZero(k - 1);
    }
  }

  /** A channel lies within the eight channels of its byte. */
  lemma InByte(ch: nat)
    ensures 8 * (ch / 8) <= ch < 8 * (ch / 8) + 8
  {
  }

  /** Moving to the next channel inside a byte keeps the byte and advances the bit. */
  lemma NextInByte(ch: nat)
    requires ch < 0x100 && ch % 8 != 7
    ensures (ch + 1) / 8 == ch / 8 && (ch + 1) % 8 == ch % 8 + 1 && (ch + 1) % 0x100 == ch + 1
  {
  }

  /** The bit scan stops on an enabled channel of the byte it started in. */
  lemma {:induction false} BitScanFindsSetBit(mask: ChannelMask, bm: nat, idx: Byte, bound: nat)
    requires bm > 0 && idx / 8 < |mask| && 8 * (idx / 8) + 8 <= bound
    requires bm == Shift(mask[idx / 8], idx % 8)
    ensures var r := BitScan(bm, idx, idx, bound);
            Bit(mask, r.channel) && r.next == (r.channel + 1) % 0x100 && idx <= r.channel
    decreases bm
  {
    InByte(idx);
    if bm % 2 == 0 {
      if idx % 8 == 7 {
        ShiftSeven(mask[idx / 8]);
        assert false;
      }
      NextInByte(idx);
      var next: Byte := idx + 1;
      assert BitScan(bm, idx, idx, bound) == BitScan(bm / 2, next, next, bound);
      assert Shift(mask[next / 8], next % 8) == bm / 2;
      BitScanFindsSetBit(mask, bm / 2, next, bound);
    } else {
      assert BitScan(bm, idx, idx, bound) == Hop(idx, (idx + 1) % 0x100);
    }
  }

  /**
   * Whatever channel the source's loops settle on is enabled in the mask,
   * and `sleepNodeChIdx` is left just past it; the default channel comes
   * back only when the loops find nothing.
   */
  lemma HopAsWrittenFindsSetChannel(mask: ChannelMask, idx: Byte)
    ensures idx / 8 >= |mask| ==> HopAsWritten(mask, idx) == (Hop(DefaultChannel, idx), false)
    ensures var h := HopAsWritten(mask, idx).0;
            h.channel != DefaultChannel ==> Bit(mask, h.channel) && h.next == (h.channel + 1) % 0x100
  {
    if |mask| == 0 || idx / 8 >= |mask| {
      return;
    }
    var start := idx / 8;
    SearchKeepsState(mask, start, start + 1, Shift(mask[start], idx % 8), idx, false);
    var sr := SearchAsWritten(mask, start, start + 1, Shift(mask[start], idx % 8), idx, false);
    if sr.bm != 0 {
      BitScanFindsSetBit(mask, sr.bm, sr.idx, 8 * (sr.cur + 1));
    }
  }

  /**
   * The byte search skips the last byte of the mask: on reaching it, the
   * wrap reloads byte 0 over it.  With channel 8 the only one enabled and
   * the search starting at channel 0, channel 8 is never chosen.
   */
  lemma LastByteSkippedAsWritten()
    ensures Bit([0x00, 0x01], 8)
    ensures HopAsWritten([0x00, 0x01], 0).0 == Hop(DefaultChannel, 0)
    ensures GetHopChannel([0x00, 0x01], 0) == Hop(8, 9)
  {
    var mask: ChannelMask := [0x00, 0x01];
    assert Bit(mask, 8);
    forall j | 0 <= j < 8
      ensures !Bit(mask, j)
    {
      ShiftZero(j % 8);
    }
  }

  /**
   * When the search starts in the last byte and the rest of that byte is
   * clear, the first read of the loop is one byte past the end of the mask.
   */
  lemma OverreadAsWritten()
    ensures HopAsWritten([0x01], 1).1
  {
  }

  /**
   * The byte search stops on returning to the byte it started in, so the
   * channels of that byte below `sleepNodeChIdx` are never looked at: with
   * channel 9 the only one enabled, a search from channel 10 ends on the
   * default channel and resets the index, and the next one finds channel 9
   * again, so the device alternates between channel 9 and the default.
   */
  lemma StartByteNotRevisitedAsWritten()
    ensures Bit([0x00, 0x02, 0x00], 9)
    ensures HopAsWritten([0x00, 0x02, 0x00], 10) == (Hop(DefaultChannel, 0), false)
    ensures HopAsWritten([0x00, 0x02, 0x00], 0) == (Hop(9, 10), false)
    ensures GetHopChannel([0x00, 0x02, 0x00], 10) == Hop(9, 10)
  {
    var mask: ChannelMask := [0x00, 0x02, 0x00];
    assert Bit(mask, 9);
    forall j | 10 <= j < 24
      ensures !Bit(mask, j)
    {
      if j < 16 {
        assert j / 8 == 1 && j % 8 >= 2;
        ShiftTwo(j % 8);
      } else {
        ShiftZero(j % 8);
      }
    }
  }

  /** A byte holding only bit 1 has nothing left after two shifts. */
  lemma {:induction false} ShiftTwo(k: nat)
    requires k >= 2
    ensures Shift(2, k) == 0
  {
    if k > 2 {
      ShiftTwo(k - 1);
    }
  }

  // ---------------------------------------------------------------------
  // Trimming the mask to the channels the radio has

  /** `x` with every bit from position `n` upward cleared. */
  function Low(x: nat, n: nat): (r: nat)
    ensures r <= x
  {
    if n == 0 || x == 0 then 0 else 2 * Low(x / 2, n - 1) + x % 2
  }

  /** Shifting once more is shifting the halved value. */
  lemma {:induction false} ShiftHalf(x: nat, k: nat)
    ensures Shift(x, k + 1) == Shift(x / 2, k)
  {
    if k > 0 {
      ShiftHalf(x, k - 1);
    }
  }

  /** Bit `k` of `Low(x, n)` is bit `k` of `x` below position `n`, and clear from there on. */
  lemma {:induction false} LowBit(x: nat, n: nat, k: nat)
    ensures Shift(Low(x, n), k) % 2 == (if k < n then Shift(x, k) % 2 else 0)
  {
    if n == 0 || x == 0 {
      ShiftZero(k);
    } else if k > 0 {
      ShiftHalf(Low(x, n), k - 1);
      ShiftHalf(x, k - 1);
      assert Low(x, n) / 2 == Low(x / 2, n - 1);
      LowBit(x / 2, n - 1, k - 1);
    }
  }

  /** Byte `j` of a trimmed mask: the bits of channels `8 * j + k` at or above `max` cleared. */
  function TrimByte(x: Byte, base: nat, max: nat): Byte
  {
    if max <= base then 0 else Low(x, max - base) as Byte
  }

  /**
   * The loop of `Jdllc_init` that clears, for a sleepy hopping device, every
   * channel at or above `APIMAC_154G_MAX_NUM_CHANNEL` (here `max`).  The
   * running channel counter is a `uint8_t`, which no mask of at most 32
   * bytes makes wrap before the last bit.
   */
  function TrimMask(mask: ChannelMask, max: nat): (r: ChannelMask)
    ensures |r| == |mask|
  {
    seq(|mask|, j requires 0 <= j < |mask| => TrimByte(mask[j], 8 * j, max))
  }

  /** A trimmed mask enables exactly the enabled channels below the limit. */
  lemma TrimMaskBits(mask: ChannelMask, max: nat)
    ensures forall ch: nat :: Bit(TrimMask(mask, max), ch) <==> Bit(mask, ch) && ch < max
  {
    var r := TrimMask(mask, max);
    forall ch: nat
      ensures Bit(r, ch) <==> Bit(mask, ch) && ch < max
    {
      if ch < 8 * |mask| {
        var j, k := ch / 8, ch % 8;
        assert ch == 8 * j + k && j < |mask|;
        if max <= 8 * j {
          ShiftZero(k);
        } else {
          LowBit(mask[j], max - 8 * j, k);
        }
      }
    }
  }

  // ---------------------------------------------------------------------
  // The hop as evidently intended

  /** The first enabled channel in `[lo, hi)`, if any. */
  function FirstSet(mask: seq<Byte>, lo: nat, hi: nat): (r: Option<nat>)
    ensures r.Some? ==> lo <= r.value < hi && Bit(mask, r.value)
    ensures r.Some? ==> forall j :: lo <= j < r.value ==> !Bit(mask, j)
    ensures r.None? ==> forall j :: lo <= j < hi ==> !Bit(mask, j)
    decreases hi - lo
  {
    if lo >= hi then None
    else if Bit(mask, lo) then Some(lo)
    else FirstSet(mask, lo + 1, hi)
  }

  /**
   * `getFHSleepNodeHopChannel` with the search made cyclic over every
   * channel of the mask: the first enabled channel at or after
   * `sleepNodeChIdx`, wrapping to channel 0, and `sleepNodeChIdx` left one
   * past it.  An index outside the mask, or a mask with nothing enabled,
   * gives the default channel and leaves the index as it was.
   */
  function GetHopChannel(mask: ChannelMask, idx: Byte): (r: Hop)
    ensures |mask| == 0 || idx / 8 >= |mask| ==> r == Hop(DefaultChannel, idx)
    ensures idx / 8 < |mask| && r != Hop(DefaultChannel, idx) ==> Bit(mask, r.channel)
    ensures idx / 8 < |mask| && Bit(mask, r.channel) ==> r.next == (r.channel + 1) % 0x100
    ensures idx / 8 < |mask| && !(exists j :: Bit(mask, j)) ==> r == Hop(DefaultChannel, idx)
    ensures idx / 8 < |mask| && idx <= r.channel ==>
              forall j :: idx <= j < r.channel ==> !Bit(mask, j)
    ensures idx / 8 < |mask| && r.channel < idx && Bit(mask, r.channel) ==>
              (forall j :: idx <= j < 8 * |mask| ==> !Bit(mask, j)) && (forall j :: 0 <= j < r.channel ==> !Bit(mask, j))
    ensures (exists j :: Bit(mask, j)) && idx / 8 < |mask| ==> Bit(mask, r.channel)
  {
    if |mask| == 0 || idx / 8 >= |mask| then Hop(DefaultChannel, idx)
    else
      match FirstSet(mask, idx, 8 * |mask|)
      case Some(ch) => Hop(ch, (ch + 1) % 0x100)
      case None =>
        match FirstSet(mask, 0, idx)
        case Some(ch) => Hop(ch, (ch + 1) % 0x100)
        case None => Hop(DefaultChannel, idx)
  }
}

=== FILE: fh_nt.dfy ===
/**
 * The frequency-hopping neighbour table of the 15.4 MAC: a fixed array of
 * node slots and a count `num_node` of the slots in use.  A slot is in use
 * when its `valid` flags are not all clear.
 *
 * The MAC clock, the PIB and the table size come in as parameters: `cur`
 * and `ts` are tick counts, `parent` is the tracked parent's extended
 * address, `validTime` and `interval` are already scaled to ticks, and the
 * table has as many slots as `node` holds.
 */
module NeighbourTable {
  import opened Types

  /** `CLOCK_DRIFT_UNKNOWN`. */
  const ClockDriftUnknown: Byte := 255
  /** `CHANNEL_FUNCTION_UNKNOWN`. */
  const ChannelFunctionUnknown: Byte := 255
  /** `FHIE_CF_SINGLE_CHANNEL` and `FHIE_CF_DH1CF`: the unicast schedule's channel functions (header values assumed). */
  const CfSingleChannel: Byte := 0
  const CfDh1cf: Byte := 2

  /** An extended address, `sAddrExt_t`. */
  type Addr = seq<Byte>

  /** The bits of a slot's `valid` field; a slot with none of them set is free. */
  datatype Flag = Created | WithUtie | Expired

  /** One `NODE_ENTRY_s`, reduced to the fields this table reads or writes. */
  datatype Entry = Entry(addr: Addr, valid: set<Flag>, stamp: Uint32, clockDrift: Byte, channelFunc: Byte)

  /** `FHNT_table`: the slots and `num_node`. */
  datatype Table = Table(node: seq<Entry>, numNode: Uint16)

  /** The loops over the slots count with a `uint16_t`. */
  predicate WellFormed(t: Table)
  {
    |t.node| < 0x1_0000
  }

  predicate InUse(e: Entry)
  {
    e.valid != {}
  }

  /** Number of slots in use. */
  function Live(s: seq<Entry>): (n: nat)
    ensures n <= |s|
  {
    if |s| == 0 then 0 else Live(s[..|s| - 1]) + (if InUse(s[|s| - 1]) then 1 else 0)
  }

  /** The table invariant: `num_node` counts the slots in use. */
  predicate CountValid(t: Table)
  {
    t.numNode == Live(t.node)
  }

  /** Replacing one slot changes the count by what the slot's use changes. */
  lemma {:induction false} LiveUpdate(s: seq<Entry>, i: nat, e: Entry)
    requires i < |s|
    ensures Live(s[i := e]) + (if InUse(s[i]) then 1 else 0) == Live(s) + (if InUse(e) then 1 else 0)
    decreases |s|
  {
    var n := |s| - 1;
    if i == n {
      assert s[i := e][..n] == s[..n];
    } else {
      assert s[i := e][..n] == s[..n][i := e];
      LiveUpdate(s[..n], i, e);
    }
  }

  /** When every slot is in use, the count is the table size, and conversely. */
  lemma {:induction false} LiveAll(s: seq<Entry>)
    ensures Live(s) == |s| <==> forall i :: 0 <= i < |s| ==> InUse(s[i])
    decreases |s|
  {
    if |s| > 0 {
      var n := |s| - 1;
      LiveAll(s[..n]);
      assert forall i :: 0 <= i < n ==> s[..n][i] == s[i];
    }
  }

  /** No slot in use: the count is zero. */
  lemma {:induction false} LiveNone(s: seq<Entry>)
    requires forall i :: 0 <= i < |s| ==> !InUse(s[i])
    ensures Live(s) == 0
    decreases |s|
  {
    if |s| > 0 {
      var n := |s| - 1;
      assert forall i :: 0 <= i < n ==> s[..n][i] == s[i];
      LiveNone(s[..n]);
    }
  }

  /** A cleared slot, as `memset` leaves it. */
  const Cleared: Entry := Entry([0, 0, 0, 0, 0, 0, 0, 0], {}, 0, 0, 0)

  /** `FHNT_reset`: every slot cleared and no node counted. */
  function Reset(n: Uint16): (t: Table)
    ensures |t.node| == n && WellFormed(t)
    ensures forall i :: 0 <= i < n ==> !InUse(t.node[i])
    ensures CountValid(t)
  {
    var t := Table(seq(n, _ => Cleared), 0);
    LiveNone(t.node);
    t
  }

  // ---------------------------------------------------------------------
  // Time

  /** `FHUTIL_elapsedTime`: ticks from `since` to `cur` on the wrapping 32-bit clock. */
  function Elapsed(cur: Uint32, since: Uint32): (e: Uint32)
    ensures (since + e) % Wrap32 == cur
  {
    if cur >= since then cur - since else cur + Wrap32 - since
  }

  /** A stamp taken `d` ticks ago reads as `d` ticks old, across a wrap of the clock too. */
  lemma ElapsedAfter(since: Uint32, d: Uint32)
    ensures Elapsed((since + d) % Wrap32, since) == d
  {
  }

  datatype Verdict = Purge | Keep

  /** `FHNT_assessTime`: an entry is stale once `validTime` ticks have passed since `since`. */
  function AssessTime(cur: Uint32, since: Uint32, validTime: Uint32): (v: Verdict)
    ensures v == Purge <==> (cur - since) % Wrap32 >= validTime
  {
    if Elapsed(cur, since) >= validTime then Purge else Keep
  }

  /** A stamp taken `d` ticks before `cur` is judged stale exactly when `d` reaches the valid time. */
  lemma AssessAfter(since: Uint32, d: Uint32, validTime: Uint32)
    ensures AssessTime((since + d) % Wrap32, since, validTime) == Purge <==> d >= validTime
  {
    ElapsedAfter(since, d);
  }

  // ---------------------------------------------------------------------
  // Choosing the slot to give up when the table is full

  /** Age in ticks of slot `i` at time `cur`. */
  function Age(node: seq<Entry>, cur: Uint32, i: nat): Uint32
    requires i < |node|
  {
    Elapsed(cur, node[i].stamp)
  }

  /**
   * The slot `FHNT_getRemoveEntry` returns, as written: among the slots not
   * holding the parent, the one of strictly greatest age, the first of
   * equals; slot 0 when no such slot has any age, whatever slot 0 holds.
   */
  predicate ChosenAsWritten(node: seq<Entry>, parent: Addr, cur: Uint32, k: nat)
  {
    && k < |node|
    && if exists i :: 0 <= i < |node| && node[i].addr != parent && Age(node, cur, i) > 0 then
         && node[k].addr != parent
         && (forall j :: 0 <= j < |node| && node[j].addr != parent ==> Age(node, cur, j) <= Age(node, cur, k))
         && (forall j :: 0 <= j < k && node[j].addr != parent ==> Age(node, cur, j) < Age(node, cur, k))
       else k == 0
  }

  /** `FHNT_getRemoveEntry` as written: the search starts from slot 0 with age 0. */
  method GetRemoveEntryAsWritten(node: seq<Entry>, parent: Addr, cur: Uint32) returns (maxIdx: nat)
    requires 0 < |node| < 0x1_0000
    ensures ChosenAsWritten(node, parent, cur, maxIdx)
  {
    var maxElapsed: Uint32 := 0;
    maxIdx := 0;
    var i := 0;
    while i < |node|
      invariant i <= |node| && maxIdx < |node|
      invariant maxElapsed == 0 ==> maxIdx == 0
      invariant maxElapsed > 0 ==> maxIdx < i && node[maxIdx].addr != parent && Age(node, cur, maxIdx) == maxElapsed
      invariant forall j :: 0 <= j < i && node[j].addr != parent ==> Age(node, cur, j) <= maxElapsed
      invariant forall j :: 0 <= j < maxIdx && node[j].addr != parent ==> Age(node, cur, j) < maxElapsed
    {
      if node[i].addr != parent {
        var elapsed := Elapsed(cur, node[i].stamp);
        if elapsed > maxElapsed {
          maxElapsed := elapsed;
          maxIdx := i;
        }
      }
      i := i + 1;
    }
  }

  /** A full table of two whose slot 0 holds the parent and whose other node is not yet a tick old gives up the parent. */
  lemma ParentEvictedAsWritten(k: nat)
    requires ChosenAsWritten([Entry([1], {Created}, 3, 0, 0), Entry([2], {Created}, 7, 0, 0)], [1], 7, k)
    ensures k == 0
  {
    var node := [Entry([1], {Created}, 3, 0, 0), Entry([2], {Created}, 7, 0, 0)];
    assert Age(node, 7, 1) == 0;
    assert !exists i :: 0 <= i < |node| && node[i].addr != [1] && Age(node, 7, i) > 0 by {
      forall i | 0 <= i < |node| && node[i].addr != [1]
        ensures Age(node, 7, i) == 0
      {
        assert i == 1;
      }
    }
  }

  /**
   * The slot a full table gives up: among the slots not holding the parent,
   * the one of greatest age, the first of equals.
   */
  predicate Chosen(node: seq<Entry>, parent: Addr, cur: Uint32, k: nat)
  {
    && k < |node|
    && node[k].addr != parent
    && (forall j :: 0 <= j < |node| && node[j].addr != parent ==> Age(node, cur, j) <= Age(node, cur, k))
    && (forall j :: 0 <= j < k && node[j].addr != parent ==> Age(node, cur, j) < Age(node, cur, k))
  }

  /** `FHNT_getRemoveEntry` corrected: the parent is never chosen; with only the parent in the table there is nothing to give up. */
  method GetRemoveEntry(node: seq<Entry>, parent: Addr, cur: Uint32) returns (victim: Option<nat>)
    requires |node| < 0x1_0000
    ensures victim.None? <==> forall i :: 0 <= i < |node| ==> node[i].addr == parent
    ensures victim.Some? ==> Chosen(node, parent, cur, victim.value)
  {
    victim := None;
    var maxElapsed: Uint32 := 0;
    var i := 0;
    while i < |node|
      invariant i <= |node|
      invariant victim.None? <==> forall j :: 0 <= j < i ==> node[j].addr == parent
      invariant victim.Some? ==> victim.value < i && node[victim.value].addr != parent
      invariant victim.Some? ==> Age(node, cur, victim.value) == maxElapsed
      invariant victim.Some? ==> forall j :: 0 <= j < i && node[j].addr != parent ==> Age(node, cur, j) <= maxElapsed
      invariant victim.Some? ==> forall j :: 0 <= j < victim.value && node[j].addr != parent ==> Age(node, cur, j) < maxElapsed
    {
      if node[i].addr != parent {
        var elapsed := Elapsed(cur, node[i].stamp);
        if victim.None? || elapsed > maxElapsed {
          maxElapsed := elapsed;
          victim := Some(i);
        }
      }
      i := i + 1;
    }
  }

  /** On the table that makes the written search give up the parent, the corrected one gives up the other node. */
  lemma ParentKept(k: nat)
    requires Chosen([Entry([1], {Created}, 3, 0, 0), Entry([2], {Created}, 7, 0, 0)], [1], 7, k)
    ensures k == 1
  {
  }

  /** The chosen slot is determined: two slots meeting `Chosen` are the same slot. */
  lemma ChosenUnique(node: seq<Entry>, parent: Addr, cur: Uint32, k: nat, k': nat)
    requires Chosen(node, parent, cur, k) && Chosen(node, parent, cur, k')
    ensures k == k'
  {
  }

  // ---------------------------------------------------------------------
  // Create

  /** A freshly created entry: cleared, holding `addr`, drift and channel function unknown, flagged CREATED. */
  function Fresh(addr: Addr): Entry
  {
    Cleared.(addr := addr, valid := {Created}, clockDrift := ClockDriftUnknown, channelFunc := ChannelFunctionUnknown)
  }

  /** The first free slot, by the `if (!pNodeEntry->valid)` loop of `FHNT_createEntry`. */
  method FirstFree(node: seq<Entry>) returns (slot: Option<nat>)
    ensures slot.None? <==> forall i :: 0 <= i < |node| ==> InUse(node[i])
    ensures slot.Some? ==> slot.value < |node| && !InUse(node[slot.value])
    ensures slot.Some? ==> forall j :: 0 <= j < slot.value ==> InUse(node[j])
  {
    var i := 0;
    while i < |node|
      invariant i <= |node|
      invariant forall j :: 0 <= j < i ==> InUse(node[j])
    {
      if !InUse(node[i]) {
        return Some(i);
      }
      i := i + 1;
    }
    return None;
  }

  /**
   * `FHNT_createEntry`: when `num_node` says the table is full, the slot
   * chosen by `GetRemoveEntry` is overwritten and the count kept; otherwise
   * the first free slot is taken and counted.  With no slot to take, the
   * table is unchanged and NULL returned.
   */
  method CreateEntry(t: Table, addr: Addr, parent: Addr, cur: Uint32) returns (t': Table, slot: Option<nat>)
    requires WellFormed(t)
    ensures WellFormed(t') && |t'.node| == |t.node|
    ensures slot.None? ==> t' == t
    ensures slot.Some? ==> slot.value < |t.node| && t'.node == t.node[slot.value := Fresh(addr)]
    ensures t.numNode == |t.node| ==> t'.numNode == t.numNode
    ensures t.numNode == |t.node| && slot.Some? ==> Chosen(t.node, parent, cur, slot.value)
    ensures t.numNode == |t.node| ==> (slot.None? <==> forall i :: 0 <= i < |t.node| ==> t.node[i].addr == parent)
    ensures t.numNode != |t.node| && slot.Some? ==>
              && !InUse(t.node[slot.value])
              && (forall j :: 0 <= j < slot.value ==> InUse(t.node[j]))
              && t'.numNode == (t.numNode + 1) % 0x1_0000
    ensures t.numNode != |t.node| ==> (slot.None? <==> forall i :: 0 <= i < |t.node| ==> InUse(t.node[i]))
    ensures CountValid(t) ==> CountValid(t')
    ensures CountValid(t) && t.numNode < |t.node| ==> slot.Some?
  {
    if t.numNode == |t.node| {
      slot := GetRemoveEntry(t.node, parent, cur);
      if slot.None? {
        return t, None;
      }
      t' := t.(node := t.node[slot.value := Fresh(addr)]);
      if CountValid(t) {
        LiveAll(t.node);
        LiveUpdate(t.node, slot.value, Fresh(addr));
      }
    } else {
      slot := FirstFree(t.node);
      if slot.None? {
        if CountValid(t) {
          LiveAll(t.node);
        }
        return t, None;
      }
      t' := Table(t.node[slot.value := Fresh(addr)], (t.numNode + 1) % 0x1_0000);
      if CountValid(t) {
        LiveUpdate(t.node, slot.value, Fresh(addr));
      }
    }
  }

  // ---------------------------------------------------------------------
  // Lookup and removal

  /** The statuses `FHNT_getEntry` returns. */
  datatype Status = Success | Err | ExpiredNode | NoEntry

  /** Slot `e` is in use and holds `addr`. */
  predicate Holds(e: Entry, addr: Addr)
  {
    InUse(e) && e.addr == addr
  }

  /** The first slot in use holding `addr`. */
  method FindEntry(node: seq<Entry>, addr: Addr) returns (slot: Option<nat>)
    ensures slot.None? <==> forall i :: 0 <= i < |node| ==> !Holds(node[i], addr)
    ensures slot.Some? ==> slot.value < |node| && Holds(node[slot.value], addr)
    ensures slot.Some? ==> forall j :: 0 <= j < slot.value ==> !Holds(node[j], addr)
  {
    var i := 0;
    while i < |node|
      invariant i <= |node|
      invariant forall j :: 0 <= j < i ==> !Holds(node[j], addr)
    {
      if Holds(node[i], addr) {
        return Some(i);
      }
      i := i + 1;
    }
    return None;
  }

  /** `e` is a DH1CF neighbour whose schedule is older than `validTime` ticks. */
  predicate Outdated(e: Entry, cur: Uint32, validTime: Uint32)
  {
    e.channelFunc == CfDh1cf && AssessTime(cur, e.stamp, validTime) == Purge
  }

  /**
   * `FHNT_getEntry`: finds the first slot in use holding `addr`.  A DH1CF
   * neighbour past its valid time is flagged EXPIRED and reported so; a
   * current DH1CF or a single-channel neighbour is a success; any other
   * channel function is an error.
   */
  method GetEntry(t: Table, addr: Addr, cur: Uint32, validTime: Uint32) returns (t': Table, status: Status, slot: Option<nat>)
    ensures slot.None? <==> forall i :: 0 <= i < |t.node| ==> !Holds(t.node[i], addr)
    ensures slot.Some? ==> slot.value < |t.node| && Holds(t.node[slot.value], addr)
    ensures slot.Some? ==> forall j :: 0 <= j < slot.value ==> !Holds(t.node[j], addr)
    ensures status == NoEntry <==> slot.None?
    ensures status == ExpiredNode <==> slot.Some? && Outdated(t.node[slot.value], cur, validTime)
    ensures status == Err <==>
              slot.Some? && t.node[slot.value].channelFunc != CfDh1cf && t.node[slot.value].channelFunc != CfSingleChannel
    ensures status == ExpiredNode ==>
              t' == t.(node := t.node[slot.value := t.node[slot.value].(valid := t.node[slot.value].valid + {Expired})])
    ensures status != ExpiredNode ==> t' == t
    ensures CountValid(t) ==> CountValid(t')
  {
    t' := t;
    slot := FindEntry(t.node, addr);
    if slot.None? {
      return t, NoEntry, None;
    }
    var k := slot.value;
    var e := t.node[k];
    if e.channelFunc == CfDh1cf {
      if AssessTime(cur, e.stamp, validTime) == Purge {
        var e' := e.(valid := e.valid + {Expired});
        t' := t.(node := t.node[k := e']);
        LiveUpdate(t.node, k, e');
        status := ExpiredNode;
      } else {
        status := Success;
      }
    } else if e.channelFunc == CfSingleChannel {
      status := Success;
    } else {
      status := Err;
    }
  }

  /** A slot with its `valid` field cleared. */
  function Invalidate(e: Entry): (e': Entry)
    ensures !InUse(e')
  {
    e.(valid := {})
  }

  /** `num_node` decremented unless it is already zero. */
  function Decrement(n: Uint16): (m: Uint16)
    ensures n > 0 ==> m + 1 == n
    ensures n == 0 ==> m == 0
  {
    if n > 0 then n - 1 else 0
  }

  /**
   * `FHNT_removeEntry`: the slot `FHNT_getEntry` finds is freed whatever
   * status it reports, and the count decremented; with no such slot nothing
   * changes.
   */
  method RemoveEntry(t: Table, addr: Addr, cur: Uint32, validTime: Uint32) returns (t': Table)
    ensures (forall i :: 0 <= i < |t.node| ==> !Holds(t.node[i], addr)) ==> t' == t
    ensures forall k :: 0 <= k < |t.node| && Holds(t.node[k], addr) && (forall j :: 0 <= j < k ==> !Holds(t.node[j], addr)) ==>
              t' == Table(t.node[k := Invalidate(t.node[k])], Decrement(t.numNode))
    ensures CountValid(t) ==> CountValid(t')
  {
    var t1, status, slot := GetEntry(t, addr, cur, validTime);
    if slot.None? {
      return t;
    }
    var k := slot.value;
    t' := Table(t1.node[k := Invalidate(t1.node[k])], Decrement(t1.numNode));
    assert t'.node == t.node[k := Invalidate(t.node[k])];
    if CountValid(t) {
      LiveUpdate(t.node, k, Invalidate(t.node[k]));
    }
    forall k' | 0 <= k' < |t.node| && Holds(t.node[k'], addr) && (forall j :: 0 <= j < k' ==> !Holds(t.node[j], addr))
      ensures k' == k
    {
    }
  }

  /** A slot `FHNT_purgeEntry` frees: it has a unicast schedule, does not hold the parent, and is older than the purge interval. */
  predicate Stale(e: Entry, parent: Addr, ts: Uint32, interval: Uint32)
  {
    WithUtie in e.valid && e.addr != parent && AssessTime(ts, e.stamp, interval) == Purge
  }

  /** `e` after the purge loop has looked at it. */
  function Purged(e: Entry, parent: Addr, ts: Uint32, interval: Uint32): Entry
  {
    if Stale(e, parent, ts, interval) then Invalidate(e) else e
  }

  /** Number of stale slots. */
  function CountStale(s: seq<Entry>, parent: Addr, ts: Uint32, interval: Uint32): (n: nat)
    ensures n <= |s|
  {
    if |s| == 0 then 0
    else CountStale(s[..|s| - 1], parent, ts, interval) + (if Stale(s[|s| - 1], parent, ts, interval) then 1 else 0)
  }

  /** `a - b`, or 0 when `b` is larger: `num_node` after `b` saturating decrements. */
  function Minus(a: nat, b: nat): nat
  {
    if a >= b then a - b else 0
  }

  /**
   * `FHNT_purgeEntry(ts)`: with no node counted nothing happens; otherwise
   * every slot seen with a unicast schedule, not holding the parent and
   * older than the purge interval is freed, and the count decremented,
   * never below zero, once per freed slot.
   */
  method PurgeEntry(t: Table, ts: Uint32, parent: Addr, interval: Uint32) returns (t': Table)
    ensures t.numNode == 0 ==> t' == t
    ensures t.numNode != 0 ==> |t'.node| == |t.node|
    ensures t.numNode != 0 ==> forall i :: 0 <= i < |t.node| ==> t'.node[i] == Purged(t.node[i], parent, ts, interval)
    ensures t.numNode != 0 ==> t'.numNode == Minus(t.numNode, CountStale(t.node, parent, ts, interval))
    ensures CountValid(t) ==> CountValid(t')
  {
    if t.numNode == 0 {
      return t;
    }
    t' := t;
    var i := 0;
    while i < |t.node|
      invariant i <= |t.node| && |t'.node| == |t.node|
      invariant forall j :: 0 <= j < i ==> t'.node[j] == Purged(t.node[j], parent, ts, interval)
      invariant forall j :: i <= j < |t.node| ==> t'.node[j] == t.node[j]
      invariant t'.numNode == Minus(t.numNode, CountStale(t.node[..i], parent, ts, interval))
      invariant CountValid(t) ==> CountValid(t')
    {
      assert t.node[..i + 1][..i] == t.node[..i];
      var e := t'.node[i];
      if Stale(e, parent, ts, interval) {
        LiveUpdate(t'.node, i, Invalidate(e));
        t' := Table(t'.node[i := Invalidate(e)], Decrement(t'.numNode));
      }
      i := i + 1;
    }
    assert t.node[..|t.node|] == t.node;
  }
}

=== FILE: jdllc.dfy ===
/**
 * The joining device's link controller (`jdllc.c`): the state machine a
 * sensor runs to find a parent coordinator, associate with it, keep the
 * link alive by polling, and fall back to orphan scanning or Wi-SUN
 * solicitation when the link is lost.
 *
 * The module's static variables form one record, `Llc`.  Every MAC
 * callback and every flag handler of `Jdllc_process` is a pure function
 * from a record to the record after it and the list of requests the
 * controller issued on the way (`Effect`): MAC requests, PIB writes,
 * clocks armed or stopped, and the callbacks it makes into the
 * application.  Values the controller reads back from the MAC (PIB reads,
 * random bytes) are parameters; the `CONFIG_*` constants are a `Config`.
 */
module Jdllc {
  import opened Types
  import Ssf
  import FhHop

  // ---------------------------------------------------------------------
  // Configuration and constants

  /** `APIMAC_FH_NET_NAME_SIZE_MAX`. */
  const NetNameSizeMax: nat := 32

  /** A Wi-SUN network name. */
  type NetName = n: seq<Byte> | |n| <= NetNameSizeMax

  /** A divisor that is never zero. */
  type Window = w: int | 0 < w < 0x1_0000_0000 witness 1

  /** The `CONFIG_*` values of `config.h` the controller reads. */
  datatype Config = Config(
    panId: Uint16,
    beaconOrder: Byte,
    superframeOrder: Byte,
    fhEnable: bool,
    rxOnIdle: bool,
    secure: bool,
    maxDataFailures: Byte,
    fhMaxAssocAttempts: Byte,
    pollingInterval: Uint32,
    scanBackoffInterval: Uint32,
    pasDuration: Uint16,
    pcsDuration: Uint16,
    fhStartPollWindow: Window,
    netname: NetName,
    maxChannels: nat)

  /** "FHTest", the configured network name. */
  const FhTest: NetName := [0x46, 0x48, 0x54, 0x65, 0x73, 0x74]

  /** The values `config.h` ships with. */
  const DefaultConfig: Config := Config(
    panId := 0xFFFF, beaconOrder := 15, superframeOrder := 15, fhEnable := false,
    rxOnIdle := false, secure := true, maxDataFailures := 3, fhMaxAssocAttempts := 3,
    pollingInterval := 6000, scanBackoffInterval := 300000, pasDuration := 60000,
    pcsDuration := 60000, fhStartPollWindow := 10000, netname := FhTest,
    maxChannels := 129)

  /** `JDLLC_BEACON_ORDER_NON_BEACON`. */
  const NonBeacon: Byte := 15

  /** `JDLLC_INVALID_PAN`: accept the first suitable PAN. */
  const InvalidPan: Uint16 := 0xFFFF

  /** `JDLLC_RETRY_POLL`, in milliseconds. */
  const RetryPoll: Uint32 := 500

  /** `FH_ASSOC_DELAY`, in milliseconds. */
  const FhAssocDelay: Uint32 := 2000

  /** Whether the configuration is a beacon-enabled network. */
  predicate BeaconMode(c: Config)
  {
    0 < c.beaconOrder < NonBeacon
  }

  // ---------------------------------------------------------------------
  // State

  /** `Jdllc_states_t`: where the device is in joining its network. */
  datatype JoinState = InitWaiting | Joining | InitRestoring | Joined | Rejoined | Orphan

  /** `Jdllc_device_states_t`: the scan sub-state. */
  datatype DevState = ScanActive | ScanPassive | ScanOrphan | ScanBackoff | SyncReq

  /** The event flags of `Jdllc_events`. */
  datatype Event = PasEvt | PcsEvt | StateChangeEvt | PollEvt | AssociateReqEvt | CoordRealignEvt | ScanBackoffEvt

  /** `devInfoBlock` together with the module's other static variables. */
  datatype Llc = Llc(
    panId: Uint16,
    channel: Byte,
    coordShortAddr: Uint16,
    coordExtAddr: seq<Byte>,
    devShortAddr: Uint16,
    devExtAddr: seq<Byte>,
    beaconOrder: Byte,
    superframeOrder: Byte,
    state: JoinState,
    prevState: JoinState,
    devState: DevState,
    prevDevState: DevState,
    dataFailures: Byte,
    pollInterval: Uint32,
    events: set<Event>,
    sleepNodeChIdx: Byte,
    continueScan: bool,
    parentFound: bool,
    numPasRcvd: Byte,
    numPcsRcvd: Byte,
    fhAssocAttempts: Byte,
    fhChannelMask: FhHop.ChannelMask)

  // ---------------------------------------------------------------------
  // What the controller asks of others

  /** The status codes of MAC confirms the controller tells apart. */
  datatype MacStatus = Success | NoAck | NoData | NoBeacon | ChannelAccessFailure | OtherStatus

  datatype ScanKind = ActiveScan | PassiveScan | OrphanScan

  /** A coordinator address as a request carries it. */
  datatype Addr = ShortAddr(short: Uint16) | ExtAddr(ext: seq<Byte>)

  /** The MAC and frequency-hopping PIB attributes the controller writes. */
  datatype Pib =
    | RxOnWhenIdle(on: bool)
    | PanIdPib(pan: Uint16)
    | ShortAddressPib(shortAddress: Uint16)
    | CoordShortAddressPib(coordShort: Uint16)
    | CoordExtAddressPib(coordExt: seq<Byte>)
    | LogicalChannelPib(logicalChannel: Byte)
    | BeaconOrderPib(bo: Byte)
    | SuperframeOrderPib(so: Byte)
    | UnicastFixedChannel(fixedChannel: Uint16)
    | PanSize(size: Uint16)
    | RoutingCost(cost: Byte)
    | UseParentBsie(useParent: Byte)
    | RoutingMethod(routing: Byte)
    | EapolReady(ready: Byte)
    | FanTpsVersion(tps: Byte)
    | TrackParentEui(eui: seq<Byte>)
    | PanVersionPib(panVersion: Uint16)
    | GtkHash(slot: nat, hash: seq<Byte>)

  /** One thing the controller does outside its own state, in the order it does them. */
  datatype Effect =
    | StateChanged(newState: JoinState)
    | JoinedNotice(devPan: Uint16, devShort: Uint16, parentShort: Uint16)
    | DisassocCnfNotice(disassocStatus: MacStatus)
    | DisassocIndNotice
    | ScanRequest(kind: ScanKind)
    | SyncRequest(syncChannel: Byte)
    | AssociateRequest(assocPan: Uint16, assocChannel: Byte, assocCoord: Addr)
    | PollRequest(pollPan: Uint16, pollCoord: Addr)
    | DisassociateRequest(disPan: Uint16, disCoord: Addr)
    | AsyncRequest(frame: Ssf.AsyncFrame)
    | Trickle(trickleFrame: Ssf.AsyncFrame, duration: Uint16)
    | PollClock(pollTime: Uint32)
    | ScanBackoffClock(backoffTime: Uint32)
    | ReadingClock(readingTime: Uint32)
    | FhAssocClock(assocDelay: Uint32)
    | SetPib(attr: Pib)
    | AddSecDevice(secPan: Uint16, secShort: Uint16, secExt: seq<Byte>, frameCounter: Uint32)

  /** A record after a step, and what the step did. */
  datatype Out = Out(s: Llc, fx: seq<Effect>)

  // ---------------------------------------------------------------------
  // Shared transitions

  /**
   * `updateState`: a new join state replaces the current one, which
   * becomes the previous state, and the application hears of the change;
   * the current state again changes nothing.
   */
  function UpdateState(s: Llc, st: JoinState): (r: Out)
    ensures st == s.state <==> r == Out(s, [])
    ensures st != s.state ==> r.s.prevState == s.state && r.fx == [StateChanged(st)]
    ensures r.s.state == st
    ensures r.s == s.(state := r.s.state, prevState := r.s.prevState)
  {
    if st == s.state then Out(s, [])
    else Out(s.(prevState := s.state, state := st), [StateChanged(st)])
  }

  /** The previous join state differs from the current one, except before the first change. */
  predicate StatesConsistent(s: Llc)
  {
    s.state == s.prevState ==> s.state == InitWaiting
  }

  /** Updating the state twice to the same value is updating it once: one change, one callback. */
  lemma UpdateStateIdempotent(s: Llc, st: JoinState)
    ensures var a := UpdateState(s, st);
            var b := UpdateState(a.s, st);
            b == Out(a.s, []) && |a.fx + b.fx| <= 1
    ensures StatesConsistent(s) ==> StatesConsistent(UpdateState(s, st).s)
  {
  }

  /** `switchState`: a new scan sub-state, and the state-change flag raised to act on it. */
  function SwitchState(s: Llc, d: DevState): (r: Llc)
    ensures r.devState == d && StateChangeEvt in r.events
    ensures r == s.(devState := d, events := r.events) && r.events - {StateChangeEvt} == s.events - {StateChangeEvt}
  {
    s.(devState := d, events := s.events + {StateChangeEvt})
  }

  /**
   * The retry shared by `Jdllc_join`, a failed scan and a failed
   * association: an active scan in a non-beacon network (while scanning
   * is not backed off), a passive scan in a beacon network.
   */
  function Rescan(c: Config, s: Llc): (r: Llc)
    ensures c.beaconOrder == NonBeacon && s.continueScan ==> r == SwitchState(s, ScanActive)
    ensures BeaconMode(c) ==> r == SwitchState(s, ScanPassive)
    ensures (c.beaconOrder == NonBeacon && !s.continueScan) || c.beaconOrder == 0 || c.beaconOrder > NonBeacon ==> r == s
  {
    if c.beaconOrder == NonBeacon then
      if s.continueScan then SwitchState(s, ScanActive) else s
    else if BeaconMode(c) then SwitchState(s, ScanPassive)
    else s
  }

  /** The address requests to the parent carry: extended when hopping, short otherwise. */
  function CoordAddress(c: Config, s: Llc): Addr
  {
    if c.fhEnable then ExtAddr(s.coordExtAddr) else ShortAddr(s.coordShortAddr)
  }

  /**
   * The parent is given up after `CONFIG_MAX_DATA_FAILURES` missed
   * acknowledgements (the shared tail of `dataCnfCb` and `pollCnfCb`):
   * polling stops, the receiver stays on, and either the Wi-SUN
   * config-solicit exchange restarts (hopping) or an orphan scan starts;
   * the count starts again from zero.
   */
  function LoseParent(c: Config, s: Llc): (r: Out)
    ensures r.s.dataFailures == 0 && r.s.state == Orphan
    ensures SetPib(RxOnWhenIdle(true)) in r.fx
    ensures !c.rxOnIdle ==> PollClock(0) in r.fx
    ensures c.fhEnable ==> !r.s.parentFound && Trickle(Ssf.ConfigSolicit, c.pcsDuration) in r.fx && ReadingClock(0) in r.fx
    ensures !c.fhEnable ==> r.s.devState == ScanOrphan && StateChangeEvt in r.s.events
    ensures r.s.fhAssocAttempts == s.fhAssocAttempts
    ensures StatesConsistent(s) ==> StatesConsistent(r.s)
  {
    var stop := (if c.rxOnIdle then [] else [PollClock(0)]) + [SetPib(RxOnWhenIdle(true))];
    if c.fhEnable then
      var o := UpdateState(s, Orphan);
      Out(o.s.(parentFound := false, dataFailures := 0),
          stop + o.fx + [ReadingClock(0), Trickle(Ssf.ConfigSolicit, c.pcsDuration)])
    else
      var o := UpdateState(SwitchState(s, ScanOrphan), Orphan);
      Out(o.s.(dataFailures := 0), stop + o.fx)
  }

  // ---------------------------------------------------------------------
  // Start-up, joining and rejoining

  /** A frequency-hopping device that sleeps: it polls its parent on one fixed channel at a time. */
  predicate SleepyHopping(c: Config)
  {
    c.fhEnable && !c.rxOnIdle
  }

  /**
   * The state `Jdllc_init` leaves behind: the configured PAN, beacon and
   * superframe orders and poll interval, no failures, and the first scan
   * sub-state the configured network type calls for.  A sleepy hopping
   * device also drops the channels the radio does not have from its mask
   * and takes its first fixed channel, which moves `sleepNodeChIdx` past
   * it.  Static variables it does not assign keep their values.
   */
  function Init(c: Config, s: Llc): (r: Llc)
    ensures r.state == InitWaiting && r.prevState == InitWaiting && r.dataFailures == 0
    ensures r.panId == c.panId && r.pollInterval == c.pollingInterval
    ensures c.beaconOrder == NonBeacon ==> r.devState == ScanActive && r.prevDevState == ScanActive
    ensures BeaconMode(c) ==> r.devState == ScanPassive && r.prevDevState == ScanActive
    ensures r.parentFound == s.parentFound && r.fhAssocAttempts == s.fhAssocAttempts && r.events == s.events
    ensures SleepyHopping(c) ==>
              |r.fhChannelMask| == |s.fhChannelMask| &&
              forall ch: nat :: FhHop.Bit(r.fhChannelMask, ch) <==> FhHop.Bit(s.fhChannelMask, ch) && ch < c.maxChannels
    ensures SleepyHopping(c) ==> r.sleepNodeChIdx == FhHop.GetHopChannel(r.fhChannelMask, s.sleepNodeChIdx).next
    ensures !SleepyHopping(c) ==> r.fhChannelMask == s.fhChannelMask && r.sleepNodeChIdx == s.sleepNodeChIdx
  {
    var s1 := s.(panId := c.panId, channel := 0, state := InitWaiting, prevState := InitWaiting,
                 pollInterval := c.pollingInterval, dataFailures := 0, coordExtAddr := [0, 0, 0, 0, 0, 0, 0, 0],
                 coordShortAddr := 0, devShortAddr := 0, beaconOrder := c.beaconOrder,
                 superframeOrder := c.superframeOrder);
    var s2 := if c.beaconOrder == NonBeacon then s1.(devState := ScanActive, prevDevState := ScanActive)
              else if BeaconMode(c) then s1.(devState := ScanPassive, prevDevState := ScanActive)
              else s1;
    if SleepyHopping(c) then
      var mask := FhHop.TrimMask(s.fhChannelMask, c.maxChannels);
      FhHop.TrimMaskBits(s.fhChannelMask, c.maxChannels);
      s2.(fhChannelMask := mask, sleepNodeChIdx := FhHop.GetHopChannel(mask, s.sleepNodeChIdx).next)
    else s2
  }

  /** The static variables' initial values, followed by `Jdllc_init`. */
  function Boot(c: Config, mask: FhHop.ChannelMask): (r: Llc)
    ensures r.state == InitWaiting && !r.parentFound && r.continueScan && r.events == {}
    ensures r.dataFailures == 0 && r.fhAssocAttempts == 0 && r.numPasRcvd == 0 && r.numPcsRcvd == 0
    ensures SleepyHopping(c) ==> r.sleepNodeChIdx == FhHop.GetHopChannel(r.fhChannelMask, 0).next
    ensures !SleepyHopping(c) ==> r.sleepNodeChIdx == 0 && r.fhChannelMask == mask
  {
    Init(c, Llc(0, 0, 0, [], 0, [], 0, 0, InitWaiting, InitWaiting, ScanActive, ScanActive, 0, 0,
                {}, 0, true, false, 0, 0, 0, mask))
  }

  /**
   * A sleepy hopping device with channels 0 and 1 enabled comes out of
   * `Jdllc_init` having used channel 0, so its first poll goes out on
   * channel 1.
   */
  lemma SleepyHoppingBoot()
    ensures var c := DefaultConfig.(fhEnable := true);
            && Boot(c, [0x03]).sleepNodeChIdx == 1
            && SetPib(UnicastFixedChannel(1)) in PollTick(c, Boot(c, [0x03])).fx
  {
    var c := DefaultConfig.(fhEnable := true);
    var mask: FhHop.ChannelMask := [0x03];
    FhHop.TrimMaskBits(mask, c.maxChannels);
    var m := Boot(c, mask).fhChannelMask;
    assert FhHop.Bit(mask, 0) && FhHop.Bit(mask, 1);
    assert FhHop.Bit(m, 0) && FhHop.Bit(m, 1);
    assert FhHop.FirstSet(m, 0, 8) == Some(0);
    assert FhHop.FirstSet(m, 1, 8) == Some(1);
  }

  /**
   * `Jdllc_join`: the device starts joining.  Hopping devices start the
   * PAN-advertisement-solicit exchange; others (after arming the scan
   * backoff when sleepy) start the scan the network type calls for.
   */
  function Join(c: Config, s: Llc): (r: Out)
    ensures r.s.state == Joining
    ensures s.state != Joining ==> StateChanged(Joining) in r.fx
    ensures c.fhEnable ==> Trickle(Ssf.AdvertisementSolicit, c.pasDuration) in r.fx && r.s.devState == s.devState
    ensures !c.fhEnable ==> r.s.devState == Rescan(c, s).devState
    ensures !c.fhEnable && !c.rxOnIdle ==> ScanBackoffClock(c.scanBackoffInterval) in r.fx
    ensures r.s.dataFailures == s.dataFailures && r.s.fhAssocAttempts == s.fhAssocAttempts
    ensures StatesConsistent(s) ==> StatesConsistent(r.s)
  {
    var o := UpdateState(s, Joining);
    if c.fhEnable then Out(o.s, o.fx + [Trickle(Ssf.AdvertisementSolicit, c.pasDuration)])
    else
      var backoff := if c.rxOnIdle then [] else [ScanBackoffClock(c.scanBackoffInterval)];
      Out(Rescan(c, o.s), o.fx + backoff)
  }

  /** The device's own identity as saved before a restart. */
  datatype DeviceDescriptor = DeviceDescriptor(devPanId: Uint16, shortAddress: Uint16, extAddress: seq<Byte>)

  /** The parent as saved before a restart. */
  datatype ParentInfo = ParentInfo(parentChannel: Byte, parentShort: Uint16, parentExt: seq<Byte>)

  /**
   * `Jdllc_rejoin`: the device restores its identity and parent from saved
   * data and writes them to the MAC.  A beacon-network device synchronises
   * and is rejoined at once; a hopping device forgets its parent and
   * solicits PAN configuration; a non-beacon device stays restoring until
   * its first poll is answered.
   */
  function Rejoin(c: Config, s: Llc, dev: DeviceDescriptor, parent: ParentInfo): (r: Out)
    ensures r.s.panId == dev.devPanId && r.s.devShortAddr == dev.shortAddress && r.s.devExtAddr == dev.extAddress
    ensures r.s.channel == parent.parentChannel && r.s.coordShortAddr == parent.parentShort && r.s.coordExtAddr == parent.parentExt
    ensures !c.fhEnable && BeaconMode(c) ==>
              r.s.state == Rejoined && r.s.devState == SyncReq && JoinedNotice(dev.devPanId, dev.shortAddress, parent.parentShort) in r.fx
    ensures !(!c.fhEnable && BeaconMode(c)) ==> r.s.state == InitRestoring
    ensures c.fhEnable ==> !r.s.parentFound && Trickle(Ssf.ConfigSolicit, c.pcsDuration) in r.fx
    ensures !c.fhEnable && !c.rxOnIdle ==> PollEvt in r.s.events
    ensures r.s.dataFailures == s.dataFailures && r.s.fhAssocAttempts == s.fhAssocAttempts
    ensures StatesConsistent(s) ==> StatesConsistent(r.s)
  {
    var o := UpdateState(s, InitRestoring);
    var s1 := o.s.(panId := dev.devPanId, channel := parent.parentChannel, devExtAddr := dev.extAddress,
                   devShortAddr := dev.shortAddress, coordExtAddr := parent.parentExt,
                   coordShortAddr := parent.parentShort);
    var fx1 := o.fx + [SetPib(PanIdPib(dev.devPanId)), SetPib(ShortAddressPib(dev.shortAddress)),
                       SetPib(CoordExtAddressPib(parent.parentExt))];
    var o2 :=
      if !c.fhEnable then
        var fx2 := fx1 + [SetPib(LogicalChannelPib(parent.parentChannel)), SetPib(CoordShortAddressPib(parent.parentShort))];
        if BeaconMode(c) then
          var u := UpdateState(SwitchState(s1, SyncReq), Rejoined);
          Out(u.s, fx2 + [SetPib(RxOnWhenIdle(c.rxOnIdle)), JoinedNotice(dev.devPanId, dev.shortAddress, parent.parentShort)] + u.fx)
        else Out(s1, fx2)
      else
        Out(s1.(parentFound := false), fx1 + [SetPib(RxOnWhenIdle(true)), Trickle(Ssf.ConfigSolicit, c.pcsDuration)]);
    if !c.rxOnIdle && !c.fhEnable then Out(o2.s.(events := o2.s.events + {PollEvt}), o2.fx)
    else o2
  }

  // ---------------------------------------------------------------------
  // Beacons and scans

  /** The beacon order in a superframe specification (its low four bits). */
  function SfsBeaconOrder(sfs: Uint16): (bo: Byte)
    ensures bo < 16
  {
    sfs % 16
  }

  /** The superframe order in a superframe specification (bits 4 to 7). */
  function SfsSuperframeOrder(sfs: Uint16): (so: Byte)
    ensures so < 16
  {
    sfs / 16 % 16
  }

  /** The association-permit bit of a superframe specification (bit 15). */
  predicate SfsAssociationPermit(sfs: Uint16)
  {
    sfs / 0x8000 == 1
  }

  /** A superframe specification from its fields; `middle` holds bits 8 to 14. */
  function MakeSfs(bo: nat, so: nat, middle: nat, permit: bool): (sfs: Uint16)
    requires bo < 16 && so < 16 && middle < 0x80
  {
    bo + 16 * so + 0x100 * middle + (if permit then 0x8000 else 0)
  }

  /** Reading the fields back from a built specification gives the fields. */
  lemma SfsRoundTrip(bo: nat, so: nat, middle: nat, permit: bool)
    requires bo < 16 && so < 16 && middle < 0x80
    ensures var sfs := MakeSfs(bo, so, middle, permit);
            SfsBeaconOrder(sfs) == bo && SfsSuperframeOrder(sfs) == so && (SfsAssociationPermit(sfs) <==> permit)
  {
  }

  /**
   * `checkBeaconOrder`: a non-beacon device takes only non-beacon
   * coordinators; a beacon device takes any beacon order up to its own.
   */
  function CheckBeaconOrder(c: Config, sfs: Uint16): (ok: bool)
    ensures c.beaconOrder == NonBeacon ==> (ok <==> SfsBeaconOrder(sfs) == NonBeacon)
    ensures c.beaconOrder != NonBeacon ==> (ok <==> SfsBeaconOrder(sfs) <= c.beaconOrder)
  {
    if c.beaconOrder == NonBeacon then SfsBeaconOrder(sfs) == NonBeacon
    else SfsBeaconOrder(sfs) <= c.beaconOrder
  }

  /**
   * Exactly one beacon order is acceptable to a non-beacon device, and in
   * a beacon network an acceptable order stays acceptable when lowered.
   */
  lemma BeaconOrderAcceptance(c: Config, so: nat, middle: nat, permit: bool, lo: nat, hi: nat)
    requires so < 16 && middle < 0x80 && lo <= hi < 16
    ensures c.beaconOrder == NonBeacon ==>
              (CheckBeaconOrder(c, MakeSfs(hi, so, middle, permit)) <==> hi == NonBeacon)
    ensures c.beaconOrder != NonBeacon && CheckBeaconOrder(c, MakeSfs(hi, so, middle, permit)) ==>
              CheckBeaconOrder(c, MakeSfs(lo, so, middle, permit))
  {
    SfsRoundTrip(hi, so, middle, permit);
    SfsRoundTrip(lo, so, middle, permit);
  }

  /** The parts of a beacon notification the controller looks at. */
  datatype Beacon = Beacon(
    normal: bool, coordAddr: Ssf.SAddr, coordShort: Uint16, coordPanId: Uint16,
    logicalChannel: Byte, sfs: Uint16)

  /** Whether `beaconNotifyIndCb` takes the beacon's sender as the parent. */
  predicate Adopts(c: Config, s: Llc, b: Beacon, blacklist: Ssf.Blacklist)
  {
    && b.normal
    && !s.parentFound
    && Ssf.FindBlackListIndex(blacklist, Some(b.coordAddr)) == -1
    && SfsAssociationPermit(b.sfs)
    && CheckBeaconOrder(c, b.sfs)
    && (s.panId == InvalidPan || b.coordPanId == s.panId)
  }

  /**
   * `beaconNotifyIndCb`: the first normal beacon from a coordinator that
   * is not blacklisted, permits association, has a suitable beacon order
   * and belongs to the configured PAN (any PAN while that is 0xFFFF)
   * becomes the parent; the others change nothing.
   */
  function BeaconNotify(c: Config, s: Llc, b: Beacon, blacklist: Ssf.Blacklist): (r: Out)
    ensures r.fx == []
    ensures !Adopts(c, s, b, blacklist) ==> r.s == s
    ensures Adopts(c, s, b, blacklist) ==>
              && r.s.parentFound && r.s.panId == b.coordPanId
              && r.s.channel == b.logicalChannel && r.s.coordShortAddr == b.coordShort
    ensures Adopts(c, s, b, blacklist) && SfsBeaconOrder(b.sfs) != NonBeacon ==>
              r.s.beaconOrder == SfsBeaconOrder(b.sfs) && r.s.superframeOrder == SfsSuperframeOrder(b.sfs)
    ensures Adopts(c, s, b, blacklist) && SfsBeaconOrder(b.sfs) == NonBeacon ==>
              r.s.beaconOrder == s.beaconOrder && r.s.superframeOrder == s.superframeOrder
    ensures r.s == s.(parentFound := r.s.parentFound, panId := r.s.panId, channel := r.s.channel,
                      coordShortAddr := r.s.coordShortAddr, beaconOrder := r.s.beaconOrder,
                      superframeOrder := r.s.superframeOrder)
  {
    if b.normal && !s.parentFound && Ssf.FindBlackListIndex(blacklist, Some(b.coordAddr)) == -1
       && SfsAssociationPermit(b.sfs) && CheckBeaconOrder(c, b.sfs)
    then
      var bo := SfsBeaconOrder(b.sfs);
      if s.panId == InvalidPan || b.coordPanId == s.panId then
        var s1 := s.(panId := b.coordPanId, channel := b.logicalChannel, coordShortAddr := b.coordShort);
        var s2 := if bo != NonBeacon then s1.(beaconOrder := bo, superframeOrder := SfsSuperframeOrder(b.sfs)) else s1;
        Out(s2.(parentFound := true), [])
      else Out(s, [])
    else Out(s, [])
  }

  /** Once a parent is found, beacons change nothing; a blacklisted coordinator is never adopted. */
  lemma BeaconsIgnoredOnceParentFound(c: Config, s: Llc, b: Beacon, blacklist: Ssf.Blacklist)
    ensures s.parentFound ==> BeaconNotify(c, s, b, blacklist) == Out(s, [])
    ensures Ssf.FindBlackListIndex(blacklist, Some(b.coordAddr)) >= 0 ==> BeaconNotify(c, s, b, blacklist) == Out(s, [])
  {
  }

  /**
   * `scanCnfCb`: a successful active scan asks for association, a passive
   * one for synchronisation, an orphan scan for processing the
   * realignment; an orphan scan that heard nothing repeats as orphan; any
   * other failure scans again.
   */
  function ScanCnf(c: Config, s: Llc, status: MacStatus, kind: ScanKind): (r: Out)
    ensures status == Success && kind == ActiveScan ==> r == Out(s.(events := s.events + {AssociateReqEvt}), [])
    ensures status == Success && kind == PassiveScan ==> r == Out(SwitchState(s, SyncReq), [])
    ensures status == Success && kind == OrphanScan ==> r == Out(s.(events := s.events + {CoordRealignEvt}), [])
    ensures status == NoBeacon && kind == OrphanScan ==> r.s.devState == ScanOrphan && r.s.state == Orphan
    ensures status != Success && !(status == NoBeacon && kind == OrphanScan) ==> r == Out(Rescan(c, s), [])
    ensures r.s.dataFailures == s.dataFailures && r.s.fhAssocAttempts == s.fhAssocAttempts
    ensures StatesConsistent(s) ==> StatesConsistent(r.s)
  {
    if status == Success then
      match kind
      case ActiveScan => Out(s.(events := s.events + {AssociateReqEvt}), [])
      case PassiveScan => Out(SwitchState(s, SyncReq), [])
      case OrphanScan => Out(s.(events := s.events + {CoordRealignEvt}), [])
    else if kind == OrphanScan && status == NoBeacon then UpdateState(SwitchState(s, ScanOrphan), Orphan)
    else Out(Rescan(c, s), [])
  }

  // ---------------------------------------------------------------------
  // Association

  /** What an association confirm reports, with the PIB values and random bytes the handler reads. */
  datatype AssocResult = AssocResult(
    granted: bool, assocShortAddr: Uint16, pibExtAddr: seq<Byte>, pibCoordExtAddr: seq<Byte>,
    randHi: Byte, randLo: Byte)

  /** The join state a granted association leads to. */
  function JoinedState(c: Config, s: Llc): JoinState
  {
    if c.fhEnable && (s.state == InitRestoring || (s.state == Orphan && s.prevState == Rejoined)) then Rejoined
    else Joined
  }

  /**
   * `assocCnfCb` when the association is granted: the short address goes
   * to the PIB, solicitation and scan backoff stop, the application hears
   * of the join, and the device is joined (rejoined when it was restoring,
   * or when a hopping device regains the parent it had rejoined).  A
   * sleepy device then starts polling: at once, or after a random delay
   * when hopping.
   */
  function AssocGranted(c: Config, s: Llc, a: AssocResult): (r: Out)
    requires a.granted
    ensures r.s.state == JoinedState(c, s)
    ensures JoinedNotice(s.panId, a.assocShortAddr, s.coordShortAddr) in r.fx
    ensures SetPib(ShortAddressPib(a.assocShortAddr)) in r.fx
    ensures c.fhEnable ==> r.s.parentFound
    ensures !c.rxOnIdle && !c.fhEnable ==> PollEvt in r.s.events
    ensures !c.rxOnIdle && c.fhEnable ==> PollClock(Ssf.Random16(a.randHi, a.randLo) % c.fhStartPollWindow) in r.fx
    ensures r.s.dataFailures == s.dataFailures && r.s.fhAssocAttempts == s.fhAssocAttempts
    ensures StatesConsistent(s) ==> StatesConsistent(r.s)
  {
    var s1 := s.(devExtAddr := a.pibExtAddr, coordExtAddr := a.pibCoordExtAddr);
    var fx := [SetPib(ShortAddressPib(a.assocShortAddr))]
              + (if c.fhEnable then [Trickle(Ssf.AdvertisementSolicit, 0), Trickle(Ssf.ConfigSolicit, 0)] else [])
              + (if c.rxOnIdle then [] else [ScanBackoffClock(0)])
              + [SetPib(RxOnWhenIdle(c.rxOnIdle)), JoinedNotice(s.panId, a.assocShortAddr, s.coordShortAddr)];
    var s2 := if c.fhEnable then s1.(parentFound := true) else s1;
    var u := UpdateState(s2, JoinedState(c, s));
    if c.rxOnIdle then Out(u.s, fx + u.fx)
    else if c.fhEnable then Out(u.s, fx + u.fx + [PollClock(Ssf.Random16(a.randHi, a.randLo) % c.fhStartPollWindow)])
    else Out(u.s.(events := u.s.events + {PollEvt}), fx + u.fx)
  }

  /**
   * `assocCnfCb` when the association is refused: a non-hopping device
   * scans again; a hopping device counts the attempt and retries after
   * `FH_ASSOC_DELAY` until `CONFIG_FH_MAX_ASSOCIATION_ATTEMPTS`, then
   * forgets the parent and solicits PAN configuration again.
   */
  function AssocRefused(c: Config, s: Llc): (r: Out)
    ensures !c.fhEnable ==> r == Out(Rescan(c, s), [])
    ensures c.fhEnable ==> r.s.fhAssocAttempts == (s.fhAssocAttempts + 1) % 0x100
    ensures c.fhEnable && r.s.fhAssocAttempts < c.fhMaxAssocAttempts ==>
              r == Out(s.(fhAssocAttempts := r.s.fhAssocAttempts), [FhAssocClock(FhAssocDelay)])
    ensures c.fhEnable && r.s.fhAssocAttempts >= c.fhMaxAssocAttempts ==>
              r == Out(s.(fhAssocAttempts := r.s.fhAssocAttempts, parentFound := false),
                       [Trickle(Ssf.ConfigSolicit, c.pcsDuration)])
  {
    if !c.fhEnable then Out(Rescan(c, s), [])
    else
      var n := (s.fhAssocAttempts + 1) % 0x100;
      if n < c.fhMaxAssocAttempts then Out(s.(fhAssocAttempts := n), [FhAssocClock(FhAssocDelay)])
      else Out(s.(fhAssocAttempts := n, parentFound := false), [Trickle(Ssf.ConfigSolicit, c.pcsDuration)])
  }

  /** `assocCnfCb`. */
  function AssocCnf(c: Config, s: Llc, a: AssocResult): (r: Out)
    ensures a.granted ==> r == AssocGranted(c, s, a)
    ensures !a.granted ==> r == AssocRefused(c, s)
  {
    if a.granted then AssocGranted(c, s, a) else AssocRefused(c, s)
  }

  /**
   * A hopping device that keeps being refused gives up after exactly
   * `CONFIG_FH_MAX_ASSOCIATION_ATTEMPTS` refusals: each earlier refusal
   * only re-arms the association clock.
   */
  lemma {:induction false} RefusalsUntilGiveUp(c: Config, s: Llc, k: nat)
    requires c.fhEnable && s.parentFound && s.fhAssocAttempts == 0
    requires k <= c.fhMaxAssocAttempts
    ensures Refusals(c, s, k).fhAssocAttempts == k
    ensures 0 < k ==> (Refusals(c, s, k).parentFound <==> k < c.fhMaxAssocAttempts)
  {
    if k > 0 {
      RefusalsUntilGiveUp(c, s, k - 1);
    }
  }

  /** `k` refusals in a row. */
  function Refusals(c: Config, s: Llc, k: nat): Llc
  {
    if k == 0 then s else AssocRefused(c, Refusals(c, s, k - 1)).s
  }

  /** Sending an association request (`sendAssocReq`). */
  function SendAssocReq(c: Config, s: Llc): (e: Effect)
    ensures e.AssociateRequest? && e.assocPan == s.panId
    ensures c.fhEnable ==> e.assocChannel == 0 && e.assocCoord == ExtAddr(s.coordExtAddr)
    ensures !c.fhEnable ==> e.assocChannel == s.channel && e.assocCoord == ShortAddr(s.coordShortAddr)
  {
    AssociateRequest(s.panId, if c.fhEnable then 0 else s.channel, CoordAddress(c, s))
  }

  // ---------------------------------------------------------------------
  // Disassociation and sync loss

  /** `disassoCnfCb`: a successful disassociation stops polling and sends the device back to waiting. */
  function DisassocCnf(c: Config, s: Llc, status: MacStatus): (r: Out)
    ensures status == Success ==> r.s.state == InitWaiting && !r.s.parentFound
    ensures status != Success ==> r == Out(s, [DisassocCnfNotice(status)])
    ensures status == Success && !c.rxOnIdle ==> PollClock(0) in r.fx
    ensures r.s.dataFailures == s.dataFailures && r.s.fhAssocAttempts == s.fhAssocAttempts
    ensures StatesConsistent(s) ==> StatesConsistent(r.s)
  {
    if status == Success then
      var u := UpdateState(s.(parentFound := false), InitWaiting);
      Out(u.s, (if c.rxOnIdle then [] else [PollClock(0)]) + u.fx + [DisassocCnfNotice(status)])
    else Out(s, [DisassocCnfNotice(status)])
  }

  /** `disassocIndCb`: the parent let the device go; polling stops and the device waits. */
  function DisassocInd(c: Config, s: Llc): (r: Out)
    ensures r.s.state == InitWaiting && !r.s.parentFound && |r.fx| > 0 && r.fx[|r.fx| - 1] == DisassocIndNotice
    ensures !c.rxOnIdle ==> PollClock(0) in r.fx
    ensures r.s.dataFailures == s.dataFailures && r.s.fhAssocAttempts == s.fhAssocAttempts
    ensures StatesConsistent(s) ==> StatesConsistent(r.s)
  {
    var u := UpdateState(s.(parentFound := false), InitWaiting);
    Out(u.s, (if c.rxOnIdle then [] else [PollClock(0)]) + u.fx + [DisassocIndNotice])
  }

  /** `syncLossCb`: synchronisation with a beacon network is lost; polling stops and an orphan scan starts. */
  function SyncLoss(c: Config, s: Llc): (r: Out)
    ensures r.s.state == Orphan && r.s.devState == ScanOrphan && StateChangeEvt in r.s.events
    ensures !c.rxOnIdle ==> PollClock(0) in r.fx
    ensures r.s.dataFailures == s.dataFailures && r.s.fhAssocAttempts == s.fhAssocAttempts
    ensures StatesConsistent(s) ==> StatesConsistent(r.s)
  {
    var u := UpdateState(SwitchState(s, ScanOrphan), Orphan);
    Out(u.s, (if c.rxOnIdle then [] else [PollClock(0)]) + u.fx)
  }

  // ---------------------------------------------------------------------
  // Data and poll confirms

  /** The counter of missed acknowledgements never reaches the maximum. */
  predicate FailuresBelowMax(c: Config, s: Llc)
  {
    s.dataFailures < c.maxDataFailures
  }

  /**
   * `dataCnfCb`: a missed acknowledgement is counted, and the count
   * reaching `CONFIG_MAX_DATA_FAILURES` gives up the parent; a success
   * clears the count; other statuses change nothing.
   */
  function DataCnf(c: Config, s: Llc, status: MacStatus): (r: Out)
    ensures status == Success ==> r == Out(s.(dataFailures := 0), [])
    ensures status != Success && status != NoAck ==> r == Out(s, [])
    ensures status == NoAck && (s.dataFailures + 1) % 0x100 != c.maxDataFailures ==>
              r == Out(s.(dataFailures := (s.dataFailures + 1) % 0x100), [])
    ensures status == NoAck && (s.dataFailures + 1) % 0x100 == c.maxDataFailures ==>
              r.s.dataFailures == 0 && r.s.state == Orphan
    ensures FailuresBelowMax(c, s) ==> FailuresBelowMax(c, r.s)
    ensures r.s.fhAssocAttempts == s.fhAssocAttempts
    ensures StatesConsistent(s) ==> StatesConsistent(r.s)
  {
    if status == NoAck then
      var s1 := s.(dataFailures := (s.dataFailures + 1) % 0x100);
      if s1.dataFailures == c.maxDataFailures then LoseParent(c, s1) else Out(s1, [])
    else if status == Success then Out(s.(dataFailures := 0), [])
    else Out(s, [])
  }

  /**
   * `pollCnfCb`: an answered poll (data or no data) clears the count and,
   * for a non-hopping device still restoring, completes the rejoin; a
   * missed acknowledgement is counted, retried sooner while joined, and
   * at the maximum gives up the parent; a busy channel only retries
   * sooner.
   */
  function PollCnf(c: Config, s: Llc, status: MacStatus): (r: Out)
    ensures status == Success || status == NoData ==> r.s.dataFailures == 0
    ensures (status == Success || status == NoData) && !c.fhEnable && s.state == InitRestoring ==>
              r.s.state == Rejoined && JoinedNotice(s.panId, s.devShortAddr, s.coordShortAddr) in r.fx
    ensures (status == Success || status == NoData) && !(!c.fhEnable && s.state == InitRestoring) ==>
              r == Out(s.(dataFailures := 0), [])
    ensures status == NoAck && (s.dataFailures + 1) % 0x100 != c.maxDataFailures ==>
              r.s.dataFailures == (s.dataFailures + 1) % 0x100 && r.s.state == s.state
    ensures status == NoAck && (s.dataFailures + 1) % 0x100 == c.maxDataFailures ==>
              r.s.dataFailures == 0 && r.s.state == Orphan
    ensures status == NoAck && !c.fhEnable && (s.state == Joined || s.state == Rejoined) ==> PollClock(RetryPoll) in r.fx
    ensures status == ChannelAccessFailure ==>
              r == Out(s, if c.fhEnable then [] else [PollClock(RetryPoll)])
    ensures status !in {Success, NoData, NoAck, ChannelAccessFailure} ==> r == Out(s, [])
    ensures FailuresBelowMax(c, s) ==> FailuresBelowMax(c, r.s)
    ensures r.s.fhAssocAttempts == s.fhAssocAttempts
    ensures StatesConsistent(s) ==> StatesConsistent(r.s)
  {
    if status == NoData || status == Success then
      if !c.fhEnable && s.state == InitRestoring then
        var u := UpdateState(s, Rejoined);
        var fx := [SetPib(RxOnWhenIdle(c.rxOnIdle)), JoinedNotice(s.panId, s.devShortAddr, s.coordShortAddr)] + u.fx;
        var s1 := if c.rxOnIdle then u.s else u.s.(events := u.s.events + {PollEvt});
        Out(s1.(dataFailures := 0), fx)
      else Out(s.(dataFailures := 0), [])
    else if status == NoAck then
      var s1 := s.(dataFailures := (s.dataFailures + 1) % 0x100);
      var retry := if (s.state == Joined || s.state == Rejoined) && !c.fhEnable then [PollClock(RetryPoll)] else [];
      if s1.dataFailures == c.maxDataFailures then
        var o := LoseParent(c, s1);
        Out(o.s, retry + o.fx)
      else if s1.state == InitRestoring && !c.rxOnIdle && !c.fhEnable then
        Out(s1.(events := s1.events + {PollEvt}), retry)
      else Out(s1, retry)
    else if status == ChannelAccessFailure then
      Out(s, if c.fhEnable then [] else [PollClock(RetryPoll)])
    else Out(s, [])
  }

  // ---------------------------------------------------------------------
  // Coordinator realignment

  /**
   * `processCoordRealign`, given the PAN the MAC holds after the orphan
   * scan: the same PAN as before restores the state from before the
   * orphan condition (a device that was restoring counts as rejoined and
   * tells the application) and restarts polling; another PAN means
   * another orphan scan.
   */
  function ProcessCoordRealign(c: Config, s: Llc, pibPanId: Uint16): (r: Out)
    ensures pibPanId == s.panId && s.prevState == Joined ==> r.s.state == Joined
    ensures pibPanId == s.panId && s.prevState == Rejoined ==> r.s.state == Rejoined
    ensures pibPanId == s.panId && s.prevState == InitRestoring ==>
              r.s.state == Rejoined && JoinedNotice(s.panId, s.devShortAddr, s.coordShortAddr) in r.fx
    ensures pibPanId == s.panId && s.prevState !in {Joined, Rejoined, InitRestoring} ==> r.s.state == s.state
    ensures pibPanId == s.panId && !c.rxOnIdle ==> PollClock(s.pollInterval) in r.fx
    ensures pibPanId == s.panId ==> SetPib(RxOnWhenIdle(c.rxOnIdle)) in r.fx && r.s.devState == s.devState
    ensures pibPanId != s.panId ==> r.s.devState == ScanOrphan && r.s.state == Orphan && StateChangeEvt in r.s.events
    ensures r.s.dataFailures == s.dataFailures && r.s.fhAssocAttempts == s.fhAssocAttempts
    ensures StatesConsistent(s) ==> StatesConsistent(r.s)
  {
    if pibPanId == s.panId then
      var u :=
        if s.prevState == Joined then UpdateState(s, Joined)
        else if s.prevState == Rejoined then UpdateState(s, Rejoined)
        else if s.prevState == InitRestoring then
          var v := UpdateState(s, Rejoined);
          Out(v.s, [JoinedNotice(s.panId, s.devShortAddr, s.coordShortAddr)] + v.fx)
        else Out(s, []);
      Out(u.s, u.fx + (if c.rxOnIdle then [] else [PollClock(s.pollInterval)]) + [SetPib(RxOnWhenIdle(c.rxOnIdle))])
    else UpdateState(SwitchState(s, ScanOrphan), Orphan)
  }

  /**
   * Realignment to the same PAN brings a device that was orphaned from a
   * joined or rejoined state back to that state.
   */
  lemma RealignRestores(c: Config, s: Llc)
    requires s.state == Orphan && s.prevState in {Joined, Rejoined}
    ensures ProcessCoordRealign(c, s, s.panId).s.state == s.prevState
    ensures StateChanged(s.prevState) in ProcessCoordRealign(c, s, s.panId).fx
  {
  }

  // ---------------------------------------------------------------------
  // Wi-SUN asynchronous frames

  /** The frame types of a Wi-SUN asynchronous indication. */
  datatype FhFrame = PanAdvert | PanAdvertSolicit | PanConfig | PanConfigSolicit | OtherFrame

  /** A Wi-SUN sub-IE of the frame's payload, as the IE parser hands it over. */
  datatype SubIe =
    | NetNameIe(name: seq<Byte>)
    | PanIe(panSize: Uint16, costAndFlags: Byte)
    | PanVersionIe(version: Uint16)
    | GtkHashIe(gtk0: seq<Byte>, gtk1: seq<Byte>, gtk2: seq<Byte>, gtk3: seq<Byte>)
    | OtherSubIe

  /** A network name in its zero-filled `APIMAC_FH_NET_NAME_SIZE_MAX`-byte buffer. */
  function Pad(name: NetName): (p: seq<Byte>)
    ensures |p| == NetNameSizeMax && p[..|name|] == name
    ensures forall i :: |name| <= i < NetNameSizeMax ==> p[i] == 0
  {
    name + seq(NetNameSizeMax - |name|, _ => 0)
  }

  /** What `wsAsyncIndCb` gathers from the sub-IEs: which kinds were present and the last value of each. */
  datatype Gathered = Gathered(
    netnameSeen: bool, netname: seq<Byte>, panSeen: bool, costAndFlags: Byte,
    panVersionSeen: bool, panVersion: Uint16, gtkSeen: bool, gtk: seq<seq<Byte>>)

  const NothingGathered: Gathered := Gathered(false, Pad([]), false, 0, false, 0, false, [])

  /**
   * The sub-IE loop of `wsAsyncIndCb`: a network name of at most 32 bytes
   * replaces the buffer (a longer one is ignored), and the PAN size of a
   * PAN IE is written to the PIB at once, whatever the frame turns out to
   * be.
   */
  function Gather(ies: seq<SubIe>, g: Gathered, fx: seq<Effect>): (r: (Gathered, seq<Effect>))
    ensures |r.1| >= |fx| && r.1[..|fx|] == fx
    ensures forall i :: |fx| <= i < |r.1| ==> r.1[i].SetPib? && r.1[i].attr.PanSize?
    decreases |ies|
  {
    if |ies| == 0 then (g, fx)
    else
      var (g', fx') :=
        match ies[0]
        case NetNameIe(name) =>
          if |name| <= NetNameSizeMax then (g.(netnameSeen := true, netname := Pad(name)), fx) else (g, fx)
        case PanIe(size, flags) => (g.(panSeen := true, costAndFlags := flags), fx + [SetPib(PanSize(size))])
        case PanVersionIe(v) => (g.(panVersionSeen := true, panVersion := v), fx)
        case GtkHashIe(h0, h1, h2, h3) => (g.(gtkSeen := true, gtk := [h0, h1, h2, h3]), fx)
        case OtherSubIe => (g, fx);
      Gather(ies[1..], g', fx')
  }

  /** The last network-name sub-IE short enough to be taken, if any. */
  function LastNetName(ies: seq<SubIe>): (r: Option<NetName>)
    decreases |ies|
  {
    if |ies| == 0 then None
    else
      var last := ies[|ies| - 1];
      if last.NetNameIe? && |last.name| <= NetNameSizeMax then
        var n: NetName := last.name;
        Some(n)
      else LastNetName(ies[..|ies| - 1])
  }

  /** The network name the loop ends with is that of the last acceptable network-name sub-IE. */
  lemma {:induction false} GatherNetName(ies: seq<SubIe>, g: Gathered, fx: seq<Effect>)
    ensures var r := Gather(ies, g, fx).0;
            match LastNetName(ies)
            case Some(n) => r.netnameSeen && r.netname == Pad(n)
            case None => r.netnameSeen == g.netnameSeen && r.netname == g.netname
    decreases |ies|
  {
    if |ies| > 0 {
      var ies' := ies[..|ies| - 1];
      var last := ies[|ies| - 1];
      assert ies == ies' + [last];
      GatherSnoc(ies', last, g, fx);
      GatherNetName(ies', g, fx);
      assert [last][1..] == [];
    }
  }

  /** Gathering a list with one more sub-IE at the end is gathering that sub-IE after the list. */
  lemma {:induction false} GatherSnoc(ies: seq<SubIe>, last: SubIe, g: Gathered, fx: seq<Effect>)
    ensures var m := Gather(ies, g, fx);
            Gather(ies + [last], g, fx) == Gather([last], m.0, m.1)
    decreases |ies|
  {
    if |ies| > 0 {
      assert (ies + [last])[0] == ies[0];
      assert (ies + [last])[1..] == ies[1..] + [last];
      var (g', fx') :=
        match ies[0]
        case NetNameIe(name) =>
          if |name| <= NetNameSizeMax then (g.(netnameSeen := true, netname := Pad(name)), fx) else (g, fx)
        case PanIe(size, flags) => (g.(panSeen := true, costAndFlags := flags), fx + [SetPib(PanSize(size))])
        case PanVersionIe(v) => (g.(panVersionSeen := true, panVersion := v), fx)
        case GtkHashIe(h0, h1, h2, h3) => (g.(gtkSeen := true, gtk := [h0, h1, h2, h3]), fx)
        case OtherSubIe => (g, fx);
      GatherSnoc(ies[1..], last, g', fx');
    } else {
      assert ies + [last] == [last];
    }
  }

  /** Whether a frame's sub-IEs name this device's network. */
  predicate NamesOurNetwork(c: Config, ies: seq<SubIe>)
  {
    var n := LastNetName(ies);
    n.Some? && Pad(n.value) == Pad(c.netname)
  }

  /** The parts of a Wi-SUN asynchronous indication the controller looks at. */
  datatype AsyncInd = AsyncInd(
    frame: FhFrame, srcExt: seq<Byte>, srcShort: Uint16, srcPanId: Uint16, frameCntr: Uint32, ies: seq<SubIe>)

  /**
   * `Jdllc_addSecDevice`: with security on, the sender goes into the MAC
   * security device table.
   */
  function AddSecDeviceFx(c: Config, pan: Uint16, short: Uint16, ext: seq<Byte>, frameCounter: Uint32): (fx: seq<Effect>)
    ensures c.secure <==> fx == [AddSecDevice(pan, short, ext, frameCounter)]
    ensures !c.secure <==> fx == []
  {
    if c.secure then [AddSecDevice(pan, short, ext, frameCounter)] else []
  }

  /**
   * `wsAsyncIndCb` once the frame has passed the network-name filter: a
   * solicit is counted; a PAN advertisement is taken as the parent's and
   * its routing values written to the PIB, and, with no parent yet,
   * moves the device from soliciting advertisements to soliciting
   * configuration; a PAN configuration writes its version and GTK hashes,
   * stops config solicitation and, with no parent yet, makes the sender
   * the parent and schedules association after twice `FH_ASSOC_DELAY`.
   */
  function AcceptAsync(c: Config, s: Llc, ind: AsyncInd, g: Gathered): (r: Out)
    ensures ind.frame == PanAdvertSolicit ==> r == Out(s.(numPasRcvd := (s.numPasRcvd + 1) % 0x100), [])
    ensures ind.frame == PanConfigSolicit ==> r == Out(s.(numPcsRcvd := (s.numPcsRcvd + 1) % 0x100), [])
    ensures ind.frame == OtherFrame ==> r == Out(s, [])
    ensures ind.frame == PanAdvert ==> r.s.panId == ind.srcPanId && r.s.coordExtAddr == ind.srcExt
    ensures ind.frame == PanAdvert && !s.parentFound ==> Trickle(Ssf.ConfigSolicit, c.pcsDuration) in r.fx
    ensures ind.frame == PanConfig ==> Trickle(Ssf.ConfigSolicit, 0) in r.fx && r.s.parentFound
    ensures ind.frame == PanConfig && !s.parentFound ==>
              r.s.fhAssocAttempts == 0 && FhAssocClock(2 * FhAssocDelay) in r.fx
    ensures !(ind.frame == PanConfig && !s.parentFound) ==> r.s.fhAssocAttempts == s.fhAssocAttempts
    ensures r.s.dataFailures == s.dataFailures && r.s.state == s.state && r.s.prevState == s.prevState
  {
    match ind.frame
    case PanAdvertSolicit => Out(s.(numPasRcvd := (s.numPasRcvd + 1) % 0x100), [])
    case PanConfigSolicit => Out(s.(numPcsRcvd := (s.numPcsRcvd + 1) % 0x100), [])
    case OtherFrame => Out(s, [])
    case PanAdvert =>
      var f := g.costAndFlags;
      var routing :=
        if g.panSeen then
          [SetPib(RoutingCost(f)), SetPib(UseParentBsie(f % 2)), SetPib(RoutingMethod(f / 2 % 2)),
           SetPib(EapolReady(f / 4 % 2)), SetPib(FanTpsVersion(f / 32 % 2))]
        else [];
      var fx := routing + [SetPib(TrackParentEui(ind.srcExt)), SetPib(PanIdPib(ind.srcPanId))]
                + AddSecDeviceFx(c, ind.srcPanId, ind.srcShort, ind.srcExt, ind.frameCntr);
      var restart := if s.parentFound then [] else [Trickle(Ssf.AdvertisementSolicit, 0), Trickle(Ssf.ConfigSolicit, c.pcsDuration)];
      Out(s.(panId := ind.srcPanId, coordExtAddr := ind.srcExt), fx + restart)
    case PanConfig =>
      var version := if g.panVersionSeen then [SetPib(PanVersionPib(g.panVersion))] else [];
      var hashes :=
        if g.gtkSeen && |g.gtk| == 4 then
          [SetPib(GtkHash(0, g.gtk[0])), SetPib(GtkHash(1, g.gtk[1])), SetPib(GtkHash(2, g.gtk[2])), SetPib(GtkHash(3, g.gtk[3]))]
        else [];
      var fx := version + hashes + [SetPib(TrackParentEui(ind.srcExt)), Trickle(Ssf.ConfigSolicit, 0)];
      if s.parentFound then Out(s, fx)
      else Out(s.(parentFound := true, fhAssocAttempts := 0), fx + [FhAssocClock(2 * FhAssocDelay)])
  }

  /**
   * `wsAsyncIndCb`: a frame other than a PAN configuration that does not
   * carry this network's name is dropped; nothing but the PAN-size PIB
   * writes of the sub-IE loop happens for it.
   */
  function WsAsyncInd(c: Config, s: Llc, ind: AsyncInd): (r: Out)
    ensures ind.frame != PanConfig && !NamesOurNetwork(c, ind.ies) ==>
              r.s == s && forall e :: e in r.fx ==> e.SetPib? && e.attr.PanSize?
    ensures ind.frame == PanConfig || NamesOurNetwork(c, ind.ies) ==>
              var g := Gather(ind.ies, NothingGathered, []);
              r.s == AcceptAsync(c, s, ind, g.0).s && r.fx == g.1 + AcceptAsync(c, s, ind, g.0).fx
    ensures ind.frame != PanConfig && !NamesOurNetwork(c, ind.ies) ==> r.fx == Gather(ind.ies, NothingGathered, []).1
    ensures !(ind.frame == PanConfig && !s.parentFound) ==> r.s.fhAssocAttempts == s.fhAssocAttempts
    ensures r.s.dataFailures == s.dataFailures && r.s.state == s.state && r.s.prevState == s.prevState
  {
    var gathered := Gather(ind.ies, NothingGathered, []);
    GatherNetName(ind.ies, NothingGathered, []);
    var g := gathered.0;
    if ind.frame != PanConfig && (!g.netnameSeen || g.netname != Pad(c.netname)) then Out(s, gathered.1)
    else
      var o := AcceptAsync(c, s, ind, g);
      Out(o.s, gathered.1 + o.fx)
  }

  // ---------------------------------------------------------------------
  // The event loop

  /** Sending a Wi-SUN solicit (`sendAsyncReq`). */
  function SendAsyncReq(frame: Ssf.AsyncFrame): Effect
  {
    AsyncRequest(frame)
  }

  /**
   * The PAS trickle flag: solicit PAN advertisements only if none were
   * heard in the window, then clear the count and re-arm the clock.
   */
  function PasTick(c: Config, s: Llc): (r: Out)
    ensures (AsyncRequest(Ssf.AdvertisementSolicit) in r.fx) <==> s.numPasRcvd == 0
    ensures Trickle(Ssf.AdvertisementSolicit, c.pasDuration) in r.fx
    ensures r.s == s.(numPasRcvd := 0, events := s.events - {PasEvt})
  {
    var send := if s.numPasRcvd == 0 then [SendAsyncReq(Ssf.AdvertisementSolicit)] else [];
    Out(s.(numPasRcvd := 0, events := s.events - {PasEvt}), send + [Trickle(Ssf.AdvertisementSolicit, c.pasDuration)])
  }

  /** The PCS trickle flag, likewise for PAN-configuration solicits. */
  function PcsTick(c: Config, s: Llc): (r: Out)
    ensures (AsyncRequest(Ssf.ConfigSolicit) in r.fx) <==> s.numPcsRcvd == 0
    ensures Trickle(Ssf.ConfigSolicit, c.pcsDuration) in r.fx
    ensures r.s == s.(numPcsRcvd := 0, events := s.events - {PcsEvt})
  {
    var send := if s.numPcsRcvd == 0 then [SendAsyncReq(Ssf.ConfigSolicit)] else [];
    Out(s.(numPcsRcvd := 0, events := s.events - {PcsEvt}), send + [Trickle(Ssf.ConfigSolicit, c.pcsDuration)])
  }

  /**
   * `processState`: act on the scan sub-state, by scanning or, for
   * synchronisation, by writing the parent's parameters to the PIB and
   * requesting sync (and association, once a parent is known).
   */
  function ProcessState(c: Config, s: Llc): (r: Out)
    ensures s.devState == ScanActive ==> r == Out(s, [ScanRequest(ActiveScan)])
    ensures s.devState == ScanPassive ==> r == Out(s, [ScanRequest(PassiveScan)])
    ensures s.devState == ScanOrphan ==> r == Out(s, [ScanRequest(OrphanScan)])
    ensures s.devState == ScanBackoff ==> r == Out(s, [])
    ensures s.devState == SyncReq ==> SyncRequest(s.channel) in r.fx && (AssociateReqEvt in r.s.events <==> AssociateReqEvt in s.events || s.parentFound)
    ensures r.s == s.(events := r.s.events)
  {
    match s.devState
    case ScanActive => Out(s, [ScanRequest(ActiveScan)])
    case ScanPassive => Out(s, [ScanRequest(PassiveScan)])
    case ScanOrphan => Out(s, [ScanRequest(OrphanScan)])
    case ScanBackoff => Out(s, [])
    case SyncReq =>
      var fx := [SetPib(BeaconOrderPib(s.beaconOrder)), SetPib(SuperframeOrderPib(s.superframeOrder)),
                 SetPib(CoordShortAddressPib(s.coordShortAddr)), SetPib(PanIdPib(s.panId)), SyncRequest(s.channel)];
      Out(if s.parentFound then s.(events := s.events + {AssociateReqEvt}) else s, fx)
  }

  /**
   * The poll flag: in a non-beacon network a joined device re-arms the
   * poll clock, a hopping device moves to its next fixed channel, and a
   * poll request goes to the parent.
   */
  function PollTick(c: Config, s: Llc): (r: Out)
    ensures c.beaconOrder == NonBeacon ==> PollRequest(s.panId, CoordAddress(c, s)) in r.fx
    ensures c.beaconOrder == NonBeacon && (s.state == Joined || s.state == Rejoined) ==> PollClock(s.pollInterval) in r.fx
    ensures c.beaconOrder != NonBeacon ==> r == Out(s, [])
    ensures r.s == s.(sleepNodeChIdx := r.s.sleepNodeChIdx)
    ensures c.beaconOrder == NonBeacon && c.fhEnable ==>
              var h := FhHop.GetHopChannel(s.fhChannelMask, s.sleepNodeChIdx);
              r.s.sleepNodeChIdx == h.next && SetPib(UnicastFixedChannel(h.channel)) in r.fx
    ensures !c.fhEnable ==> r.s == s
  {
    if c.beaconOrder == NonBeacon then
      var clock := if s.state == Joined || s.state == Rejoined then [PollClock(s.pollInterval)] else [];
      if c.fhEnable then
        var h := FhHop.GetHopChannel(s.fhChannelMask, s.sleepNodeChIdx);
        Out(s.(sleepNodeChIdx := h.next), clock + [SetPib(UnicastFixedChannel(h.channel)), PollRequest(s.panId, CoordAddress(c, s))])
      else Out(s, clock + [PollRequest(s.panId, CoordAddress(c, s))])
    else Out(s, [])
  }

  /**
   * The scan-backoff flag: the device alternates between backing off
   * (scanning stopped) and resuming the scan sub-state it backed off
   * from; either way the backoff clock is re-armed.
   */
  function ScanBackoffTick(c: Config, s: Llc): (r: Out)
    ensures s.devState == ScanBackoff ==> r.s.devState == s.prevDevState && r.s.continueScan && StateChangeEvt in r.s.events
    ensures s.devState != ScanBackoff ==>
              r.s.devState == ScanBackoff && r.s.prevDevState == s.devState && !r.s.continueScan
    ensures r.fx == [ScanBackoffClock(c.scanBackoffInterval)]
    ensures r.s.state == s.state && r.s.prevState == s.prevState
  {
    var s1 :=
      if s.devState == ScanBackoff then SwitchState(s, s.prevDevState).(continueScan := true)
      else s.(prevDevState := s.devState, devState := ScanBackoff, continueScan := false);
    Out(s1, [ScanBackoffClock(c.scanBackoffInterval)])
  }

  /** The order in which `Jdllc_process` tests its flags. */
  const FlagOrder: seq<Event> :=
    [PasEvt, PcsEvt, StateChangeEvt, PollEvt, AssociateReqEvt, CoordRealignEvt, ScanBackoffEvt]

  /** The handler of one flag; `pibPanId` is the PAN the MAC reports to the realignment handler. */
  function Handler(c: Config, e: Event, s: Llc, pibPanId: Uint16): Out
  {
    match e
    case PasEvt => PasTick(c, s)
    case PcsEvt => PcsTick(c, s)
    case StateChangeEvt => ProcessState(c, s)
    case PollEvt => PollTick(c, s)
    case AssociateReqEvt => Out(s, [SendAssocReq(c, s)])
    case CoordRealignEvt => ProcessCoordRealign(c, s, pibPanId)
    case ScanBackoffEvt => ScanBackoffTick(c, s)
  }

  /** The flags a flag's handler may raise. */
  function Raises(e: Event): set<Event>
  {
    match e
    case StateChangeEvt => {AssociateReqEvt}
    case CoordRealignEvt => {StateChangeEvt}
    case ScanBackoffEvt => {StateChangeEvt}
    case _ => {}
  }

  /**
   * No handler touches the failure count, the association attempts or
   * whether a parent is known; only the realignment handler changes the
   * join state, and it keeps the states consistent; a handler raises no
   * flag beyond those of `Raises`.
   */
  lemma HandlerFacts(c: Config, e: Event, s: Llc, pibPanId: Uint16)
    ensures var r := Handler(c, e, s, pibPanId).s;
            && r.dataFailures == s.dataFailures && r.fhAssocAttempts == s.fhAssocAttempts
            && r.parentFound == s.parentFound
            && (StatesConsistent(s) ==> StatesConsistent(r))
            && r.events <= s.events + Raises(e)
  {
  }

  /** Each flag of `order` in turn: when it is set, its handler runs and the flag is cleared. */
  function RunFlags(c: Config, o: Out, pibPanId: Uint16, order: seq<Event>): (r: Out)
    ensures |r.fx| >= |o.fx| && r.fx[..|o.fx|] == o.fx
    ensures o.s.events == {} ==> r == o
    decreases |order|
  {
    if |order| == 0 then o
    else
      var e := order[0];
      var o' := if e in o.s.events then Out(Handler(c, e, o.s, pibPanId).s.(events := Handler(c, e, o.s, pibPanId).s.events - {e}),
                                            o.fx + Handler(c, e, o.s, pibPanId).fx)
                else o;
      RunFlags(c, o', pibPanId, order[1..])
  }

  /** A run over any flag order keeps the counters and the consistency of the join states. */
  lemma {:induction false} RunKeepsCounters(c: Config, o: Out, pibPanId: Uint16, order: seq<Event>)
    ensures var r := RunFlags(c, o, pibPanId, order).s;
            && r.dataFailures == o.s.dataFailures && r.fhAssocAttempts == o.s.fhAssocAttempts
            && r.parentFound == o.s.parentFound
            && (StatesConsistent(o.s) ==> StatesConsistent(r))
    decreases |order|
  {
    if |order| > 0 {
      var e := order[0];
      HandlerFacts(c, e, o.s, pibPanId);
      var h := Handler(c, e, o.s, pibPanId);
      var o' := if e in o.s.events then Out(h.s.(events := h.s.events - {e}), o.fx + h.fx) else o;
      RunKeepsCounters(c, o', pibPanId, order[1..]);
    }
  }

  /** The flags of an order. */
  function Elems(order: seq<Event>): set<Event>
  {
    set e | e in order
  }

  /**
   * When every flag a handler raises is either handled later in the order
   * or a state change, a run leaves pending only flags outside the order
   * and possibly a state change.
   */
  lemma {:induction false} RunClearsFlags(c: Config, o: Out, pibPanId: Uint16, order: seq<Event>)
    requires forall k :: 0 <= k < |order| ==> Raises(order[k]) <= Elems(order[k + 1..]) + {StateChangeEvt}
    ensures RunFlags(c, o, pibPanId, order).s.events <= (o.s.events - Elems(order)) + {StateChangeEvt}
    decreases |order|
  {
    if |order| > 0 {
      var e := order[0];
      var rest := order[1..];
      HandlerFacts(c, e, o.s, pibPanId);
      var h := Handler(c, e, o.s, pibPanId);
      var o' := if e in o.s.events then Out(h.s.(events := h.s.events - {e}), o.fx + h.fx) else o;
      forall k | 0 <= k < |rest|
        ensures Raises(rest[k]) <= Elems(rest[k + 1..]) + {StateChangeEvt}
      {
        assert rest[k] == order[k + 1] && rest[k + 1..] == order[k + 2..];
      }
      RunClearsFlags(c, o', pibPanId, rest);
      assert order == [e] + rest;
      assert Elems(order) == {e} + Elems(rest);
    }
  }

  /**
   * `Jdllc_process`: the pending flags are handled in a fixed order (PAS,
   * PCS, state change, poll, association request, realignment, scan
   * backoff), each cleared after its handler; a flag raised by an earlier
   * handler in the same pass is handled by a later one.
   */
  function Process(c: Config, s: Llc, pibPanId: Uint16): (r: Out)
    ensures s.events == {} ==> r == Out(s, [])
  {
    RunFlags(c, Out(s, []), pibPanId, FlagOrder)
  }

  // ---------------------------------------------------------------------
  // Security

  /** `ApiMac_secLevel_encMic32`, the level `Jdllc_securityFill` sets and `Jdllc_securityCheck` expects. */
  const SecLevel: Byte := 5

  /** `ApiMac_keyIdMode_8`. */
  const SecKeyIdMode: Byte := 3

  /** The key index used with the implicit key source. */
  const SecKeyIndex: Byte := 3

  /** The first eight bytes of the key-ID lookup data. */
  const KeySource: seq<Byte> := [0x33, 0x33, 0x33, 0x33, 0x33, 0x33, 0x33, 0x33]

  /** The security parameters of a frame. */
  datatype Sec = Sec(keySource: seq<Byte>, securityLevel: Byte, keyIdMode: Byte, keyIndex: Byte)

  /** `Jdllc_securityFill`: the parameters an outgoing frame is sent with; all zero with security off. */
  function SecurityFill(c: Config): (sec: Sec)
    ensures c.secure ==> sec.securityLevel == SecLevel && sec.keyIdMode == SecKeyIdMode && sec.keyIndex == SecKeyIndex
    ensures !c.secure ==> sec.securityLevel == 0 && sec.keyIdMode == 0 && sec.keyIndex == 0
    ensures c.secure ==> sec.keySource == KeySource
    ensures !c.secure ==> sec.keySource == [0, 0, 0, 0, 0, 0, 0, 0]
  {
    if c.secure then Sec(KeySource, SecLevel, SecKeyIdMode, SecKeyIndex)
    else Sec([0, 0, 0, 0, 0, 0, 0, 0], 0, 0, 0)
  }

  /**
   * `Jdllc_securityCheck`: with security on, a frame is accepted only if
   * its parameters are present and at the expected level; with it off,
   * every frame is.
   */
  function SecurityCheck(c: Config, sec: Option<Sec>): (ok: bool)
    ensures ok <==> !c.secure || (sec.Some? && sec.value.securityLevel == SecLevel)
  {
    if c.secure then sec.Some? && sec.value.securityLevel == SecLevel else true
  }

  /** A frame sent with the filled-in parameters passes the check, and one without any fails it when security is on. */
  lemma FillPassesCheck(c: Config)
    ensures SecurityCheck(c, Some(SecurityFill(c)))
    ensures c.secure ==> !SecurityCheck(c, None)
  {
  }

  // ---------------------------------------------------------------------
  // The controller as a whole

  /** Everything that can happen to the controller. */
  datatype Input =
    | DoInit
    | DoJoin
    | DoRejoin(dev: DeviceDescriptor, parent: ParentInfo)
    | SetPollRate(interval: Uint32)
    | SendDisassociation
    | Raise(e: Event)
    | DoProcess(pibPanId: Uint16)
    | BeaconInd(b: Beacon, blacklist: Ssf.Blacklist)
    | ScanDone(scanStatus: MacStatus, kind: ScanKind)
    | AssocDone(a: AssocResult)
    | DisassocDone(disStatus: MacStatus)
    | DisassocIndication
    | AsyncIndication(ind: AsyncInd)
    | SyncLost
    | DataDone(dataStatus: MacStatus)
    | PollDone(pollStatus: MacStatus)

  /**
   * One step of the controller.  `Raise` is a clock or the application
   * setting an event flag; `SetPollRate` is `Jdllc_setPollRate`;
   * `SendDisassociation` is `Jdllc_sendDisassociationRequest`.
   */
  function Step(c: Config, s: Llc, i: Input): (r: Out)
    ensures i.SetPollRate? ==> r == Out(s.(pollInterval := i.interval), [])
    ensures i.SendDisassociation? ==> r.s == s && r.fx == [DisassociateRequest(s.panId, CoordAddress(c, s))]
    ensures i.Raise? ==> r.s == s.(events := s.events + {i.e}) && r.fx == []
    ensures i.DoProcess? && s.events == {} ==> r == Out(s, [])
  {
    match i
    case DoInit => Out(Init(c, s), [])
    case DoJoin => Join(c, s)
    case DoRejoin(dev, parent) => Rejoin(c, s, dev, parent)
    case SetPollRate(interval) => Out(s.(pollInterval := interval), [])
    case SendDisassociation => Out(s, [DisassociateRequest(s.panId, CoordAddress(c, s))])
    case Raise(e) => Out(s.(events := s.events + {e}), [])
    case DoProcess(pan) => Process(c, s, pan)
    case BeaconInd(b, bl) => BeaconNotify(c, s, b, bl)
    case ScanDone(status, kind) => ScanCnf(c, s, status, kind)
    case AssocDone(a) => AssocCnf(c, s, a)
    case DisassocDone(status) => DisassocCnf(c, s, status)
    case DisassocIndication => DisassocInd(c, s)
    case AsyncIndication(ind) => WsAsyncInd(c, s, ind)
    case SyncLost => SyncLoss(c, s)
    case DataDone(status) => DataCnf(c, s, status)
    case PollDone(status) => PollCnf(c, s, status)
  }

  /** What every reachable record keeps: fewer failures than the maximum, and consistent join states. */
  predicate Invariant(c: Config, s: Llc)
  {
    FailuresBelowMax(c, s) && StatesConsistent(s)
  }

  /** A freshly booted controller satisfies the invariant whenever one failure is tolerated before giving up. */
  lemma BootInvariant(c: Config, mask: FhHop.ChannelMask)
    requires c.maxDataFailures > 0
    ensures Invariant(c, Boot(c, mask))
  {
  }

  /** The pass over the flags touches neither the failure count nor the association attempts. */
  lemma ProcessKeepsCounters(c: Config, s: Llc, pibPanId: Uint16)
    ensures var r := Process(c, s, pibPanId).s;
            r.dataFailures == s.dataFailures && r.fhAssocAttempts == s.fhAssocAttempts && r.parentFound == s.parentFound
    ensures StatesConsistent(s) ==> StatesConsistent(Process(c, s, pibPanId).s)
  {
    RunKeepsCounters(c, Out(s, []), pibPanId, FlagOrder);
  }

  /**
   * One pass handles every pending flag: afterwards only a state-change
   * flag can be pending, raised by the realignment or scan-backoff
   * handler that runs after the state-change handler.
   */
  lemma ProcessClearsFlags(c: Config, s: Llc, pibPanId: Uint16)
    ensures Process(c, s, pibPanId).s.events <= {StateChangeEvt}
  {
    forall e: Event
      ensures e in Elems(FlagOrder)
    {
      match e
      case PasEvt => assert FlagOrder[0] == e;
      case PcsEvt => assert FlagOrder[1] == e;
      case StateChangeEvt => assert FlagOrder[2] == e;
      case PollEvt => assert FlagOrder[3] == e;
      case AssociateReqEvt => assert FlagOrder[4] == e;
      case CoordRealignEvt => assert FlagOrder[5] == e;
      case ScanBackoffEvt => assert FlagOrder[6] == e;
    }
    forall k | 0 <= k < |FlagOrder|
      ensures Raises(FlagOrder[k]) <= Elems(FlagOrder[k + 1..]) + {StateChangeEvt}
    {
      if k == 2 {
        assert FlagOrder[4] == AssociateReqEvt;
      }
    }
    RunClearsFlags(c, Out(s, []), pibPanId, FlagOrder);
  }

  /**
   * What a step may do to the invariant, the association attempts and the
   * parent flag: keep the invariant; change the attempts only on a
   * hopping device's refused association (one more, wrapping at 256) or on
   * a PAN configuration while no parent is known (back to zero); find a
   * parent only by adopting a beacon, by a hopping device's granted
   * association or by a PAN configuration.
   */
  predicate StepFacts(c: Config, s: Llc, i: Input, r: Llc)
  {
    && (Invariant(c, s) ==> Invariant(c, r))
    && (r.fhAssocAttempts != s.fhAssocAttempts ==>
          || (i.AssocDone? && !i.a.granted && c.fhEnable && r.fhAssocAttempts == (s.fhAssocAttempts + 1) % 0x100)
          || (i.AsyncIndication? && i.ind.frame == PanConfig && !s.parentFound && r.fhAssocAttempts == 0))
    && (!s.parentFound && r.parentFound ==>
          || (i.BeaconInd? && Adopts(c, s, i.b, i.blacklist))
          || (i.AssocDone? && i.a.granted && c.fhEnable)
          || (i.AsyncIndication? && i.ind.frame == PanConfig))
  }

  /** The facts for the calls the application makes. */
  lemma StepFactsOnCalls(c: Config, s: Llc, i: Input)
    requires i.DoInit? || i.DoJoin? || i.DoRejoin? || i.SetPollRate? || i.SendDisassociation? || i.Raise? || i.DoProcess?
    ensures StepFacts(c, s, i, Step(c, s, i).s)
  {
    if i.DoProcess? {
      ProcessKeepsCounters(c, s, i.pibPanId);
    }
  }

  /** The facts for the MAC's scan and association confirms. */
  lemma StepFactsOnConfirms(c: Config, s: Llc, i: Input)
    requires i.ScanDone? || i.AssocDone? || i.DisassocDone?
    ensures StepFacts(c, s, i, Step(c, s, i).s)
  {
  }

  /** The facts for the MAC's data and poll confirms. */
  lemma StepFactsOnTraffic(c: Config, s: Llc, i: Input)
    requires i.DataDone? || i.PollDone?
    ensures StepFacts(c, s, i, Step(c, s, i).s)
  {
  }

  /** The facts for the MAC's indications. */
  lemma StepFactsOnIndications(c: Config, s: Llc, i: Input)
    requires i.BeaconInd? || i.DisassocIndication? || i.AsyncIndication? || i.SyncLost?
    ensures StepFacts(c, s, i, Step(c, s, i).s)
  {
  }

  /** Every step keeps the invariant, and changes the attempts and the parent flag only as `StepFacts` allows. */
  lemma StepKeepsInvariant(c: Config, s: Llc, i: Input)
    ensures StepFacts(c, s, i, Step(c, s, i).s)
  {
    if i.DoInit? || i.DoJoin? || i.DoRejoin? || i.SetPollRate? || i.SendDisassociation? || i.Raise? || i.DoProcess? {
      StepFactsOnCalls(c, s, i);
    } else if i.ScanDone? || i.AssocDone? || i.DisassocDone? {
      StepFactsOnConfirms(c, s, i);
    } else if i.DataDone? || i.PollDone? {
      StepFactsOnTraffic(c, s, i);
    } else {
      StepFactsOnIndications(c, s, i);
    }
  }

  /**
   * Every state reached from boot by any sequence of inputs satisfies the
   * invariant: the failure count stays below the maximum and the join
   * states stay consistent.
   */
  function Run(c: Config, s: Llc, inputs: seq<Input>): Llc
    decreases |inputs|
  {
    if |inputs| == 0 then s else Run(c, Step(c, s, inputs[0]).s, inputs[1..])
  }

  lemma {:induction false} RunKeepsInvariant(c: Config, s: Llc, inputs: seq<Input>)
    requires Invariant(c, s)
    ensures Invariant(c, Run(c, s, inputs))
    decreases |inputs|
  {
    if |inputs| > 0 {
      StepKeepsInvariant(c, s, inputs[0]);
      RunKeepsInvariant(c, Step(c, s, inputs[0]).s, inputs[1..]);
    }
  }
}

=== FILE: printf.dfy ===
/**
 * The minimal printf of the debug UART (uart_debug.c; the sensor project and
 * Include_Files carry the same algorithm): `prints` pads a string to a
 * width, `printi` renders an integer in base 10 or 16, and `print` walks a
 * format string.  The model covers the buffer path (`sprintf`), where every
 * character goes to the caller's buffer and a NUL is written at the end.
 *
 * `long` is 32 bits on both targets.  A C string is modelled as a `string`
 * read up to its first NUL, or to its end when it has none.
 */
module Printf {
  import opened Types

  const LongMin: int := -0x8000_0000
  const LongMax: int := 0x7FFF_FFFF
  /** `PRINT_BUF_LEN`: the digit buffer of `printi`, NUL included. */
  const PrintBufLen: nat := 12

  /** The `pad` argument: `PAD_RIGHT` (1) and `PAD_ZERO` (2). */
  datatype Pad = Pad(right: bool, zero: bool)

  /** The `pad` bit set a `Pad` stands for. */
  function PadBits(p: Pad): (bits: int)
    ensures 0 <= bits < 4
    ensures (bits % 2 == 1) == p.right && (bits / 2 == 1) == p.zero
  {
    (if p.right then 1 else 0) + (if p.zero then 2 else 0)
  }

  /** Length of the C string held by `s`. */
  function StrLen(s: string): (n: nat)
    ensures n <= |s|
    ensures forall i :: 0 <= i < n ==> s[i] != '\0'
    ensures n < |s| ==> s[n] == '\0'
  {
    if |s| == 0 || s[0] == '\0' then 0 else 1 + StrLen(s[1..])
  }

  /** The characters of the C string held by `s`. */
  function CStr(s: string): (r: string)
    ensures r == s[..StrLen(s)]
    ensures '\0' !in r
  {
    s[..StrLen(s)]
  }

  /** `n` copies of `c` (none when `n <= 0`). */
  function Fill(c: char, n: int): (r: string)
    ensures |r| == if n > 0 then n else 0
    ensures forall i :: 0 <= i < |r| ==> r[i] == c
    decreases if n > 0 then n else 0
  {
    if n <= 0 then "" else [c] + Fill(c, n - 1)
  }

  /**
   * What `prints` writes: the string, padded to `width` characters when it is
   * shorter, with '0' when PAD_ZERO and ' ' otherwise, after the string when
   * PAD_RIGHT and before it otherwise.
   */
  function Padded(text: string, width: int, pad: Pad): (r: string)
  {
    var t := CStr(text);
    var padChar := if width > 0 && pad.zero then '0' else ' ';
    var fill := if width > 0 && |t| < width then Fill(padChar, width - |t|) else "";
    if pad.right then t + fill else fill + t
  }

  /** `prints`: returns what it wrote to the buffer and its count `pc`. */
  method Prints(text: string, width: int, pad: Pad) returns (out: string, pc: int)
    ensures out == Padded(text, width, pad)
    ensures pc == |out|
    ensures pc == if width > StrLen(text) then width else StrLen(text)
  {
    var padChar := ' ';
    var w := width;
    if w > 0 {
      var len := Length(text);
      if len >= w {
        w := 0;
      } else {
        w := w - len;
      }
      if pad.zero {
        padChar := '0';
      }
    }
    var lead := "";
    if !pad.right {
      lead := EmitPadding(padChar, w);
      w := 0;
    }
    var body := EmitString(text);
    var trail := EmitPadding(padChar, w);
    out := lead + body + trail;
    pc := |lead| + |body| + |trail|;
  }

  /** The `for (ptr = string; *ptr; ++ptr) ++len;` loop. */
  method Length(text: string) returns (len: nat)
    ensures len == StrLen(text)
  {
    len := 0;
    while len < |text| && text[len] != '\0'
      invariant len <= StrLen(text)
      decreases |text| - len
    {
      len := len + 1;
    }
  }

  /** A `for ( ; width > 0; --width) printchar(out, padchar);` loop. */
  method EmitPadding(padChar: char, width: int) returns (out: string)
    ensures out == Fill(padChar, width)
  {
    out := "";
    var w := width;
    while w > 0
      invariant out == Fill(padChar, width - w)
      invariant (width <= 0 && w == width) || 0 <= w <= width
      decreases w
    {
      out := out + [padChar];
      w := w - 1;
      FillSnoc(padChar, width - w);
    }
  }

  /** One more fill character goes at the end. */
  lemma {:induction false} FillSnoc(c: char, n: int)
    requires n >= 1
    ensures Fill(c, n) == Fill(c, n - 1) + [c]
  {
  }

  /** The `for ( ; *string ; ++string) printchar(out, *string);` loop. */
  method EmitString(text: string) returns (out: string)
    ensures out == CStr(text)
  {
    out := "";
    var k := 0;
    while k < |text| && text[k] != '\0'
      invariant k <= StrLen(text)
      invariant out == text[..k]
      decreases |text| - k
    {
      out := out + [text[k]];
      k := k + 1;
    }
  }

  // ---------------------------------------------------------------------
  // Digits

  /** The two bases `print` asks for. */
  predicate Base(b: int)
  {
    b == 10 || b == 16
  }

  /** `u / b`, written per base so that the arithmetic stays linear. */
  function Quot(u: nat, b: int): nat
    requires Base(b)
  {
    if b == 10 then u / 10 else u / 16
  }

  /** `u % b`, written per base. */
  function Rem(u: nat, b: int): nat
    requires Base(b)
  {
    if b == 10 then u % 10 else u % 16
  }

  /** `x * b`, written per base. */
  function Scale(x: int, b: int): int
    requires Base(b)
  {
    if b == 10 then x * 10 else x * 16
  }

  /** Euclidean division of a natural number by a base. */
  lemma DivMod(u: nat, b: int)
    requires Base(b)
    ensures u == Scale(Quot(u, b), b) + Rem(u, b) && Rem(u, b) < b
    ensures u < b ==> Quot(u, b) == 0 && Rem(u, b) == u
    ensures u >= b ==> 0 < Quot(u, b) < u
  {
  }

  /** The digit character `printi` stores for digit value `t`. */
  function DigitChar(t: nat, letbase: char): (c: char)
    requires t < 16 && (letbase == 'a' || letbase == 'A')
  {
    if t >= 10 then (letbase as int + t - 10) as char else ('0' as int + t) as char
  }

  /** The value a digit character stands for, or -1. */
  function DigitValue(c: char, letbase: char): int
  {
    if '0' <= c <= '9' then c as int - '0' as int
    else if letbase as int <= c as int < letbase as int + 6 then c as int - letbase as int + 10
    else -1
  }

  /** A digit character reads back to its value. */
  lemma DigitRoundTrip(t: nat, letbase: char)
    requires t < 16 && (letbase == 'a' || letbase == 'A')
    ensures DigitValue(DigitChar(t, letbase), letbase) == t
    ensures t > 0 ==> DigitChar(t, letbase) != '0'
  {
  }

  /** Every character of `s` is a base-`b` digit. */
  predicate AllDigits(s: string, b: int, letbase: char)
  {
    forall k :: 0 <= k < |s| ==> 0 <= DigitValue(s[k], letbase) < b
  }

  lemma DigitsSnoc(s: string, c: char, b: int, letbase: char)
    requires AllDigits(s, b, letbase) && 0 <= DigitValue(c, letbase) < b
    ensures AllDigits(s + [c], b, letbase)
  {
  }

  /** The base-`b` digits of `u > 0`, most significant first. */
  function ToBase(u: nat, b: int, letbase: char): (s: string)
    requires u > 0 && Base(b) && (letbase == 'a' || letbase == 'A')
    ensures |s| >= 1
    decreases u
  {
    DivMod(u, b);
    var prefix := if u < b then "" else ToBase(Quot(u, b), b, letbase);
    prefix + [DigitChar(Rem(u, b), letbase)]
  }

  /** Every character `ToBase` produces is a base-`b` digit. */
  lemma {:induction false} ToBaseDigits(u: nat, b: int, letbase: char)
    requires u > 0 && Base(b) && (letbase == 'a' || letbase == 'A')
    ensures AllDigits(ToBase(u, b, letbase), b, letbase)
    decreases u
  {
    DivMod(u, b);
    var t := Rem(u, b);
    DigitRoundTrip(t, letbase);
    if u < b {
      DigitsSnoc("", DigitChar(t, letbase), b, letbase);
    } else {
      ToBaseDigits(Quot(u, b), b, letbase);
      DigitsSnoc(ToBase(Quot(u, b), b, letbase), DigitChar(t, letbase), b, letbase);
    }
  }

  /** Reads a digit string back (most significant first). */
  function FromBase(s: string, b: int, letbase: char): int
    requires Base(b)
    decreases |s|
  {
    if |s| == 0 then 0 else Scale(FromBase(s[..|s| - 1], b, letbase), b) + DigitValue(s[|s| - 1], letbase)
  }

  /** Reading one more digit multiplies by the base and adds it. */
  lemma FromBaseSnoc(s: string, c: char, b: int, letbase: char)
    requires Base(b)
    ensures FromBase(s + [c], b, letbase) == Scale(FromBase(s, b, letbase), b) + DigitValue(c, letbase)
  {
    assert (s + [c])[..|s + [c]| - 1] == s;
  }

  /** The digits `printi` produces read back to the number, and the first is not '0'. */
  lemma {:induction false} ToBaseRoundTrip(u: nat, b: int, letbase: char)
    requires u > 0 && Base(b) && (letbase == 'a' || letbase == 'A')
    ensures FromBase(ToBase(u, b, letbase), b, letbase) == u
    ensures ToBase(u, b, letbase)[0] != '0'
    decreases u
  {
    DivMod(u, b);
    var q, t := Quot(u, b), Rem(u, b);
    var prefix := if u < b then "" else ToBase(q, b, letbase);
    var d := DigitChar(t, letbase);
    assert ToBase(u, b, letbase) == prefix + [d];
    FromBaseSnoc(prefix, d, b, letbase);
    DigitRoundTrip(t, letbase);
    if u >= b {
      ToBaseRoundTrip(q, b, letbase);
    }
  }

  /** `b` to the power `k`. */
  function Pow(b: int, k: nat): int
    requires Base(b)
  {
    if k == 0 then 1 else Scale(Pow(b, k - 1), b)
  }

  /** A number below `b^k` has at most `k` digits. */
  lemma {:induction false} ToBaseLength(u: nat, b: int, letbase: char, k: nat)
    requires u > 0 && Base(b) && (letbase == 'a' || letbase == 'A')
    requires u < Pow(b, k)
    ensures |ToBase(u, b, letbase)| <= k
    decreases u
  {
    DivMod(u, b);
    assert k >= 1;
    if u >= b {
      assert Quot(u, b) < Pow(b, k - 1);
      ToBaseLength(Quot(u, b), b, letbase, k - 1);
    }
  }

  /** Every 32-bit value, with a sign, fits the 12-byte digit buffer. */
  lemma DigitsFitBuffer(u: nat, b: int, letbase: char)
    requires 0 < u < 0x1_0000_0000 && Base(b) && (letbase == 'a' || letbase == 'A')
    ensures 1 + |ToBase(u, b, letbase)| + 1 <= PrintBufLen
  {
    if b == 10 {
      assert Pow(10, 10) == 10000000000;
      ToBaseLength(u, b, letbase, 10);
    } else {
      assert Pow(16, 8) == 0x1_0000_0000;
      ToBaseLength(u, b, letbase, 8);
    }
  }

  // ---------------------------------------------------------------------
  // printi

  /** The number `u` holds when a `long` is read as a 32-bit unsigned value. */
  function Unsigned(i: int): (u: nat)
    requires LongMin <= i <= LongMax
    ensures u < 0x1_0000_0000
    ensures u % 0x1_0000_0000 == i % 0x1_0000_0000
  {
    if i < 0 then i + 0x1_0000_0000 else i
  }

  /** The conversions `print` makes: base 10 or 16, letters 'a' or 'A'. */
  predicate Conversion(b: int, letbase: char)
  {
    (b == 10 || b == 16) && (letbase == 'a' || letbase == 'A')
  }

  /** The values `printi` takes: a 32-bit `long`. */
  predicate IsLong(i: int)
  {
    LongMin <= i <= LongMax
  }

  /**
   * What `printi` writes: "0" for zero; for a signed decimal negative value a
   * '-' that goes before the zero padding when there is a width and PAD_ZERO,
   * and in front of the digits otherwise; for every other value the digits
   * of the value read as an unsigned 32-bit number.
   */
  function IntText(i: int, b: int, sg: bool, width: int, pad: Pad, letbase: char): string
    requires Conversion(b, letbase) && IsLong(i)
  {
    if i == 0 then Padded("0", width, pad)
    else if sg && b == 10 && i < 0 then
      var d := ToBase(-i, 10, letbase);
      if width != 0 && pad.zero then "-" + Padded(d, width - 1, pad) else Padded("-" + d, width, pad)
    else Padded(ToBase(Unsigned(i), b, letbase), width, pad)
  }

  /** `printi`: the digits are produced least significant first into the buffer, then padded by `prints`. */
  method Printi(i: int, b: int, sg: bool, width: int, pad: Pad, letbase: char) returns (out: string, pc: int)
    requires Conversion(b, letbase) && IsLong(i)
    ensures out == IntText(i, b, sg, width, pad, letbase)
    ensures pc == |out|
  {
    if i == 0 {
      out, pc := Prints("0", width, pad);
      return;
    }
    var neg := false;
    var u: nat := Unsigned(i);
    if sg && b == 10 && i < 0 {
      neg := true;
      u := -i;
    }
    var s := Digits(u, b, letbase);
    var w := width;
    if neg {
      if w != 0 && pad.zero {
        var rest, n := Prints(s, w - 1, pad);
        out := "-" + rest;
        pc := 1 + n;
      } else {
        out, pc := Prints("-" + s, w, pad);
      }
    } else {
      out, pc := Prints(s, w, pad);
    }
  }

  /** The `while (u)` loop of `printi`: digits written from the end of the 12-byte buffer backwards. */
  method Digits(u: nat, b: int, letbase: char) returns (s: string)
    requires u > 0 && u < 0x1_0000_0000 && Conversion(b, letbase)
    ensures s == ToBase(u, b, letbase)
    ensures |s| + 2 <= PrintBufLen
  {
    s := "";
    var v: nat := u;
    while v > 0
      invariant DigitsOf(v, b, letbase) + s == ToBase(u, b, letbase)
      decreases v
    {
      DigitStep(v, s, b, letbase);
      s := [DigitChar(Rem(v, b), letbase)] + s;
      v := Quot(v, b);
    }
    DigitsFitBuffer(u, b, letbase);
  }

  /** The digits of `v`, none for zero. */
  function DigitsOf(v: nat, b: int, letbase: char): string
    requires Base(b) && (letbase == 'a' || letbase == 'A')
  {
    if v == 0 then "" else ToBase(v, b, letbase)
  }

  /** One turn of the digit loop moves the last digit of `v` to the front of those written. */
  lemma DigitStep(v: nat, s: string, b: int, letbase: char)
    requires v > 0 && Base(b) && (letbase == 'a' || letbase == 'A')
    ensures Rem(v, b) < 16 && Quot(v, b) < v
    ensures DigitsOf(v, b, letbase) + s == DigitsOf(Quot(v, b), b, letbase) + ([DigitChar(Rem(v, b), letbase)] + s)
  {
    DivMod(v, b);
    var q := Quot(v, b);
    var d := [DigitChar(Rem(v, b), letbase)];
    var prefix := if v < b then "" else ToBase(q, b, letbase);
    assert ToBase(v, b, letbase) == prefix + d;
    assert prefix == DigitsOf(q, b, letbase);
    assert (prefix + d) + s == prefix + (d + s);
  }

  /** Reading back an unpadded signed decimal gives the value. */
  lemma SignedDecimalRoundTrip(i: int)
    requires IsLong(i)
    ensures var s := IntText(i, 10, true, 0, Pad(false, false), 'a');
            if i < 0 then |s| > 1 && s[0] == '-' && FromBase(s[1..], 10, 'a') == -i
            else |s| > 0 && s[0] != '-' && FromBase(s, 10, 'a') == i
  {
    if i < 0 {
      NegativeDecimalRoundTrip(i);
    } else if i > 0 {
      PositiveDecimalRoundTrip(i);
    } else {
      UnpaddedIsText("0");
    }
  }

  lemma NegativeDecimalRoundTrip(i: int)
    requires IsLong(i) && i < 0
    ensures var s := IntText(i, 10, true, 0, Pad(false, false), 'a');
            |s| > 1 && s[0] == '-' && FromBase(s[1..], 10, 'a') == -i
  {
    var d := UnpaddedDigits(i, 10, true);
    assert ("-" + d)[1..] == d;
    ToBaseRoundTrip(-i, 10, 'a');
  }

  lemma PositiveDecimalRoundTrip(i: int)
    requires IsLong(i) && i > 0
    ensures var s := IntText(i, 10, true, 0, Pad(false, false), 'a');
            |s| > 0 && s[0] != '-' && FromBase(s, 10, 'a') == i
  {
    var d := UnpaddedDigits(i, 10, true);
    ToBaseRoundTrip(i, 10, 'a');
    assert 0 <= DigitValue(d[0], 'a');
  }

  /** Without width or flags, `printi` writes the sign, if any, and the digits: nothing else. */
  lemma UnpaddedDigits(i: int, b: int, sg: bool) returns (d: string)
    requires Conversion(b, 'a') && IsLong(i) && i != 0
    ensures AllDigits(d, b, 'a')
    ensures sg && b == 10 && i < 0 ==> d == ToBase(-i, 10, 'a') && IntText(i, b, sg, 0, Pad(false, false), 'a') == "-" + d
    ensures !(sg && b == 10 && i < 0) ==> d == ToBase(Unsigned(i), b, 'a') && IntText(i, b, sg, 0, Pad(false, false), 'a') == d
  {
    if sg && b == 10 && i < 0 {
      d := ToBase(-i, 10, 'a');
      ToBaseDigits(-i, 10, 'a');
      NoNul(d, 10, 'a');
      assert '\0' !in "-" + d;
      UnpaddedIsText("-" + d);
    } else {
      d := ToBase(Unsigned(i), b, 'a');
      ToBaseDigits(Unsigned(i), b, 'a');
      NoNul(d, b, 'a');
      UnpaddedIsText(d);
    }
  }

  /** Digit strings hold no NUL. */
  lemma NoNul(d: string, b: nat, letbase: char)
    requires letbase == 'a' || letbase == 'A'
    requires AllDigits(d, b, letbase)
    ensures '\0' !in d
  {
  }

  /** Without a width, `prints` writes its string unchanged. */
  lemma UnpaddedIsText(text: string)
    requires '\0' !in text
    ensures Padded(text, 0, Pad(false, false)) == text
  {
    assert StrLen(text) == |text|;
  }

  // ---------------------------------------------------------------------
  // printi as written: `u` is a signed `long`

  /** C's `%` on `long`: the remainder takes the sign of the dividend. */
  function CRem(u: int, b: int): (t: int)
    requires Base(b)
    ensures -b < t < b
    ensures u >= 0 ==> t == Rem(u, b)
  {
    DivMod(if u >= 0 then u else -u, b);
    if u >= 0 then Rem(u, b) as int else -(Rem(-u, b) as int)
  }

  /** C's `/` on `long`: the quotient is truncated toward zero. */
  function CDiv(u: int, b: int): (q: int)
    requires Base(b)
    ensures u > 0 ==> 0 <= q < u
    ensures u < 0 ==> u < q <= 0
    ensures u >= 0 ==> q == Quot(u, b)
  {
    DivMod(if u >= 0 then u else -u, b);
    if u >= 0 then Quot(u, b) as int else -(Quot(-u, b) as int)
  }

  /** C's division pair is exact: `u == (u / b) * b + u % b`, whatever the sign of `u`. */
  lemma CDivRem(u: int, b: int)
    requires Base(b)
    ensures u == Scale(CDiv(u, b), b) + CRem(u, b)
    ensures u < 0 ==> CRem(u, b) <= 0
  {
    DivMod(if u >= 0 then u else -u, b);
  }

  /** The `while (u)` loop of `printi` run on the signed value, as the code does for 'x', 'X' and 'u'. */
  function DigitsAsWritten(u: int, b: int, letbase: char): string
    requires Conversion(b, letbase)
    decreases if u >= 0 then u else -u
  {
    if u == 0 then ""
    else
      var t := CRem(u, b);
      var c := if t >= 10 then (letbase as int + t - 10) as char else ('0' as int + t) as char;
      DigitsAsWritten(CDiv(u, b), b, letbase) + [c]
  }

  /** `-i` in 32-bit two's complement arithmetic: LONG_MIN negates to itself. */
  function NegLong(i: int): (r: int)
    requires IsLong(i)
    ensures IsLong(r)
    ensures r == -i || (i == LongMin && r == i)
  {
    if i == LongMin then LongMin else -i
  }

  /**
   * `printi` exactly as written: a negative value given to 'x', 'X' or 'u'
   * is not converted to unsigned, and `u = -i` wraps for LONG_MIN.
   */
  function PrintiAsWritten(i: int, b: int, sg: bool, width: int, pad: Pad, letbase: char): (r: string)
    requires Conversion(b, letbase) && IsLong(i)
    ensures i >= 0 ==> r == IntText(i, b, sg, width, pad, letbase)
  {
    if i == 0 then Padded("0", width, pad)
    else if sg && b == 10 && i < 0 then
      var d := DigitsAsWritten(NegLong(i), 10, letbase);
      if width != 0 && pad.zero then "-" + Padded(d, width - 1, pad) else Padded("-" + d, width, pad)
    else
      var d := DigitsAsWritten(i, b, letbase);
      assert i > 0 ==> d == ToBase(i, b, letbase) by {
        if i > 0 {
          DigitsAsWrittenPositive(i, b, letbase);
        }
      }
      Padded(d, width, pad)
  }

  /** On non-negative values the loop as written produces the base-`b` digits. */
  lemma {:induction false} DigitsAsWrittenPositive(u: nat, b: int, letbase: char)
    requires u > 0 && Conversion(b, letbase)
    ensures DigitsAsWritten(u, b, letbase) == ToBase(u, b, letbase)
    decreases u
  {
    var q := Quot(u, b);
    DivMod(u, b);
    if u >= b {
      DigitsAsWrittenPositive(q, b, letbase);
    } else {
      assert DigitsAsWritten(q, b, letbase) == "";
    }
  }

  /**
   * The written `printi` and the corrected one differ only on negative
   * values given to an unsigned conversion and on LONG_MIN under `%d`.
   */
  lemma PrintiAgreesElsewhere(i: int, b: int, sg: bool, width: int, pad: Pad, letbase: char)
    requires Conversion(b, letbase) && IsLong(i)
    requires i >= 0 || (sg && b == 10 && i != LongMin)
    ensures PrintiAsWritten(i, b, sg, width, pad, letbase) == IntText(i, b, sg, width, pad, letbase)
  {
    if i > 0 {
      DigitsAsWrittenPositive(i, b, letbase);
    } else if i < 0 {
      DigitsAsWrittenPositive(-i, 10, letbase);
    }
  }

  /**
   * `sprintf(buf, "%d", LONG_MIN)` as written: `-i` wraps back to LONG_MIN,
   * the truncating remainders are all negative and each digit comes out
   * below '0'.  The corrected `printi` writes "-2147483648".
   */
  lemma LongMinAsWritten()
    ensures PrintiAsWritten(LongMin, 10, true, 0, Pad(false, false), 'a') == "-./,),(-*,("
    ensures IntText(LongMin, 10, true, 0, Pad(false, false), 'a') == "-2147483648"
  {
    LongMinDigitsAsWritten();
    NegativeUnpaddedAsWritten(LongMin, "./,),(-*,(");
    LongMinDigits();
    var d := UnpaddedDigits(LongMin, 10, true);
  }

  /** Unpadded `%d` of a negative value as written: '-' and then the digit loop run on `-i` as wrapped. */
  lemma NegativeUnpaddedAsWritten(i: int, d: string)
    requires IsLong(i) && i < 0 && DigitsAsWritten(NegLong(i), 10, 'a') == d && '\0' !in d
    ensures PrintiAsWritten(i, 10, true, 0, Pad(false, false), 'a') == "-" + d
  {
    assert '\0' !in "-" + d;
    UnpaddedIsText("-" + d);
  }

  /** The as-written digit loop on LONG_MIN, one remainder at a time. */
  lemma LongMinDigitsAsWritten()
    ensures DigitsAsWritten(LongMin, 10, 'a') == "./,),(-*,("
  {
    assert DigitsAsWritten(-2, 10, 'a') == "." by {
      assert CDiv(-2, 10) == 0 && CRem(-2, 10) == -2;
      assert DigitsAsWritten(0, 10, 'a') == "";
    }
    assert DigitsAsWritten(-21, 10, 'a') == "./" by { assert CDiv(-21, 10) == -2 && CRem(-21, 10) == -1; }
    assert DigitsAsWritten(-214, 10, 'a') == "./," by { assert CDiv(-214, 10) == -21 && CRem(-214, 10) == -4; }
    assert DigitsAsWritten(-2147, 10, 'a') == "./,)" by { assert CDiv(-2147, 10) == -214 && CRem(-2147, 10) == -7; }
    assert DigitsAsWritten(-21474, 10, 'a') == "./,)," by { assert CDiv(-21474, 10) == -2147 && CRem(-21474, 10) == -4; }
    assert DigitsAsWritten(-214748, 10, 'a') == "./,),(" by { assert CDiv(-214748, 10) == -21474 && CRem(-214748, 10) == -8; }
    assert DigitsAsWritten(-2147483, 10, 'a') == "./,),(-" by { assert CDiv(-2147483, 10) == -214748 && CRem(-2147483, 10) == -3; }
    assert DigitsAsWritten(-21474836, 10, 'a') == "./,),(-*" by { assert CDiv(-21474836, 10) == -2147483 && CRem(-21474836, 10) == -6; }
    assert DigitsAsWritten(-214748364, 10, 'a') == "./,),(-*," by { assert CDiv(-214748364, 10) == -21474836 && CRem(-214748364, 10) == -4; }
    assert CDiv(LongMin, 10) == -214748364 && CRem(LongMin, 10) == -8;
  }

  /** The decimal digits of 2^31, one digit at a time. */
  lemma LongMinDigits()
    ensures ToBase(2147483648, 10, 'a') == "2147483648"
  {
    assert ToBase(2, 10, 'a') == "2";
    assert ToBase(21, 10, 'a') == "21";
    assert ToBase(214, 10, 'a') == "214";
    assert ToBase(2147, 10, 'a') == "2147";
    assert ToBase(21474, 10, 'a') == "21474";
    assert ToBase(214748, 10, 'a') == "214748";
    assert ToBase(2147483, 10, 'a') == "2147483";
    assert ToBase(21474836, 10, 'a') == "21474836";
    assert ToBase(214748364, 10, 'a') == "214748364";
  }

  /** `sprintf(buf, "%x", -1)` as written yields "/", where "ffffffff" is meant. */
  lemma NegativeHexAsWritten()
    ensures PrintiAsWritten(-1, 16, false, 0, Pad(false, false), 'a') == "/"
    ensures IntText(-1, 16, false, 0, Pad(false, false), 'a') == "ffffffff"
  {
    assert DigitsAsWritten(-1, 16, 'a') == "/" by {
      assert CDiv(-1, 16) == 0 && CRem(-1, 16) == -1;
      assert DigitsAsWritten(0, 16, 'a') == "";
    }
    UnpaddedIsText("/");
    HexAllOnes();
    UnpaddedIsText("ffffffff");
  }

  /** The hexadecimal digits of 2^32 - 1, one digit at a time. */
  lemma HexAllOnes()
    ensures ToBase(0xFFFF_FFFF, 16, 'a') == "ffffffff"
  {
    assert ToBase(0xF, 16, 'a') == "f";
    assert ToBase(0xFF, 16, 'a') == "ff";
    assert ToBase(0xFFF, 16, 'a') == "fff";
    assert ToBase(0xFFFF, 16, 'a') == "ffff";
    assert ToBase(0xF_FFFF, 16, 'a') == "fffff";
    assert ToBase(0xFF_FFFF, 16, 'a') == "ffffff";
    assert ToBase(0xFFF_FFFF, 16, 'a') == "fffffff";
  }

  /** The corrected unsigned conversion reads back to the value modulo 2^32. */
  lemma UnsignedRoundTrip(i: int, b: int, letbase: char)
    requires Conversion(b, letbase) && IsLong(i) && i != 0
    ensures FromBase(IntText(i, b, false, 0, Pad(false, false), letbase), b, letbase) % 0x1_0000_0000
            == i % 0x1_0000_0000
  {
    var d := ToBase(Unsigned(i), b, letbase);
    ToBaseDigits(Unsigned(i), b, letbase);
    NoNul(d, b, letbase);
    UnpaddedIsText(d);
    ToBaseRoundTrip(Unsigned(i), b, letbase);
  }

  // ---------------------------------------------------------------------
  // print / sprintf

  /** One argument passed through `...`: a `char *` (possibly NULL), a `long`, or an `int` holding a character. */
  datatype Arg = StrArg(s: Option<string>) | IntArg(i: int) | CharArg(c: char)

  /** What formatting produces: the characters written, or nothing C defines. */
  datatype Outcome = Written(text: string) | Undefined

  function Prepend(s: string, o: Outcome): (r: Outcome)
    ensures r.Written? <==> o.Written?
    ensures r.Written? ==> r.text == s + o.text
  {
    match o
    case Written(t) => Written(s + t)
    case Undefined => Undefined
  }

  predicate IsDigit(c: char)
  {
    '0' <= c <= '9'
  }

  /** The first index at or after `j` that does not hold '0' (the `while (*format == '0')` loop). */
  function SkipZeros(r: string, j: nat): (k: nat)
    requires j <= |r|
    ensures j <= k <= |r|
    ensures forall i :: j <= i < k ==> r[i] == '0'
    ensures k < |r| ==> r[k] != '0'
    decreases |r| - j
  {
    if j == |r| || r[j] != '0' then j else SkipZeros(r, j + 1)
  }

  /** The first index at or after `j` that does not hold a decimal digit (the width loop). */
  function SkipDigits(r: string, j: nat): (k: nat)
    requires j <= |r|
    ensures j <= k <= |r|
    ensures forall i :: j <= i < k ==> IsDigit(r[i])
    ensures k < |r| ==> !IsDigit(r[k])
    decreases |r| - j
  {
    if j == |r| || !IsDigit(r[j]) then j else SkipDigits(r, j + 1)
  }

  /** The value of a string of decimal digits, read most significant first. */
  function Decimal(s: string): nat
    requires forall i :: 0 <= i < |s| ==> IsDigit(s[i])
  {
    if |s| == 0 then 0
    else
      assert IsDigit(s[|s| - 1]);
      Decimal(s[..|s| - 1]) * 10 + (s[|s| - 1] as int - '0' as int)
  }

  /** The flags, width and conversion character that follow a '%'. */
  datatype Directive = Directive(pad: Pad, width: nat, conv: char, next: nat)

  /**
   * Parses the text after a '%' that is not "%%": an optional '-'
   * (PAD_RIGHT), any '0's (PAD_ZERO), decimal width digits, then one
   * conversion character.  There is no meaning when the format ends before the
   * conversion character (the loop steps past the NUL) or when the width
   * overflows `int`.  `next` is the length consumed.
   */
  function ParseDirective(r: string): (d: Option<Directive>)
    requires |r| > 0
    ensures d.Some? ==> 1 <= d.value.next <= |r| && d.value.conv == r[d.value.next - 1]
    ensures d.Some? ==> d.value.width <= LongMax
  {
    var right := r[0] == '-';
    var j0 := if right then 1 else 0;
    var j1 := SkipZeros(r, j0);
    var j2 := SkipDigits(r, j1);
    var width := Decimal(r[j1..j2]);
    if j2 == |r| || width > LongMax then None
    else Some(Directive(Pad(right, j1 > j0), width, r[j2], j2 + 1))
  }

  /** The text one directive writes for its argument, or None when the argument does not fit the conversion. */
  function Convert(d: Directive, a: Arg): Option<string>
  {
    match d.conv
    case 's' =>
      if a.StrArg? then Some(Padded(if a.s.Some? then a.s.value else "(null)", d.width, d.pad)) else None
    case 'c' =>
      if a.CharArg? then Some(Padded([a.c], d.width, d.pad)) else None
    case 'd' => IntConvert(d, a, 10, true, 'a')
    case 'x' => IntConvert(d, a, 16, false, 'a')
    case 'X' => IntConvert(d, a, 16, false, 'A')
    case 'u' => IntConvert(d, a, 10, false, 'a')
    case _ => None
  }

  function IntConvert(d: Directive, a: Arg, b: int, sg: bool, letbase: char): Option<string>
    requires Conversion(b, letbase)
  {
    if a.IntArg? && IsLong(a.i) then Some(IntText(a.i, b, sg, d.width, d.pad, letbase)) else None
  }

  /** The conversion characters that take an argument. */
  predicate TakesArg(c: char)
  {
    c == 's' || c == 'c' || c == 'd' || c == 'x' || c == 'X' || c == 'u'
  }

  /**
   * What `print` writes for the format text `t` (the format up to its NUL)
   * and the arguments: ordinary characters are copied, "%%" writes '%', a
   * lone '%' at the end stops, an unknown conversion character is dropped
   * without taking an argument.
   */
  function Render(t: string, args: seq<Arg>): (r: Outcome)
    ensures |t| <= 1 ==> r == Written(if t == "%" then "" else t)
    decreases |t|, 1
  {
    if |t| == 0 then Written("")
    else if t[0] != '%' then Prepend([t[0]], Render(t[1..], args))
    else if |t| == 1 then Written("")
    else if t[1] == '%' then Prepend("%", Render(t[2..], args))
    else RenderDirectiveCase(t, args)
  }

  /** A '%' followed by a directive: its conversion of the next argument, then the rest. */
  function RenderDirectiveCase(t: string, args: seq<Arg>): Outcome
    requires |t| > 1 && t[0] == '%'
    decreases |t|, 0
  {
    match ParseDirective(t[1..])
    case None => Undefined
    case Some(d) =>
      var rest := t[1 + d.next..];
      if !TakesArg(d.conv) then Render(rest, args)
      else if |args| == 0 then Undefined
      else match Convert(d, args[0])
        case None => Undefined
        case Some(x) => Prepend(x, Render(rest, args[1..]))
  }

  /**
   * `sprintf(out, format, ...)` through `print`: the buffer receives the
   * rendered text and a NUL, and the count excludes the NUL.
   */
  method Sprintf(format: string, args: seq<Arg>) returns (buf: string, pc: int)
    requires Render(CStr(format), args).Written?
    ensures buf == Render(CStr(format), args).text + ['\0']
    ensures pc == |buf| - 1
  {
    var t := EmitString(format);
    var k := 0;
    var a := 0;
    buf := "";
    pc := 0;
    while k < |t|
      invariant 0 <= k <= |t| && 0 <= a <= |args|
      invariant Render(t[k..], args[a..]).Written?
      invariant Render(t, args).text == buf + Render(t[k..], args[a..]).text
      invariant pc == |buf|
      decreases |t| - k
    {
      var piece, k', a' := PrintStep(t, k, args, a);
      buf := buf + piece;
      pc := pc + |piece|;
      k, a := k', a';
    }
    buf := buf + ['\0'];
  }

  /** One pass of the `for (; *format != 0; ++format)` loop of `print`, starting at `t[k]`. */
  method PrintStep(t: string, k: nat, args: seq<Arg>, a: nat) returns (piece: string, k': nat, a': nat)
    requires k < |t| && a <= |args| && Render(t[k..], args[a..]).Written?
    ensures k < k' <= |t| && a <= a' <= |args|
    ensures Render(t[k'..], args[a'..]).Written?
    ensures Render(t[k..], args[a..]).text == piece + Render(t[k'..], args[a'..]).text
  {
    ghost var r := t[k..];
    if t[k] != '%' {
      RenderChar(r, args[a..]);
      assert r[1..] == t[k + 1..];
      piece, k', a' := [t[k]], k + 1, a;
    } else if k + 1 == |t| {
      piece, k', a' := "", |t|, a;
    } else if t[k + 1] == '%' {
      RenderPercent(r, args[a..]);
      assert r[2..] == t[k + 2..];
      piece, k', a' := "%", k + 2, a;
    } else {
      piece, k', a' := DirectiveStep(t, k, args, a);
    }
  }

  /** The `if (*format == '%')` branch of `print` when a directive follows: parse it and convert its argument. */
  method DirectiveStep(t: string, k: nat, args: seq<Arg>, a: nat) returns (piece: string, k': nat, a': nat)
    requires k + 1 < |t| && t[k] == '%' && t[k + 1] != '%'
    requires a <= |args| && Render(t[k..], args[a..]).Written?
    ensures k < k' <= |t| && a <= a' <= |args|
    ensures Render(t[k'..], args[a'..]).Written?
    ensures Render(t[k..], args[a..]).text == piece + Render(t[k'..], args[a'..]).text
  {
    DirectiveParses(t, k, args, a);
    var d := ParseDirective(t[k + 1..]).value;
    k' := k + 1 + d.next;
    if TakesArg(d.conv) {
      DirectiveWithArgAt(t, k, args, a, d);
      piece, a' := Convert(d, args[a]).value, a + 1;
    } else {
      DirectiveWithoutArgAt(t, k, args, a, d);
      piece, a' := "", a;
    }
  }

  /** A directive the output depends on parses. */
  lemma DirectiveParses(t: string, k: nat, args: seq<Arg>, a: nat)
    requires k + 1 < |t| && t[k] == '%' && t[k + 1] != '%'
    requires a <= |args| && Render(t[k..], args[a..]).Written?
    ensures ParseDirective(t[k + 1..]).Some?
  {
    var r := t[k..];
    assert r[1..] == t[k + 1..];
    RenderDirective(r, args[a..]);
  }

  /** At position `k`, a directive taking an argument writes the conversion of argument `a`. */
  lemma DirectiveWithArgAt(t: string, k: nat, args: seq<Arg>, a: nat, d: Directive)
    requires k + 1 < |t| && t[k] == '%' && t[k + 1] != '%'
    requires a <= |args| && Render(t[k..], args[a..]).Written?
    requires ParseDirective(t[k + 1..]) == Some(d) && TakesArg(d.conv)
    ensures a < |args| && Convert(d, args[a]).Some?
    ensures Render(t[k + 1 + d.next..], args[a + 1..]).Written?
    ensures Render(t[k..], args[a..]).text == Convert(d, args[a]).value + Render(t[k + 1 + d.next..], args[a + 1..]).text
  {
    var r := t[k..];
    var xs := args[a..];
    assert r[1..] == t[k + 1..];
    RenderDirective(r, xs);
    assert r[1 + d.next..] == t[k + 1 + d.next..];
    assert xs[1..] == args[a + 1..];
    assert xs[0] == args[a];
  }

  /** At position `k`, an unknown conversion character writes nothing and takes no argument. */
  lemma DirectiveWithoutArgAt(t: string, k: nat, args: seq<Arg>, a: nat, d: Directive)
    requires k + 1 < |t| && t[k] == '%' && t[k + 1] != '%'
    requires a <= |args| && Render(t[k..], args[a..]).Written?
    requires ParseDirective(t[k + 1..]) == Some(d) && !TakesArg(d.conv)
    ensures Render(t[k..], args[a..]) == Render(t[k + 1 + d.next..], args[a..])
  {
    var r := t[k..];
    assert r[1..] == t[k + 1..];
    RenderDirective(r, args[a..]);
    assert r[1 + d.next..] == t[k + 1 + d.next..];
  }

  /** An ordinary character is copied. */
  lemma RenderChar(r: string, args: seq<Arg>)
    requires |r| > 0 && r[0] != '%' && Render(r, args).Written?
    ensures Render(r[1..], args).Written?
    ensures Render(r, args).text == [r[0]] + Render(r[1..], args).text
  {
  }

  /** "%%" writes one '%'. */
  lemma RenderPercent(r: string, args: seq<Arg>)
    requires |r| > 1 && r[0] == '%' && r[1] == '%' && Render(r, args).Written?
    ensures Render(r[2..], args).Written?
    ensures Render(r, args).text == "%" + Render(r[2..], args).text
  {
  }

  /** A directive writes its conversion of the next argument, or nothing for an unknown conversion character. */
  lemma RenderDirective(r: string, args: seq<Arg>)
    requires |r| > 1 && r[0] == '%' && r[1] != '%' && Render(r, args).Written?
    ensures ParseDirective(r[1..]).Some?
    ensures var d := ParseDirective(r[1..]).value;
            if TakesArg(d.conv) then
              && |args| > 0 && Convert(d, args[0]).Some?
              && Render(r[1 + d.next..], args[1..]).Written?
              && Render(r, args).text == Convert(d, args[0]).value + Render(r[1 + d.next..], args[1..]).text
            else
              Render(r, args) == Render(r[1 + d.next..], args)
  {
  }

  /** A format without '%' is copied unchanged, whatever the arguments. */
  lemma {:induction false} PlainFormatCopied(t: string, args: seq<Arg>)
    requires '%' !in t
    ensures Render(t, args) == Written(t)
    decreases |t|
  {
    if |t| > 0 {
      assert '%' !in t[1..];
      PlainFormatCopied(t[1..], args);
      assert [t[0]] + t[1..] == t;
    }
  }

  /** "%d" renders a `long` so that it reads back to the value. */
  lemma DecimalDirectiveRoundTrip(i: int)
    requires IsLong(i)
    ensures Render("%d", [IntArg(i)]).Written?
    ensures var s := Render("%d", [IntArg(i)]).text;
            if i < 0 then |s| > 1 && s[0] == '-' && FromBase(s[1..], 10, 'a') == -i
            else |s| > 0 && FromBase(s, 10, 'a') == i
  {
    var d := ParseDirective("d");
    assert d == Some(Directive(Pad(false, false), 0, 'd', 1));
    assert "%d"[2..] == "";
    var x := IntText(i, 10, true, 0, Pad(false, false), 'a');
    assert Render("%d", [IntArg(i)]) == Prepend(x, Render("", []));
    assert x + "" == x;
    SignedDecimalRoundTrip(i);
  }

  /** A NULL string argument prints "(null)". */
  lemma NullStringDirective()
    ensures Render("%s", [StrArg(None)]) == Written("(null)")
  {
    assert ParseDirective("s") == Some(Directive(Pad(false, false), 0, 's', 1));
    UnpaddedIsText("(null)");
  }
}

=== FILE: ring_buffer.dfy ===
/**
 * The MSP430 string ring buffer: ten slots of twenty bytes each, filled by
 * the UART receive interrupt and drained by the main loop.  Each slot holds
 * a NUL-terminated C string copied in with `strcpy`.
 *
 * The buffer keeps one slot free to tell "full" from "empty", so it holds at
 * most nine strings; `Queue` is the abstract FIFO the two operations refine.
 */
module RingBuffer {
  import opened Types

  /** Bytes per slot, `MAX_INDEX_RING_BUFFER`. */
  const SlotSize: nat := 20
  /** Number of slots, `MAX_RING_BUFFER`. */
  const SlotCount: nat := 10

  /** The `ringBufferStatus` enumeration. */
  datatype Status = Ok | Full | Empty | HasData

  /** Index of the first NUL byte of `s`, or `|s|` when there is none. */
  function NulIndex(s: seq<Byte>): (n: nat)
    ensures n <= |s|
    ensures forall i :: 0 <= i < n ==> s[i] != 0
    ensures n < |s| ==> s[n] == 0
  {
    if |s| == 0 then 0
    else if s[0] == 0 then 0
    else 1 + NulIndex(s[1..])
  }

  /** The first NUL is unique: any index with a NUL and no NUL before it is the NUL index. */
  lemma NulIndexUnique(s: seq<Byte>, n: nat)
    requires n < |s| && s[n] == 0
    requires forall i :: 0 <= i < n ==> s[i] != 0
    ensures NulIndex(s) == n
  {
  }

  /** A buffer holds a C string of fewer than `cap` characters (its NUL fits). */
  predicate Terminated(s: seq<Byte>, cap: nat)
  {
    NulIndex(s) < |s| && NulIndex(s) < cap
  }

  /** The C string a buffer holds: the bytes before its first NUL. */
  function CString(s: seq<Byte>): (r: seq<Byte>)
    ensures r <= s
    ensures forall i :: 0 <= i < |r| ==> r[i] != 0
    ensures |r| < |s| ==> s[|r|] == 0
  {
    s[..NulIndex(s)]
  }

  /**
   * `strcpy(dst, src)`: the bytes of `src` up to and including its NUL
   * overwrite the start of `dst`; the bytes after the copied NUL keep their
   * old values.
   */
  function StrCopy(dst: seq<Byte>, src: seq<Byte>): (r: seq<Byte>)
    requires NulIndex(src) < |src| && NulIndex(src) < |dst|
    ensures |r| == |dst|
    ensures CString(r) == CString(src)
    ensures r[NulIndex(src) + 1..] == dst[NulIndex(src) + 1..]
  {
    var n := NulIndex(src);
    var r := src[..n + 1] + dst[n + 1..];
    NulIndexUnique(r, n);
    r
  }

  /** The buffer record: slots, write index `head`, read index `tail`. */
  datatype Ring = Ring(buffer: seq<seq<Byte>>, head: nat, tail: nat)

  predicate Valid(c: Ring)
  {
    && |c.buffer| == SlotCount
    && (forall i :: 0 <= i < |c.buffer| ==> |c.buffer[i]| == SlotSize)
    && c.head < SlotCount
    && c.tail < SlotCount
  }

  /** The zero-initialised global buffer. */
  function Initial(): (c: Ring)
    ensures Valid(c)
    ensures Queue(c) == []
  {
    Ring(seq(SlotCount, _ => seq(SlotSize, _ => 0)), 0, 0)
  }

  /** `i + 1` wrapped to 0 at `MAX_RING_BUFFER`. */
  function Advance(i: nat): (j: nat)
    requires i < SlotCount
    ensures j < SlotCount
    ensures j == (i + 1) % SlotCount
  {
    if i + 1 >= SlotCount then 0 else i + 1
  }

  /** Number of strings between `tail` and `head`. */
  function Count(c: Ring): nat
    requires Valid(c)
  {
    if c.head >= c.tail then c.head - c.tail else c.head + SlotCount - c.tail
  }

  /** Slot of the `k`-th oldest stored string. */
  function SlotOf(c: Ring, k: nat): (s: nat)
    requires Valid(c) && k < SlotCount
    ensures s < SlotCount
  {
    if c.tail + k < SlotCount then c.tail + k else c.tail + k - SlotCount
  }

  /** The abstract queue the buffer represents, oldest string first. */
  function Queue(c: Ring): (q: seq<seq<Byte>>)
    requires Valid(c)
    ensures |q| == Count(c) && |q| < SlotCount
  {
    seq(Count(c), k requires 0 <= k < Count(c) => CString(c.buffer[SlotOf(c, k)]))
  }

  /**
   * `ringBufferPush`: refuses with FULL, changing nothing, when nine strings
   * are stored; otherwise copies `data` into slot `head` and advances it.
   * `strcpy` is unbounded, so a string that is copied must end within a slot.
   */
  function Push(c: Ring, data: seq<Byte>): (r: (Ring, Status))
    requires Valid(c)
    requires Advance(c.head) != c.tail ==> Terminated(data, SlotSize)
    ensures Valid(r.0)
    ensures r.1 == Ok || r.1 == Full
    ensures r.1 == Full <==> Count(c) == SlotCount - 1
    ensures r.1 == Full ==> r.0 == c
    ensures r.1 == Ok ==> Queue(r.0) == Queue(c) + [CString(data)]
  {
    var next := Advance(c.head);
    if next == c.tail then (c, Full)
    else
      var c' := c.(buffer := c.buffer[c.head := StrCopy(c.buffer[c.head], data)], head := next);
      PushQueue(c, data, c');
      (c', Ok)
  }

  lemma PushQueue(c: Ring, data: seq<Byte>, c': Ring)
    requires Valid(c) && Advance(c.head) != c.tail && Terminated(data, SlotSize)
    requires c' == c.(buffer := c.buffer[c.head := StrCopy(c.buffer[c.head], data)], head := Advance(c.head))
    ensures Valid(c')
    ensures Queue(c') == Queue(c) + [CString(data)]
  {
    assert Count(c') == Count(c) + 1;
    forall k | 0 <= k < Count(c)
      ensures SlotOf(c', k) != c.head
    {
    }
    assert SlotOf(c', Count(c)) == c.head;
  }

  /**
   * `ringBufferPop`: on an empty buffer the output is the empty string and
   * nothing changes; otherwise the oldest string is returned and `tail`
   * advances.  The HAS_DATA status is never produced.
   */
  function Pop(c: Ring): (r: (Ring, seq<Byte>, Status))
    requires Valid(c)
    ensures Valid(r.0)
    ensures r.2 == Ok || r.2 == Empty
    ensures r.2 == Empty <==> Queue(c) == []
    ensures r.2 == Empty ==> r.0 == c && r.1 == []
    ensures r.2 == Ok ==> r.1 == Queue(c)[0] && Queue(r.0) == Queue(c)[1..]
  {
    var next := Advance(c.tail);
    if c.head == c.tail then (c, CString(seq(SlotSize, _ => 0)), Empty)
    else
      var c' := c.(tail := next);
      assert Count(c') == Count(c) - 1;
      assert forall k :: 0 <= k < Count(c') ==> SlotOf(c', k) == SlotOf(c, k + 1);
      (c', CString(c.buffer[c.tail]), Ok)
  }

  /** One call on the buffer: a push from the receive interrupt or a pop from the main loop. */
  datatype Op = PushOp(data: seq<Byte>) | PopOp

  /** Every string pushed by `ops` ends within a slot. */
  predicate WellFormed(ops: seq<Op>)
  {
    forall i :: 0 <= i < |ops| ==> ops[i].PushOp? ==> Terminated(ops[i].data, SlotSize)
  }

  /** Runs `ops` on the buffer, collecting what each pop returns. */
  function Run(c: Ring, ops: seq<Op>): (r: (Ring, seq<seq<Byte>>))
    requires Valid(c) && WellFormed(ops)
    ensures Valid(r.0)
    decreases |ops|
  {
    if |ops| == 0 then (c, [])
    else match ops[0]
      case PushOp(d) =>
        Run(Push(c, d).0, ops[1..])
      case PopOp =>
        var p := Pop(c);
        var rest := Run(p.0, ops[1..]);
        (rest.0, [p.1] + rest.1)
  }

  /** A first-in first-out queue of at most nine strings: a push onto a full queue is dropped, a pop of an empty one yields "". */
  function QueueRun(q: seq<seq<Byte>>, ops: seq<Op>): seq<seq<Byte>>
    decreases |ops|
  {
    if |ops| == 0 then []
    else match ops[0]
      case PushOp(d) =>
        QueueRun(if |q| == SlotCount - 1 then q else q + [CString(d)], ops[1..])
      case PopOp =>
        if q == [] then [[]] + QueueRun(q, ops[1..])
        else [q[0]] + QueueRun(q[1..], ops[1..])
  }

  /** Any sequence of pushes and pops returns exactly what the bounded FIFO queue returns. */
  lemma {:induction false} RunIsFifo(c: Ring, ops: seq<Op>)
    requires Valid(c) && WellFormed(ops)
    ensures Run(c, ops).1 == QueueRun(Queue(c), ops)
    decreases |ops|
  {
    if |ops| > 0 {
      assert WellFormed(ops[1..]) by {
        forall i | 0 <= i < |ops[1..]| ensures ops[1..][i] == ops[i + 1] { }
      }
      match ops[0]
      case PushOp(d) =>
        RunIsFifo(Push(c, d).0, ops[1..]);
      case PopOp =>
        RunIsFifo(Pop(c).0, ops[1..]);
    }
  }
}

=== FILE: sensor_app.dfy ===
/**
 * The sensor application's message handling: MSDU-handle allocation,
 * data-confirm statistics, the config request and its response, the
 * sensor-data message layout, and the data-indication dispatch.
 *
 * The message header `smsgs.h` is not part of this model: command
 * identifiers, data-field bits, status values and field lengths are the
 * values below, and each field length is the number of bytes the encoder
 * writes for it.
 */
module SensorApp {
  import opened Types
  import opened Bytes
  import Ssf

  // ---------------------------------------------------------------------
  // Message constants

  /** `Smsgs_cmdIds_t`. */
  const CmdConfigReq: Byte := 1
  const CmdConfigRsp: Byte := 2
  const CmdTrackingReq: Byte := 3
  const CmdTrackingRsp: Byte := 4
  const CmdSensorData: Byte := 5
  const CmdToggleLedReq: Byte := 6
  const CmdToggleLedRsp: Byte := 7

  /** `Smsgs_dataFields_t`: the fields a frame control selects, bits 0x01 to 0x10 in this order. */
  datatype Field = FieldTemp | FieldLight | FieldHumidity | FieldMsgStats | FieldConfig

  /** Whether the frame control `x` has the bit of field `f` set. */
  predicate Has(x: int, f: Field)
  {
    match f
    case FieldTemp => x % 2 == 1
    case FieldLight => x / 2 % 2 == 1
    case FieldHumidity => x / 4 % 2 == 1
    case FieldMsgStats => x / 8 % 2 == 1
    case FieldConfig => x / 16 % 2 == 1
  }

  /** Request and response lengths. */
  const ConfigRequestLen: nat := 11
  const ConfigResponseLen: nat := 13
  const TrackingRequestLen: nat := 1
  const ToggleLedRequestLen: nat := 1

  /** `MIN_REPORTING_INTERVAL` .. `MAX_REPORTING_INTERVAL`, ms. */
  const MinReporting: nat := 1000
  const MaxReporting: nat := 360000
  /** `MIN_POLLING_INTERVAL` .. `MAX_POLLING_INTERVAL`, ms. */
  const MinPolling: nat := 1000
  const MaxPolling: nat := 10000

  /** A `uint16_t` statistic incremented with wrap-around. */
  function Inc(x: Uint16): (y: Uint16)
    ensures y == (x + 1) % 0x1_0000
  {
    if x == 0xFFFF then 0 else x + 1
  }

  // ---------------------------------------------------------------------
  // MSDU handles

  /** `MSDU_HANDLE_MAX`: the counter part runs 0 .. 0x1F. */
  const HandleMax: bv8 := 0x1F
  const AppMarker: bv8 := 0x80
  const AppMask: bv8 := 0x60
  const SensorMark: bv8 := 0x40
  const TrackRspMark: bv8 := 0x20
  const ConfigRspMark: bv8 := 0x60

  /** What an application MSDU handle says about the message it was issued for. */
  datatype Kind = SensorKind | TrackingKind | ConfigKind | OtherKind

  /** The kind a command identifier is tracked as. */
  function KindOf(cmd: Byte): Kind
  {
    if cmd == CmdSensorData then SensorKind
    else if cmd == CmdTrackingRsp then TrackingKind
    else if cmd == CmdConfigRsp then ConfigKind
    else OtherKind
  }

  /** The type bits `getMsduHandle` adds for a message type. */
  function TypeBits(cmd: Byte): (t: bv8)
    ensures t & AppMask == t
  {
    if cmd == CmdSensorData then SensorMark
    else if cmd == CmdTrackingRsp then TrackRspMark
    else if cmd == CmdConfigRsp then ConfigRspMark
    else 0
  }

  /**
   * How `dataCnfCB` reads a handle back: None when the application marker
   * is clear, otherwise the kind named by the masked type bits.
   */
  function HandleKind(h: bv8): Option<Kind>
  {
    if h & AppMarker == 0 then None
    else if h & AppMask == SensorMark then Some(SensorKind)
    else if h & AppMask == TrackRspMark then Some(TrackingKind)
    else if h & AppMask == ConfigRspMark then Some(ConfigKind)
    else Some(OtherKind)
  }

  /**
   * `getMsduHandle`: the current counter with the application marker and
   * the type bits added, and the counter advanced, rolling over to 0
   * after `MSDU_HANDLE_MAX`.
   */
  function GetMsduHandle(counter: bv8, cmd: Byte): (r: (bv8, bv8))
    ensures r.1 <= HandleMax
    ensures counter <= HandleMax ==> r.1 == (counter + 1) % (HandleMax + 1)
  {
    var next := if counter >= HandleMax then 0 else counter + 1;
    (counter | AppMarker | TypeBits(cmd), next)
  }

  /** A handle issued while the counter is in range reads back as its message's kind and its counter. */
  lemma HandleRoundTrip(counter: bv8, cmd: Byte)
    requires counter <= HandleMax
    ensures HandleKind(GetMsduHandle(counter, cmd).0) == Some(KindOf(cmd))
    ensures GetMsduHandle(counter, cmd).0 & HandleMax == counter
  {
    assert counter & AppMask == 0;
  }

  // ---------------------------------------------------------------------
  // Statistics and the data confirm

  /** `Smsgs_msgStatsField_t`. */
  datatype Stats = Stats(
    joinAttempts: Uint16, joinFails: Uint16, msgsAttempted: Uint16, msgsSent: Uint16,
    trackingRequests: Uint16, trackingResponseAttempts: Uint16, trackingResponseSent: Uint16,
    configRequests: Uint16, configResponseAttempts: Uint16, configResponseSent: Uint16,
    channelAccessFailures: Uint16, macAckFailures: Uint16, otherDataRequestFailures: Uint16,
    syncLossIndications: Uint16, rxDecryptFailures: Uint16, txEncryptFailures: Uint16)

  const ZeroStats: Stats := Stats(0, 0, 0, 0, 0, 0, 0, 0, 0, 0, 0, 0, 0, 0, 0, 0)

  /** The statistics in the order the sensor message carries them. */
  function StatsWords(s: Stats): (ws: seq<Uint16>)
    ensures |ws| == 16
  {
    [s.joinAttempts, s.joinFails, s.msgsAttempted, s.msgsSent,
     s.trackingRequests, s.trackingResponseAttempts, s.trackingResponseSent,
     s.configRequests, s.configResponseAttempts, s.configResponseSent,
     s.channelAccessFailures, s.macAckFailures, s.otherDataRequestFailures,
     s.syncLossIndications, s.rxDecryptFailures, s.txEncryptFailures]
  }

  /** The status of a MAC data confirm, as far as the sensor distinguishes it. */
  datatype MacStatus = Success | ChannelAccessFailure | NoAck | OtherFailure

  /** A configuration: `Smsgs_configReqMsg_t` as the sensor keeps it. */
  datatype Settings = Settings(cmdId: Byte, frameControl: Uint16, reportingInterval: Uint32, pollingInterval: Uint32)

  /** A data request handed to the MAC: destination, MSDU handle and payload. */
  datatype Frame = Frame(dst: Ssf.SAddr, handle: bv8, payload: seq<Byte>)

  /** The application's state: what `sensor.c` keeps in globals, plus the requests it has issued. */
  datatype App = App(
    stats: Stats,
    handleCounter: bv8,
    settings: Settings,
    collector: Ssf.SAddr,
    clocks: Ssf.Clocks,
    frameCounter: Ssf.CounterStore,
    pollRate: Option<Uint32>,
    sent: seq<Frame>)

  /**
   * `dataCnfCB`: the failure counters are kept by status; a success offers
   * the frame counter to `Ssf_updateFrameCounter`; a success for a handle
   * the application issued counts as sent for its kind.
   */
  function DataCnf(a: App, status: MacStatus, handle: bv8, frameCntr: Uint32, written: bool): (a': App)
    ensures a' == a.(stats := a'.stats, frameCounter := a'.frameCounter)
    ensures a'.frameCounter == (if status == Success then Ssf.UpdateFrameCounter(a.frameCounter, true, frameCntr, written) else a.frameCounter)
    ensures a'.stats.channelAccessFailures == (if status == ChannelAccessFailure then Inc(a.stats.channelAccessFailures) else a.stats.channelAccessFailures)
    ensures a'.stats.macAckFailures == (if status == NoAck then Inc(a.stats.macAckFailures) else a.stats.macAckFailures)
    ensures a'.stats.otherDataRequestFailures == (if status == OtherFailure then Inc(a.stats.otherDataRequestFailures) else a.stats.otherDataRequestFailures)
    ensures a'.stats.msgsSent == (if status == Success && HandleKind(handle) == Some(SensorKind) then Inc(a.stats.msgsSent) else a.stats.msgsSent)
    ensures a'.stats.trackingResponseSent == (if status == Success && HandleKind(handle) == Some(TrackingKind) then Inc(a.stats.trackingResponseSent) else a.stats.trackingResponseSent)
    ensures a'.stats.configResponseSent == (if status == Success && HandleKind(handle) == Some(ConfigKind) then Inc(a.stats.configResponseSent) else a.stats.configResponseSent)
    ensures a'.stats == a.stats.(channelAccessFailures := a'.stats.channelAccessFailures, macAckFailures := a'.stats.macAckFailures,
                                 otherDataRequestFailures := a'.stats.otherDataRequestFailures, msgsSent := a'.stats.msgsSent,
                                 trackingResponseSent := a'.stats.trackingResponseSent, configResponseSent := a'.stats.configResponseSent)
  {
    var s := a.stats;
    var s := match status
      case ChannelAccessFailure => s.(channelAccessFailures := Inc(s.channelAccessFailures))
      case NoAck => s.(macAckFailures := Inc(s.macAckFailures))
      case OtherFailure => s.(otherDataRequestFailures := Inc(s.otherDataRequestFailures))
      case Success => s;
    var fc := if status == Success then Ssf.UpdateFrameCounter(a.frameCounter, true, frameCntr, written) else a.frameCounter;
    var h := handle;
    var ok := status == Success && h & AppMarker != 0;
    var s := if ok && h & AppMask == SensorMark then s.(msgsSent := Inc(s.msgsSent)) else s;
    var s := if ok && h & AppMask == TrackRspMark then s.(trackingResponseSent := Inc(s.trackingResponseSent)) else s;
    var s := if ok && h & AppMask == ConfigRspMark then s.(configResponseSent := Inc(s.configResponseSent)) else s;
    a.(stats := s, frameCounter := fc)
  }

  /**
   * A successful confirm of a handle `getMsduHandle` issued counts once,
   * as sent for the message type the handle was issued for.
   */
  lemma ConfirmCountsIssuedKind(a: App, counter: bv8, cmd: Byte, frameCntr: Uint32, written: bool)
    requires counter <= HandleMax
    ensures var s' := DataCnf(a, Success, GetMsduHandle(counter, cmd).0, frameCntr, written).stats;
            && (s'.msgsSent != a.stats.msgsSent <==> cmd == CmdSensorData)
            && (s'.trackingResponseSent != a.stats.trackingResponseSent <==> cmd == CmdTrackingRsp)
            && (s'.configResponseSent != a.stats.configResponseSent <==> cmd == CmdConfigRsp)
  {
    HandleRoundTrip(counter, cmd);
  }

  /** Every failed confirm is counted under exactly one failure statistic, and a success under none. */
  lemma FailuresCountedOnce(a: App, status: MacStatus, handle: bv8, frameCntr: Uint32, written: bool)
    ensures var s' := DataCnf(a, status, handle, frameCntr, written).stats;
            (if s'.channelAccessFailures != a.stats.channelAccessFailures then 1 else 0)
            + (if s'.macAckFailures != a.stats.macAckFailures then 1 else 0)
            + (if s'.otherDataRequestFailures != a.stats.otherDataRequestFailures then 1 else 0)
            == (if status == Success then 0 else 1)
  {
  }

  /**
   * `sendMsg`: takes the next MSDU handle, counts the attempt for sensor
   * data, tracking responses and config responses, and hands the frame to
   * the MAC.
   */
  function SendMsg(a: App, cmd: Byte, dst: Ssf.SAddr, payload: seq<Byte>): (a': App)
    ensures a'.sent == a.sent + [Frame(dst, GetMsduHandle(a.handleCounter, cmd).0, payload)]
    ensures a'.handleCounter == GetMsduHandle(a.handleCounter, cmd).1
    ensures a'.stats.msgsAttempted == (if cmd == CmdSensorData then Inc(a.stats.msgsAttempted) else a.stats.msgsAttempted)
    ensures a'.stats.trackingResponseAttempts == (if cmd == CmdTrackingRsp then Inc(a.stats.trackingResponseAttempts) else a.stats.trackingResponseAttempts)
    ensures a'.stats.configResponseAttempts == (if cmd == CmdConfigRsp then Inc(a.stats.configResponseAttempts) else a.stats.configResponseAttempts)
    ensures a' == a.(sent := a'.sent, handleCounter := a'.handleCounter, stats := a'.stats)
    ensures a'.stats == a.stats.(msgsAttempted := a'.stats.msgsAttempted, trackingResponseAttempts := a'.stats.trackingResponseAttempts,
                                 configResponseAttempts := a'.stats.configResponseAttempts)
  {
    var (handle, next) := GetMsduHandle(a.handleCounter, cmd);
    var s := a.stats;
    var s :=
      if cmd == CmdSensorData then s.(msgsAttempted := Inc(s.msgsAttempted))
      else if cmd == CmdTrackingRsp then s.(trackingResponseAttempts := Inc(s.trackingResponseAttempts))
      else if cmd == CmdConfigRsp then s.(configResponseAttempts := Inc(s.configResponseAttempts))
      else s;
    a.(stats := s, handleCounter := next, sent := a.sent + [Frame(dst, handle, payload)])
  }

  // ---------------------------------------------------------------------
  // Frame control

  /** The sensors compiled in: `TEMP_SENSOR`, `LIGHT_SENSOR`, `HUMIDITY_SENSOR`. */
  datatype Build = Build(temp: bool, light: bool, humidity: bool)

  /** Whether a build reports a field: its sensors, and always the statistics and the settings. */
  predicate Supports(build: Build, f: Field)
  {
    match f
    case FieldTemp => build.temp
    case FieldLight => build.light
    case FieldHumidity => build.humidity
    case FieldMsgStats => true
    case FieldConfig => true
  }

  /** The frame control with exactly the given field bits set. */
  function Compose(t: bool, l: bool, h: bool, s: bool, c: bool): (r: nat)
    ensures r < 0x20
    ensures Has(r, FieldTemp) == t && Has(r, FieldLight) == l && Has(r, FieldHumidity) == h
    ensures Has(r, FieldMsgStats) == s && Has(r, FieldConfig) == c
  {
    var b0, b1, b2, b3, b4 := if t then 1 else 0, if l then 1 else 0, if h then 1 else 0, if s then 1 else 0, if c then 1 else 0;
    var q3 := b3 + 2 * b4;
    var q2 := b2 + 2 * q3;
    var q1 := b1 + 2 * q2;
    var r := b0 + 2 * q1;
    assert r / 2 == q1 && q1 / 2 == q2 && q2 / 2 == q3;
    assert r / 4 == q2 && r / 8 == q3 && r / 16 == b4;
    r
  }

  /** Below 0x20 two frame controls with the same field bits are equal. */
  lemma BitsDetermine(x: int, y: int)
    requires 0 <= x < 0x20 && 0 <= y < 0x20
    requires Has(x, FieldTemp) == Has(y, FieldTemp) && Has(x, FieldLight) == Has(y, FieldLight)
    requires Has(x, FieldHumidity) == Has(y, FieldHumidity) && Has(x, FieldMsgStats) == Has(y, FieldMsgStats)
    requires Has(x, FieldConfig) == Has(y, FieldConfig)
    ensures x == y
  {
    Shifts(x);
    Shifts(y);
    assert x / 16 == y / 16;
    HalfEq(x / 8, y / 8);
    HalfEq(x / 4, y / 4);
    HalfEq(x / 2, y / 2);
    HalfEq(x, y);
  }

  /** Successive halvings of a frame control below 0x20. */
  lemma Shifts(x: int)
    requires 0 <= x < 0x20
    ensures x / 4 == x / 2 / 2 && x / 8 == x / 4 / 2 && x / 16 == x / 8 / 2
    ensures 0 <= x / 16 < 2
  {
  }

  /** Two naturals with the same low bit and the same upper part are equal. */
  lemma HalfEq(a: int, b: int)
    requires 0 <= a && 0 <= b && a % 2 == b % 2 && a / 2 == b / 2
    ensures a == b
  {
  }

  /** Below 0x20 a frame control is determined by its field bits. */
  lemma Decompose(x: int)
    requires 0 <= x < 0x20
    ensures x == Compose(Has(x, FieldTemp), Has(x, FieldLight), Has(x, FieldHumidity), Has(x, FieldMsgStats), Has(x, FieldConfig))
  {
    var c := Compose(Has(x, FieldTemp), Has(x, FieldLight), Has(x, FieldHumidity), Has(x, FieldMsgStats), Has(x, FieldConfig));
    BitsDetermine(x, c);
  }

  /**
   * `validateFrameControl`: rebuilds the frame control from the requested
   * bits the build supports, one field at a time (the bits are distinct,
   * so the `|=` steps compose them).
   */
  function ValidateFrameControl(build: Build, frameControl: Uint16): (r: Uint16)
    ensures r < 0x20
    ensures forall f: Field :: Has(r, f) <==> Has(frameControl, f) && Supports(build, f)
  {
    Compose(build.temp && Has(frameControl, FieldTemp),
            build.light && Has(frameControl, FieldLight),
            build.humidity && Has(frameControl, FieldHumidity),
            Has(frameControl, FieldMsgStats),
            Has(frameControl, FieldConfig))
  }

  /** Validating a validated frame control changes nothing, and a frame control survives validation exactly when the build supports all its bits. */
  lemma ValidateFrameControlIdempotent(build: Build, frameControl: Uint16)
    ensures ValidateFrameControl(build, ValidateFrameControl(build, frameControl)) == ValidateFrameControl(build, frameControl)
    ensures ValidateFrameControl(build, frameControl) == frameControl <==>
              frameControl < 0x20 && forall f: Field :: Has(frameControl, f) ==> Supports(build, f)
  {
    var r := ValidateFrameControl(build, frameControl);
    Decompose(r);
    if frameControl < 0x20 && forall f: Field :: Has(frameControl, f) ==> Supports(build, f) {
      Decompose(frameControl);
    }
  }

  // ---------------------------------------------------------------------
  // Config request and response

  /** `Smsgs_statusValues_t`. */
  datatype ConfigStatus = StatusSuccess | StatusInvalid | StatusPartial

  function StatusCode(s: ConfigStatus): Uint16
  {
    match s
    case StatusSuccess => 0
    case StatusInvalid => 1
    case StatusPartial => 2
  }

  /** `Smsgs_configRspMsg_t` without its command identifier. */
  datatype ConfigRsp = ConfigRsp(status: ConfigStatus, frameControl: Uint16, reportingInterval: Uint32, pollingInterval: Uint32)

  /** `sendConfigRsp`'s layout: command, status, frame control, reporting and polling intervals. */
  function ConfigRspBytes(r: ConfigRsp): (b: seq<Byte>)
    ensures |b| == ConfigResponseLen
  {
    [CmdConfigRsp] + Le16(StatusCode(r.status)) + Le16(r.frameControl) + Le32(r.reportingInterval) + Le32(r.pollingInterval)
  }

  /** How the collector reads a config response. */
  function ParseConfigRsp(b: seq<Byte>): Option<ConfigRsp>
  {
    if |b| != ConfigResponseLen || b[0] != CmdConfigRsp then None
    else
      var code := ParseLe16(b[1..3]);
      var status := if code == 0 then Some(StatusSuccess) else if code == 1 then Some(StatusInvalid)
                    else if code == 2 then Some(StatusPartial) else None;
      if status.None? then None
      else Some(ConfigRsp(status.value, ParseLe16(b[3..5]), ParseLe32(b[5..9]), ParseLe32(b[9..13])))
  }

  lemma ConfigRspRoundTrip(r: ConfigRsp)
    ensures ParseConfigRsp(ConfigRspBytes(r)) == Some(r)
  {
    var p1 := [CmdConfigRsp] + Le16(StatusCode(r.status));
    var p2 := p1 + Le16(r.frameControl);
    var p3 := p2 + Le32(r.reportingInterval);
    var b := p3 + Le32(r.pollingInterval);
    assert b == ConfigRspBytes(r);
    assert b[1..3] == p1[1..3] == Le16(StatusCode(r.status));
    assert b[3..5] == p2[3..5] == Le16(r.frameControl);
    assert b[5..9] == p3[5..9] == Le32(r.reportingInterval);
    assert b[9..13] == Le32(r.pollingInterval);
    Le16RoundTrip(StatusCode(r.status));
    Le16RoundTrip(r.frameControl);
    Le32RoundTrip(r.reportingInterval);
    Le32RoundTrip(r.pollingInterval);
  }

  /** A config request as the collector lays it out: command, frame control, reporting and polling intervals. */
  function ConfigReqBytes(frameControl: Uint16, reporting: Uint32, polling: Uint32): (b: seq<Byte>)
    ensures |b| == ConfigRequestLen
  {
    [CmdConfigReq] + Le16(frameControl) + Le32(reporting) + Le32(polling)
  }

  /** An interval is applied when it lies in its range. */
  predicate InRange(x: int, lo: int, hi: int)
  {
    lo <= x <= hi
  }

  /** Parsed config request: command byte, frame control, reporting and polling intervals. */
  datatype ConfigReq = ConfigReq(cmdId: Byte, frameControl: Uint16, reporting: Uint32, polling: Uint32)

  function ParseConfigReq(msdu: seq<Byte>): ConfigReq
    requires |msdu| == ConfigRequestLen
  {
    ConfigReq(msdu[0], ParseLe16(msdu[1..3]), ParseLe32(msdu[3..7]), ParseLe32(msdu[7..11]))
  }

  lemma ConfigReqRoundTrip(frameControl: Uint16, reporting: Uint32, polling: Uint32)
    ensures ParseConfigReq(ConfigReqBytes(frameControl, reporting, polling)) == ConfigReq(CmdConfigReq, frameControl, reporting, polling)
  {
    var p1 := [CmdConfigReq] + Le16(frameControl);
    var p2 := p1 + Le32(reporting);
    var b := p2 + Le32(polling);
    assert b == ConfigReqBytes(frameControl, reporting, polling);
    assert b[1..3] == p1[1..3] == Le16(frameControl);
    assert b[3..7] == p2[3..7] == Le32(reporting);
    assert b[7..11] == Le32(polling);
    Le16RoundTrip(frameControl);
    Le32RoundTrip(reporting);
    Le32RoundTrip(polling);
  }

  /**
   * `processConfigRequest` up to the response: a request of the wrong
   * length is answered "invalid" with zero fields and changes nothing;
   * otherwise the sender becomes the collector, the frame control is
   * filtered, and each interval is applied (arming the reading clock, or
   * setting the poll rate) only when in range, the answer being "partial
   * success" if anything was refused.
   */
  function ApplyConfig(a: App, build: Build, msdu: seq<Byte>, src: Ssf.SAddr): (r: (App, ConfigRsp))
    ensures |msdu| != ConfigRequestLen ==> r == (a, ConfigRsp(StatusInvalid, 0, 0, 0))
    ensures |msdu| == ConfigRequestLen ==>
              var q := ParseConfigReq(msdu);
              var fc := ValidateFrameControl(build, q.frameControl);
              var okR := InRange(q.reporting, MinReporting, MaxReporting);
              var okP := InRange(q.polling, MinPolling, MaxPolling);
              && r.0.settings == Settings(q.cmdId, fc,
                                          if okR then q.reporting else a.settings.reportingInterval,
                                          if okP then q.polling else a.settings.pollingInterval)
              && r.0.collector == src
              && r.0.clocks == (if okR then Ssf.SetReadingClock(a.clocks, q.reporting) else a.clocks)
              && r.0.pollRate == (if okP then Some(q.polling) else a.pollRate)
              && r.1 == ConfigRsp(if fc == q.frameControl && okR && okP then StatusSuccess else StatusPartial,
                                  fc, r.0.settings.reportingInterval, r.0.settings.pollingInterval)
    ensures r.0 == a.(settings := r.0.settings, collector := r.0.collector, clocks := r.0.clocks, pollRate := r.0.pollRate)
  {
    if |msdu| != ConfigRequestLen then (a, ConfigRsp(StatusInvalid, 0, 0, 0))
    else
      var q := ParseConfigReq(msdu);
      var stat := StatusSuccess;
      var fc := ValidateFrameControl(build, q.frameControl);
      var stat := if fc != q.frameControl then StatusPartial else stat;
      var a1 := a.(collector := src, settings := a.settings.(cmdId := q.cmdId, frameControl := fc));
      var refuseR := q.reporting < MinReporting || q.reporting > MaxReporting;
      var stat := if refuseR then StatusPartial else stat;
      var a2 := if refuseR then a1
                else a1.(settings := a1.settings.(reportingInterval := q.reporting), clocks := Ssf.SetReadingClock(a1.clocks, q.reporting));
      var refuseP := q.polling < MinPolling || q.polling > MaxPolling;
      var stat := if refuseP then StatusPartial else stat;
      var a3 := if refuseP then a2
                else a2.(settings := a2.settings.(pollingInterval := q.polling), pollRate := Some(q.polling));
      (a3, ConfigRsp(stat, fc, a3.settings.reportingInterval, a3.settings.pollingInterval))
  }

  /** `processConfigRequest` then `sendConfigRsp`: the answer goes back to the sender. */
  function ProcessConfigRequest(a: App, build: Build, msdu: seq<Byte>, src: Ssf.SAddr): (a': App)
    ensures |a'.sent| == |a.sent| + 1
    ensures a'.sent[|a.sent|].dst == src
    ensures ParseConfigRsp(a'.sent[|a.sent|].payload) == Some(ApplyConfig(a, build, msdu, src).1)
    ensures var r := ApplyConfig(a, build, msdu, src).0;
            a'.settings == r.settings && a'.collector == r.collector && a'.clocks == r.clocks && a'.pollRate == r.pollRate
  {
    var (a1, rsp) := ApplyConfig(a, build, msdu, src);
    ConfigRspRoundTrip(rsp);
    SendMsg(a1, CmdConfigRsp, src, ConfigRspBytes(rsp))
  }

  /**
   * A well-formed request asking for supported fields and in-range
   * intervals is applied in full and answered with success, echoing what
   * was asked.
   */
  lemma ConfigRequestAccepted(a: App, build: Build, frameControl: Uint16, reporting: Uint32, polling: Uint32, src: Ssf.SAddr)
    requires frameControl < 0x20 && forall f: Field :: Has(frameControl, f) ==> Supports(build, f)
    requires InRange(reporting, MinReporting, MaxReporting) && InRange(polling, MinPolling, MaxPolling)
    ensures var r := ApplyConfig(a, build, ConfigReqBytes(frameControl, reporting, polling), src);
            && r.0.settings == Settings(CmdConfigReq, frameControl, reporting, polling)
            && r.1 == ConfigRsp(StatusSuccess, frameControl, reporting, polling)
  {
    ConfigReqRoundTrip(frameControl, reporting, polling);
    ValidateFrameControlIdempotent(build, frameControl);
  }

  // ---------------------------------------------------------------------
  // Sensor data message

  /**
   * `Smsgs_sensorMsg_t`: the extended address, the frame control, and
   * every field the frame control can select.  `stats` holds the sixteen
   * statistics followed by the reset count and reset reason.
   */
  datatype SensorMsg = SensorMsg(
    extAddr: seq<Byte>, frameControl: Uint16,
    ambienceTemp: Uint16, objectTemp: Uint16, lightRaw: Uint16,
    humidityTemp: Uint16, humidity: Uint16,
    stats: seq<Uint16>, reportingInterval: Uint32, pollingInterval: Uint32)

  /** Field lengths: the bytes the encoder writes for each. */
  const BasicLen: nat := 11
  const TempLen: nat := 4
  const LightLen: nat := 2
  const HumidityLen: nat := 4
  const StatsLen: nat := 36
  const ConfigLen: nat := 8

  /** The length `sendSensorMessage` computes and allocates. */
  function SensorLen(frameControl: Uint16): nat
  {
    BasicLen
    + (if Has(frameControl, FieldTemp) then TempLen else 0)
    + (if Has(frameControl, FieldLight) then LightLen else 0)
    + (if Has(frameControl, FieldHumidity) then HumidityLen else 0)
    + (if Has(frameControl, FieldMsgStats) then StatsLen else 0)
    + (if Has(frameControl, FieldConfig) then ConfigLen else 0)
  }

  /** A message as `processSensorMsgEvt` builds it: the struct is zeroed and only the selected fields are filled. */
  predicate WellFormed(m: SensorMsg)
  {
    && |m.extAddr| == 8 && |m.stats| == 18
    && (!Has(m.frameControl, FieldTemp) ==> m.ambienceTemp == 0 && m.objectTemp == 0)
    && (!Has(m.frameControl, FieldLight) ==> m.lightRaw == 0)
    && (!Has(m.frameControl, FieldHumidity) ==> m.humidityTemp == 0 && m.humidity == 0)
    && (!Has(m.frameControl, FieldMsgStats) ==> m.stats == seq(18, _ => 0))
    && (!Has(m.frameControl, FieldConfig) ==> m.reportingInterval == 0 && m.pollingInterval == 0)
  }

  function TempBytes(m: SensorMsg): seq<Byte>
  {
    if Has(m.frameControl, FieldTemp) then Le16(m.ambienceTemp) + Le16(m.objectTemp) else []
  }

  function LightBytes(m: SensorMsg): seq<Byte>
  {
    if Has(m.frameControl, FieldLight) then Le16(m.lightRaw) else []
  }

  function HumidityBytes(m: SensorMsg): seq<Byte>
  {
    if Has(m.frameControl, FieldHumidity) then Le16(m.humidityTemp) + Le16(m.humidity) else []
  }

  function StatsBytes(m: SensorMsg): seq<Byte>
  {
    if Has(m.frameControl, FieldMsgStats) then Words16(m.stats) else []
  }

  function ConfigBytes(m: SensorMsg): seq<Byte>
  {
    if Has(m.frameControl, FieldConfig) then Le32(m.reportingInterval) + Le32(m.pollingInterval) else []
  }

  /**
   * `sendSensorMessage`'s layout: command, extended address, frame
   * control, then temperature, light, humidity, statistics and settings,
   * each only when selected.
   */
  function SensorBytes(m: SensorMsg): (b: seq<Byte>)
    requires WellFormed(m)
    ensures |b| == SensorLen(m.frameControl)
  {
    FieldBytesLen(m);
    [CmdSensorData] + m.extAddr + Le16(m.frameControl) + FieldBytes(m)
  }

  /** The selected fields, in layout order. */
  function FieldBytes(m: SensorMsg): seq<Byte>
  {
    TempBytes(m) + (LightBytes(m) + (HumidityBytes(m) + (StatsBytes(m) + ConfigBytes(m))))
  }

  /** How the collector reads a sensor message: the fields the frame control selects, in order, others zero. */
  function ParseSensor(b: seq<Byte>): Option<SensorMsg>
  {
    if |b| < BasicLen || b[0] != CmdSensorData then None
    else
      var fc := ParseLe16(b[9..11]);
      if |b| != SensorLen(fc) then None
      else
        var m0 := SensorMsg(b[1..9], fc, 0, 0, 0, 0, 0, seq(18, _ => 0), 0, 0);
        Some(ParseFields(m0, b[11..]))
  }

  /** Reads the optional fields of a message whose frame control and address are in `m`, in layout order. */
  function ParseFields(m: SensorMsg, b: seq<Byte>): (r: SensorMsg)
    requires |b| == SensorLen(m.frameControl) - BasicLen
  {
    var f := TakeFront(m, b);
    TakeBack(f.0, f.1)
  }

  /** Bytes the temperature, light and humidity fields take under `fc`. */
  function FrontLen(fc: Uint16): nat
  {
    (if Has(fc, FieldTemp) then TempLen else 0)
    + (if Has(fc, FieldLight) then LightLen else 0)
    + (if Has(fc, FieldHumidity) then HumidityLen else 0)
  }

  function TakeFront(m: SensorMsg, b: seq<Byte>): (r: (SensorMsg, seq<Byte>))
    requires |b| >= FrontLen(m.frameControl)
    ensures r.0.frameControl == m.frameControl
    ensures |r.1| == |b| - FrontLen(m.frameControl)
  {
    var t := TakeTemp(m, b);
    var l := TakeLight(t.0, t.1);
    TakeHumidity(l.0, l.1)
  }

  function TakeBack(m: SensorMsg, b: seq<Byte>): (r: SensorMsg)
    requires |b| == SensorLen(m.frameControl) - BasicLen - FrontLen(m.frameControl)
  {
    var s := TakeStats(m, b);
    TakeConfig(s.0, s.1).0
  }

  function TakeTemp(m: SensorMsg, b: seq<Byte>): (r: (SensorMsg, seq<Byte>))
    requires Has(m.frameControl, FieldTemp) ==> |b| >= TempLen
    ensures r.0.frameControl == m.frameControl
    ensures |r.1| == |b| - (if Has(m.frameControl, FieldTemp) then TempLen else 0)
  {
    if Has(m.frameControl, FieldTemp)
    then (m.(ambienceTemp := ParseLe16(b), objectTemp := ParseLe16(b[2..])), b[4..])
    else (m, b)
  }

  function TakeLight(m: SensorMsg, b: seq<Byte>): (r: (SensorMsg, seq<Byte>))
    requires Has(m.frameControl, FieldLight) ==> |b| >= LightLen
    ensures r.0.frameControl == m.frameControl
    ensures |r.1| == |b| - (if Has(m.frameControl, FieldLight) then LightLen else 0)
  {
    if Has(m.frameControl, FieldLight) then (m.(lightRaw := ParseLe16(b)), b[2..]) else (m, b)
  }

  function TakeHumidity(m: SensorMsg, b: seq<Byte>): (r: (SensorMsg, seq<Byte>))
    requires Has(m.frameControl, FieldHumidity) ==> |b| >= HumidityLen
    ensures r.0.frameControl == m.frameControl
    ensures |r.1| == |b| - (if Has(m.frameControl, FieldHumidity) then HumidityLen else 0)
  {
    if Has(m.frameControl, FieldHumidity)
    then (m.(humidityTemp := ParseLe16(b), humidity := ParseLe16(b[2..])), b[4..])
    else (m, b)
  }

  function TakeStats(m: SensorMsg, b: seq<Byte>): (r: (SensorMsg, seq<Byte>))
    requires Has(m.frameControl, FieldMsgStats) ==> |b| >= StatsLen
    ensures r.0.frameControl == m.frameControl
    ensures |r.1| == |b| - (if Has(m.frameControl, FieldMsgStats) then StatsLen else 0)
  {
    if Has(m.frameControl, FieldMsgStats) then (m.(stats := ParseWords16(b, 18)), b[36..]) else (m, b)
  }

  function TakeConfig(m: SensorMsg, b: seq<Byte>): (r: (SensorMsg, seq<Byte>))
    requires Has(m.frameControl, FieldConfig) ==> |b| >= ConfigLen
    ensures r.0.frameControl == m.frameControl
    ensures |r.1| == |b| - (if Has(m.frameControl, FieldConfig) then ConfigLen else 0)
  {
    if Has(m.frameControl, FieldConfig)
    then (m.(reportingInterval := ParseLe32(b), pollingInterval := ParseLe32(b[4..])), b[8..])
    else (m, b)
  }

  lemma TakeTempRoundTrip(m: SensorMsg, base: SensorMsg, rest: seq<Byte>)
    requires base.frameControl == m.frameControl
    ensures TakeTemp(base, TempBytes(m) + rest)
            == (base.(ambienceTemp := if Has(m.frameControl, FieldTemp) then m.ambienceTemp else base.ambienceTemp,
                      objectTemp := if Has(m.frameControl, FieldTemp) then m.objectTemp else base.objectTemp), rest)
  {
    if Has(m.frameControl, FieldTemp) {
      var b := Le16(m.ambienceTemp) + (Le16(m.objectTemp) + rest);
      assert TempBytes(m) + rest == b;
      assert b[2..] == Le16(m.objectTemp) + rest;
      assert b[4..] == rest;
      Le16RoundTrip(m.ambienceTemp);
      Le16RoundTrip(m.objectTemp);
    } else {
      assert TempBytes(m) + rest == rest;
    }
  }

  lemma TakeLightRoundTrip(m: SensorMsg, base: SensorMsg, rest: seq<Byte>)
    requires base.frameControl == m.frameControl
    ensures TakeLight(base, LightBytes(m) + rest)
            == (base.(lightRaw := if Has(m.frameControl, FieldLight) then m.lightRaw else base.lightRaw), rest)
  {
    if Has(m.frameControl, FieldLight) {
      Le16RoundTrip(m.lightRaw);
      assert (LightBytes(m) + rest)[2..] == rest;
    } else {
      assert LightBytes(m) + rest == rest;
    }
  }

  lemma TakeHumidityRoundTrip(m: SensorMsg, base: SensorMsg, rest: seq<Byte>)
    requires base.frameControl == m.frameControl
    ensures TakeHumidity(base, HumidityBytes(m) + rest)
            == (base.(humidityTemp := if Has(m.frameControl, FieldHumidity) then m.humidityTemp else base.humidityTemp,
                      humidity := if Has(m.frameControl, FieldHumidity) then m.humidity else base.humidity), rest)
  {
    if Has(m.frameControl, FieldHumidity) {
      var b := Le16(m.humidityTemp) + (Le16(m.humidity) + rest);
      assert HumidityBytes(m) + rest == b;
      assert b[2..] == Le16(m.humidity) + rest;
      assert b[4..] == rest;
      Le16RoundTrip(m.humidityTemp);
      Le16RoundTrip(m.humidity);
    } else {
      assert HumidityBytes(m) + rest == rest;
    }
  }

  lemma TakeStatsRoundTrip(m: SensorMsg, base: SensorMsg, rest: seq<Byte>)
    requires base.frameControl == m.frameControl && |m.stats| == 18
    ensures TakeStats(base, StatsBytes(m) + rest)
            == (base.(stats := if Has(m.frameControl, FieldMsgStats) then m.stats else base.stats), rest)
  {
    if Has(m.frameControl, FieldMsgStats) {
      Words16RoundTrip(m.stats, rest);
      assert (StatsBytes(m) + rest)[36..] == rest;
    } else {
      assert StatsBytes(m) + rest == rest;
    }
  }

  lemma TakeConfigRoundTrip(m: SensorMsg, base: SensorMsg, rest: seq<Byte>)
    requires base.frameControl == m.frameControl
    ensures TakeConfig(base, ConfigBytes(m) + rest)
            == (base.(reportingInterval := if Has(m.frameControl, FieldConfig) then m.reportingInterval else base.reportingInterval,
                      pollingInterval := if Has(m.frameControl, FieldConfig) then m.pollingInterval else base.pollingInterval), rest)
  {
    if Has(m.frameControl, FieldConfig) {
      var b := Le32(m.reportingInterval) + (Le32(m.pollingInterval) + rest);
      assert ConfigBytes(m) + rest == b;
      assert b[4..] == Le32(m.pollingInterval) + rest;
      assert b[8..] == rest;
      Le32RoundTrip(m.reportingInterval);
      Le32RoundTrip(m.pollingInterval);
    } else {
      assert ConfigBytes(m) + rest == rest;
    }
  }

  /** The collector reads back exactly the message the sensor built. */
  lemma SensorRoundTrip(m: SensorMsg)
    requires WellFormed(m)
    ensures ParseSensor(SensorBytes(m)) == Some(m)
  {
    var p1 := [CmdSensorData] + m.extAddr;
    var p2 := p1 + Le16(m.frameControl);
    var b := p2 + FieldBytes(m);
    assert b == SensorBytes(m);
    assert b[1..9] == p1[1..9] == m.extAddr;
    assert b[9..11] == p2[9..11] == Le16(m.frameControl);
    Le16RoundTrip(m.frameControl);
    assert b[11..] == FieldBytes(m);
    FieldsRoundTrip(m);
  }

  /** The selected fields take the length `sendSensorMessage` adds up for them. */
  lemma FieldBytesLen(m: SensorMsg)
    requires |m.stats| == 18
    ensures |FieldBytes(m)| == SensorLen(m.frameControl) - BasicLen
  {
    var fc := m.frameControl;
    var t, l, h := |TempBytes(m)|, |LightBytes(m)|, |HumidityBytes(m)|;
    var s, c := |StatsBytes(m)|, |ConfigBytes(m)|;
    assert t == if Has(fc, FieldTemp) then TempLen else 0;
    assert l == if Has(fc, FieldLight) then LightLen else 0;
    assert h == if Has(fc, FieldHumidity) then HumidityLen else 0;
    assert s == if Has(fc, FieldMsgStats) then StatsLen else 0;
    assert c == if Has(fc, FieldConfig) then ConfigLen else 0;
    assert |FieldBytes(m)| == t + l + h + s + c;
  }

  /** `m` with every field its frame control does not select zeroed. */
  function Selected(m: SensorMsg): SensorMsg
  {
    var fc := m.frameControl;
    SensorMsg(m.extAddr, fc,
      if Has(fc, FieldTemp) then m.ambienceTemp else 0,
      if Has(fc, FieldTemp) then m.objectTemp else 0,
      if Has(fc, FieldLight) then m.lightRaw else 0,
      if Has(fc, FieldHumidity) then m.humidityTemp else 0,
      if Has(fc, FieldHumidity) then m.humidity else 0,
      if Has(fc, FieldMsgStats) then m.stats else seq(18, _ => 0),
      if Has(fc, FieldConfig) then m.reportingInterval else 0,
      if Has(fc, FieldConfig) then m.pollingInterval else 0)
  }

  lemma FieldsRoundTrip(m: SensorMsg)
    requires WellFormed(m)
    ensures |FieldBytes(m)| == SensorLen(m.frameControl) - BasicLen
    ensures ParseFields(SensorMsg(m.extAddr, m.frameControl, 0, 0, 0, 0, 0, seq(18, _ => 0), 0, 0), FieldBytes(m)) == m
  {
    FieldsParsed(m);
    assert Selected(m) == m;
  }

  lemma FrontRoundTrip(m: SensorMsg, base: SensorMsg, rest: seq<Byte>)
    requires base.frameControl == m.frameControl
    ensures |TempBytes(m) + (LightBytes(m) + (HumidityBytes(m) + rest))| >= FrontLen(m.frameControl)
    ensures TakeFront(base, TempBytes(m) + (LightBytes(m) + (HumidityBytes(m) + rest)))
            == (base.(ambienceTemp := if Has(m.frameControl, FieldTemp) then m.ambienceTemp else base.ambienceTemp,
                      objectTemp := if Has(m.frameControl, FieldTemp) then m.objectTemp else base.objectTemp,
                      lightRaw := if Has(m.frameControl, FieldLight) then m.lightRaw else base.lightRaw,
                      humidityTemp := if Has(m.frameControl, FieldHumidity) then m.humidityTemp else base.humidityTemp,
                      humidity := if Has(m.frameControl, FieldHumidity) then m.humidity else base.humidity), rest)
  {
    var r3 := HumidityBytes(m) + rest;
    TakeTempRoundTrip(m, base, LightBytes(m) + r3);
    var s1 := TakeTemp(base, TempBytes(m) + (LightBytes(m) + r3));
    TakeLightRoundTrip(m, s1.0, r3);
    var s2 := TakeLight(s1.0, s1.1);
    TakeHumidityRoundTrip(m, s2.0, rest);
  }

  lemma BackRoundTrip(m: SensorMsg, base: SensorMsg)
    requires base.frameControl == m.frameControl && |m.stats| == 18
    ensures |StatsBytes(m) + ConfigBytes(m)| == SensorLen(m.frameControl) - BasicLen - FrontLen(m.frameControl)
    ensures TakeBack(base, StatsBytes(m) + ConfigBytes(m))
            == base.(stats := if Has(m.frameControl, FieldMsgStats) then m.stats else base.stats,
                     reportingInterval := if Has(m.frameControl, FieldConfig) then m.reportingInterval else base.reportingInterval,
                     pollingInterval := if Has(m.frameControl, FieldConfig) then m.pollingInterval else base.pollingInterval)
  {
    TakeStatsRoundTrip(m, base, ConfigBytes(m));
    var s4 := TakeStats(base, StatsBytes(m) + ConfigBytes(m));
    assert ConfigBytes(m) + [] == ConfigBytes(m);
    TakeConfigRoundTrip(m, s4.0, []);
  }

  lemma FieldsParsed(m: SensorMsg)
    requires |m.stats| == 18
    ensures |FieldBytes(m)| == SensorLen(m.frameControl) - BasicLen
    ensures ParseFields(SensorMsg(m.extAddr, m.frameControl, 0, 0, 0, 0, 0, seq(18, _ => 0), 0, 0), FieldBytes(m)) == Selected(m)
  {
    FieldBytesLen(m);
    var base := SensorMsg(m.extAddr, m.frameControl, 0, 0, 0, 0, 0, seq(18, _ => 0), 0, 0);
    var back := StatsBytes(m) + ConfigBytes(m);
    FrontRoundTrip(m, base, back);
    var f := TakeFront(base, FieldBytes(m));
    BackRoundTrip(m, f.0);
  }

  /** A sensor reading: the values `processSensorMsgEvt` takes from the sensor drivers. */
  datatype Readings = Readings(ambienceTemp: Uint16, objectTemp: Uint16, lightRaw: Uint16, humidityTemp: Uint16, humidity: Uint16)

  /**
   * `processSensorMsgEvt`: records the MAC's security-failure counters
   * (truncated to 16 bits), builds the message for the configured frame
   * control, and sends it to the collector when the buffer can be
   * buffered.
   */
  function ProcessSensorMsgEvt(a: App, r: Readings, extAddr: seq<Byte>, rxSecureFail: Uint32, txSecureFail: Uint32,
                               resetCount: Uint16, resetReason: Uint16, buffered: bool): (a': App)
    requires |extAddr| == 8
    ensures buffered ==> |a'.sent| == |a.sent| + 1 && a'.sent[|a.sent|].dst == a.collector
    ensures !buffered ==> a'.sent == a.sent
    ensures buffered ==> ParseSensor(a'.sent[|a.sent|].payload) == Some(BuildSensorMsg(a, r, extAddr, rxSecureFail, txSecureFail, resetCount, resetReason))
  {
    var m := BuildSensorMsg(a, r, extAddr, rxSecureFail, txSecureFail, resetCount, resetReason);
    var a1 := a.(stats := a.stats.(rxDecryptFailures := rxSecureFail % 0x1_0000, txEncryptFailures := txSecureFail % 0x1_0000));
    if buffered then
      SensorRoundTrip(m);
      SendMsg(a1, CmdSensorData, a.collector, SensorBytes(m))
    else a1
  }

  /** The message `processSensorMsgEvt` fills in. */
  function BuildSensorMsg(a: App, r: Readings, extAddr: seq<Byte>, rxSecureFail: Uint32, txSecureFail: Uint32,
                          resetCount: Uint16, resetReason: Uint16): (m: SensorMsg)
    requires |extAddr| == 8
    ensures WellFormed(m)
    ensures m.frameControl == a.settings.frameControl && m.extAddr == extAddr
    ensures Has(m.frameControl, FieldMsgStats) ==> m.stats[14] == rxSecureFail % 0x1_0000 && m.stats[16] == resetCount
  {
    var fc := a.settings.frameControl;
    var st := a.stats.(rxDecryptFailures := rxSecureFail % 0x1_0000, txEncryptFailures := txSecureFail % 0x1_0000);
    SensorMsg(extAddr, fc,
      if Has(fc, FieldTemp) then r.ambienceTemp else 0,
      if Has(fc, FieldTemp) then r.objectTemp else 0,
      if Has(fc, FieldLight) then r.lightRaw else 0,
      if Has(fc, FieldHumidity) then r.humidityTemp else 0,
      if Has(fc, FieldHumidity) then r.humidity else 0,
      if Has(fc, FieldMsgStats) then StatsWords(st) + [resetCount, resetReason] else seq(18, _ => 0),
      if Has(fc, FieldConfig) then a.settings.reportingInterval else 0,
      if Has(fc, FieldConfig) then a.settings.pollingInterval else 0)
  }

  // ---------------------------------------------------------------------
  // Data indication

  /**
   * `dataIndCB`: an empty frame, or one `Jdllc_securityCheck` rejects
   * (`secure` is its verdict), is ignored.  A config request is processed
   * and counted; a tracking request of the right length is counted and
   * answered; a LED toggle request of the right length is answered with
   * the LED state `Ssf_toggleLED` reports (`led`).  Other commands are
   * ignored.
   */
  function DataInd(a: App, build: Build, msdu: seq<Byte>, secure: bool, src: Ssf.SAddr, led: Byte): (a': App)
    ensures |msdu| == 0 || !secure ==> a' == a
    ensures a'.sent == a.sent || |a'.sent| == |a.sent| + 1
    ensures |a'.sent| == |a.sent| + 1 ==> a'.sent[|a.sent|].dst == src
    ensures |msdu| > 0 && msdu[0] == CmdTrackingReq && |msdu| != TrackingRequestLen ==> a' == a
    ensures |msdu| > 0 && msdu[0] == CmdToggleLedReq && |msdu| != ToggleLedRequestLen ==> a' == a
    ensures |msdu| > 0 && secure && msdu[0] == CmdConfigReq ==>
              a'.stats.configRequests == Inc(a.stats.configRequests) && |a'.sent| == |a.sent| + 1
    ensures |msdu| > 0 && secure && msdu[0] == CmdConfigReq ==>
              var r := ApplyConfig(a, build, msdu, src).0;
              a'.settings == r.settings && a'.collector == r.collector && a'.clocks == r.clocks && a'.pollRate == r.pollRate
    ensures |msdu| > 0 && msdu[0] !in {CmdConfigReq, CmdTrackingReq, CmdToggleLedReq} ==> a' == a
  {
    if |msdu| == 0 || !secure then a
    else if msdu[0] == CmdConfigReq then
      var a1 := ProcessConfigRequest(a, build, msdu, src);
      a1.(stats := a1.stats.(configRequests := Inc(a1.stats.configRequests)))
    else if msdu[0] == CmdTrackingReq then
      if |msdu| == TrackingRequestLen then
        var a1 := a.(stats := a.stats.(trackingRequests := Inc(a.stats.trackingRequests)));
        SendMsg(a1, CmdTrackingRsp, src, [CmdTrackingRsp])
      else a
    else if msdu[0] == CmdToggleLedReq then
      if |msdu| == ToggleLedRequestLen then SendMsg(a, CmdToggleLedRsp, src, [CmdToggleLedRsp, led]) else a
    else a
  }

  /** A tracking request of the right length is answered with a tracking response whose confirm will count as one. */
  lemma TrackingAnswered(a: App, build: Build, src: Ssf.SAddr, led: Byte)
    requires a.handleCounter <= HandleMax
    ensures var a' := DataInd(a, build, [CmdTrackingReq], true, src, led);
            && a'.stats.trackingRequests == Inc(a.stats.trackingRequests)
            && a'.sent == a.sent + [Frame(src, a'.sent[|a.sent|].handle, [CmdTrackingRsp])]
            && HandleKind(a'.sent[|a.sent|].handle) == Some(TrackingKind)
  {
    HandleRoundTrip(a.handleCounter, CmdTrackingRsp);
  }
}

=== FILE: ssf.dfy ===
/**
 * The sensor's support functions: arming of the application timers (with
 * the trickle and association jitter), the frame-counter save window, and
 * the blacklist kept in non-volatile storage.
 *
 * Random bytes from the MAC are parameters.  A timer is either stopped or
 * armed with a timeout; starting it and its later expiry are not modelled.
 * The NV store is abstract: the frame-counter item, the blacklist records
 * by sub-ID and the blacklist count item, with each write's success given
 * as a parameter.
 */
module Ssf {
  import opened Types

  // ---------------------------------------------------------------------
  // Timers

  /** A one-shot clock: stopped, or armed to expire after `timeout` ms. */
  datatype Timer = Stopped | Armed(timeout: nat)

  /** The application clocks `ssf.c` owns. */
  datatype Clocks = Clocks(
    reading: Timer, poll: Timer, scanBackoff: Timer, fhAssoc: Timer,
    pasTrickle: Timer, pcsTrickle: Timer)

  const AllStopped: Clocks := Clocks(Stopped, Stopped, Stopped, Stopped, Stopped, Stopped)

  /**
   * The pattern shared by the `Ssf_set*Clock` functions: stop the clock if
   * it is running, then start it with `time` unless `time` is zero.
   */
  function Restart(time: nat): (t: Timer)
    ensures t == Stopped <==> time == 0
    ensures t.Armed? ==> t.timeout == time
  {
    if time > 0 then Armed(time) else Stopped
  }

  /** `Ssf_setReadingClock`. */
  function SetReadingClock(c: Clocks, time: Uint32): (c': Clocks)
    ensures c' == c.(reading := c'.reading)
    ensures c'.reading == (if time == 0 then Stopped else Armed(time))
  {
    c.(reading := Restart(time))
  }

  /** `Ssf_setPollClock`. */
  function SetPollClock(c: Clocks, time: Uint32): (c': Clocks)
    ensures c' == c.(poll := c'.poll)
    ensures c'.poll == (if time == 0 then Stopped else Armed(time))
  {
    c.(poll := Restart(time))
  }

  /** `Ssf_setScanBackoffClock`. */
  function SetScanBackoffClock(c: Clocks, time: Uint32): (c': Clocks)
    ensures c' == c.(scanBackoff := c'.scanBackoff)
    ensures c'.scanBackoff == (if time == 0 then Stopped else Armed(time))
  {
    c.(scanBackoff := Restart(time))
  }

  /** Setting a clock twice is setting it once to the second value: the earlier state is forgotten. */
  lemma SetClockForgets(c: Clocks, a: Uint32, b: Uint32)
    ensures SetReadingClock(SetReadingClock(c, a), b) == SetReadingClock(c, b)
    ensures SetPollClock(SetPollClock(c, a), b) == SetPollClock(c, b)
    ensures SetScanBackoffClock(SetScanBackoffClock(c, a), b) == SetScanBackoffClock(c, b)
  {
  }

  /** A 16-bit random number from two random bytes, `(hi << 8) + lo`. */
  function Random16(hi: Byte, lo: Byte): (r: Uint16)
    ensures r / 256 == hi && r % 256 == lo
  {
    hi * 256 + lo
  }

  /** `ADD_ASSOCIATION_RANDOM_WINDOW`. */
  const AssocRandomWindow: nat := 10000

  /**
   * `Ssf_setFHAssocClock`: a non-zero delay is lengthened by a random
   * amount below `ADD_ASSOCIATION_RANDOM_WINDOW`, in `uint32_t` arithmetic;
   * zero only stops the clock.
   */
  function SetFHAssocClock(c: Clocks, time: Uint32, hi: Byte, lo: Byte): (c': Clocks)
    ensures c' == c.(fhAssoc := c'.fhAssoc)
    ensures time == 0 <==> c'.fhAssoc == Stopped
    ensures time > 0 && time + AssocRandomWindow <= Wrap32 ==>
              c'.fhAssoc.Armed? && time <= c'.fhAssoc.timeout < time + AssocRandomWindow
  {
    if time == 0 then c.(fhAssoc := Stopped)
    else
      var t: Uint32 := (time + Random16(hi, lo) % AssocRandomWindow) % Wrap32;
      c.(fhAssoc := Armed(t))
  }

  /** Every delay in the window is reached by some pair of random bytes. */
  lemma FHAssocDelayReachable(c: Clocks, time: Uint32, extra: nat)
    requires 0 < time && time + AssocRandomWindow <= Wrap32 && extra < AssocRandomWindow
    ensures SetFHAssocClock(c, time, extra / 256, extra % 256).fhAssoc == Armed(time + extra)
  {
    var r := Random16(extra / 256, extra % 256);
    assert r == extra by {
      assert r == (extra / 256) * 256 + extra % 256;
    }
    assert r % AssocRandomWindow == extra;
    assert (time + extra) % Wrap32 == time + extra;
  }

  /** The Wi-SUN asynchronous frame types. */
  datatype AsyncFrame = Advertisement | AdvertisementSolicit | Config | ConfigSolicit

  /** The trickle delay drawn from `[t/2, t)`: `t/2 + r % (t/2)`, for `t >= 2`. */
  function TrickleDelay(t: Uint16, r: Uint16): (d: Uint16)
    requires t >= 2
    ensures t / 2 <= d <= 2 * (t / 2) - 1 < t
  {
    t / 2 + r % (t / 2)
  }

  /** Setting a trickle clock: the clocks after, or the division by zero a window of 1 makes. */
  datatype TrickleResult = Set(clocks: Clocks) | DivisionByZero

  /**
   * `Ssf_setTrickleClock`: stops the trickle clock of the solicit type
   * given, and restarts it with a jittered delay when the window is not
   * zero.  A window of 1 halves to 0 and the jitter is taken modulo 0.
   * Other frame types change nothing.
   */
  function SetTrickleClock(c: Clocks, time: Uint16, frame: AsyncFrame, hi: Byte, lo: Byte): (r: TrickleResult)
    ensures r == DivisionByZero <==> time == 1 && (frame == AdvertisementSolicit || frame == ConfigSolicit)
    ensures r.Set? && frame == AdvertisementSolicit ==> r.clocks == c.(pasTrickle := r.clocks.pasTrickle)
    ensures r.Set? && frame == ConfigSolicit ==> r.clocks == c.(pcsTrickle := r.clocks.pcsTrickle)
    ensures r.Set? && frame != AdvertisementSolicit && frame != ConfigSolicit ==> r.clocks == c
    ensures r.Set? && time == 0 && frame == AdvertisementSolicit ==> r.clocks.pasTrickle == Stopped
    ensures r.Set? && time == 0 && frame == ConfigSolicit ==> r.clocks.pcsTrickle == Stopped
    ensures r.Set? && time > 0 && frame == AdvertisementSolicit ==>
              r.clocks.pasTrickle.Armed? && time / 2 <= r.clocks.pasTrickle.timeout < time
    ensures r.Set? && time > 0 && frame == ConfigSolicit ==>
              r.clocks.pcsTrickle.Armed? && time / 2 <= r.clocks.pcsTrickle.timeout < time
  {
    if frame != AdvertisementSolicit && frame != ConfigSolicit then Set(c)
    else if time == 1 then DivisionByZero
    else
      var t := if time == 0 then Stopped else Armed(TrickleDelay(time, Random16(hi, lo)));
      if frame == AdvertisementSolicit then Set(c.(pasTrickle := t)) else Set(c.(pcsTrickle := t))
  }

  /** Every delay in `[t/2, 2*(t/2))` is drawn by some pair of random bytes. */
  lemma TrickleDelayReachable(t: Uint16, d: nat)
    requires t >= 2 && t / 2 <= d < 2 * (t / 2)
    ensures TrickleDelay(t, Random16((d - t / 2) / 256, (d - t / 2) % 256)) == d
  {
    var x := d - t / 2;
    assert Random16(x / 256, x % 256) == x;
  }

  // ---------------------------------------------------------------------
  // Frame counter

  /** `FRAME_COUNTER_SAVE_WINDOW`. */
  const SaveWindow: nat := 25

  /** The frame-counter NV item (absent until first written) and `lastSavedFrameCounter`. */
  datatype CounterStore = CounterStore(nv: Option<Uint32>, lastSaved: Uint32)

  /**
   * `Ssf_updateFrameCounter`: only the device's own counter (a NULL
   * address) is saved, and only once it has reached the last saved value
   * plus the window, computed in `uint32_t`.  `written` is the outcome of
   * the NV write; the last saved value follows only a successful one.
   */
  function UpdateFrameCounter(s: CounterStore, own: bool, frameCntr: Uint32, written: bool): (s': CounterStore)
    ensures !own ==> s' == s
    ensures s' != s ==> own && written && frameCntr >= (s.lastSaved + SaveWindow) % Wrap32
    ensures own && written && frameCntr >= (s.lastSaved + SaveWindow) % Wrap32 ==>
              s' == CounterStore(Some(frameCntr), frameCntr)
  {
    if own && frameCntr >= (s.lastSaved + SaveWindow) % Wrap32 && written
    then CounterStore(Some(frameCntr), frameCntr)
    else s
  }

  /**
   * `Ssf_getFrameCounter`: the own counter read back from NV is advanced by
   * the window; when it cannot be read, 0 is written to NV (`written` is that
   * write's outcome) and 0 returned with false.  Another device's counter
   * is not kept: 0 and false.
   */
  function GetFrameCounter(s: CounterStore, own: bool, written: bool): (r: (CounterStore, Uint32, bool))
    ensures r.2 <==> own && s.nv.Some?
    ensures r.2 ==> r.1 == (s.nv.value + SaveWindow) % Wrap32 && r.0 == s
    ensures !r.2 ==> r.1 == 0
    ensures own && s.nv.None? && written ==> r.0.nv == Some(0) && r.0.lastSaved == s.lastSaved
    ensures !(own && s.nv.None? && written) ==> r.0 == s
  {
    if !own then (s, 0, false)
    else match s.nv
      case Some(v) => (s, (v + SaveWindow) % Wrap32, true)
      case None => (if written then s.(nv := Some(0)) else s, 0, false)
  }

  /**
   * The save window is sound while every write succeeds and the counter
   * stays clear of the 32-bit wrap: the stored value is the last saved one
   * and every counter used is below it plus the window.
   */
  predicate Covered(s: CounterStore, used: nat)
  {
    s.nv == Some(s.lastSaved) && used < s.lastSaved + SaveWindow && s.lastSaved + SaveWindow < Wrap32
  }

  /** Using the next counter and offering it to `Ssf_updateFrameCounter` keeps it covered. */
  lemma NextCounterCovered(s: CounterStore, used: nat)
    requires Covered(s, used) && used + 1 + SaveWindow < Wrap32
    ensures Covered(UpdateFrameCounter(s, true, used + 1, true), used + 1)
  {
  }

  /** After a restart the counter read back is above every counter used before: no counter is reused. */
  lemma NoCounterReuse(s: CounterStore, used: nat)
    requires Covered(s, used)
    ensures GetFrameCounter(s, true, true).2
    ensures GetFrameCounter(s, true, true).1 > used
  {
  }

  // ---------------------------------------------------------------------
  // Blacklist

  /** `ApiMac_sAddr_t`: no address, a short address, or an extended address. */
  datatype SAddr = NoAddr | Short(short: Uint16) | Extended(ext: seq<Byte>)

  /** `SSF_MAX_BLACKLIST_ENTRIES`. */
  const MaxEntries: nat := 10
  /** `SSF_MAX_BLACKLIST_IDS`: sub-IDs at or above this are never read. */
  const MaxIds: nat := 500

  /** The blacklist in NV: records by sub-ID, and the stored count (absent until first saved). */
  datatype Blacklist = Blacklist(items: map<nat, SAddr>, count: Option<Uint16>)

  const EmptyBlacklist: Blacklist := Blacklist(map[], None)

  /** `getNumBlackListEntries`: the stored count, or 0 when it cannot be read. */
  function NumEntries(b: Blacklist): Uint16
  {
    if b.count.Some? then b.count.value else 0
  }

  /** Number of records stored below sub-ID `k`. */
  function Rank(items: map<nat, SAddr>, k: nat): (n: nat)
    ensures n <= k
  {
    if k == 0 then 0 else Rank(items, k - 1) + (if k - 1 in items then 1 else 0)
  }

  lemma {:induction false} RankMono(items: map<nat, SAddr>, j: nat, k: nat)
    requires j <= k
    ensures Rank(items, j) <= Rank(items, k)
    decreases k - j
  {
    if j < k {
      RankMono(items, j, k - 1);
    }
  }

  /** Sub-ID `j` is reached by the search: below the failsafe limit and among the first `NumEntries` records. */
  predicate Listed(b: Blacklist, j: nat)
  {
    j < MaxIds && j in b.items && Rank(b.items, j) < NumEntries(b)
  }

  /** A usable address: not NULL and not `ApiMac_addrType_none`. */
  predicate Usable(a: Option<SAddr>)
  {
    a.Some? && a.value != NoAddr
  }


  /**
   * The search loop of `Ssf_findBlackListIndex` from sub-ID `subId` with
   * `readItems` records read so far: a missing record is skipped without
   * being counted.
   */
  function Scan(b: Blacklist, x: SAddr, subId: nat, readItems: nat): (r: int)
    ensures r == -1 || subId <= r < MaxIds
    decreases MaxIds - subId
  {
    if readItems < NumEntries(b) && subId < MaxIds then
      if subId in b.items then
        if b.items[subId] == x then subId else Scan(b, x, subId + 1, readItems + 1)
      else Scan(b, x, subId + 1, readItems)
    else -1
  }

  /** What the scan from `subId` finds: the first reachable record holding `x`, or none. */
  lemma {:induction false} ScanFinds(b: Blacklist, x: SAddr, subId: nat, readItems: nat)
    requires readItems == Rank(b.items, subId)
    ensures Scan(b, x, subId, readItems) >= 0 ==>
              var r := Scan(b, x, subId, readItems);
              Listed(b, r) && b.items[r] == x && forall j :: subId <= j < r && Listed(b, j) ==> b.items[j] != x
    ensures Scan(b, x, subId, readItems) == -1 ==> forall j :: subId <= j && Listed(b, j) ==> b.items[j] != x
    decreases MaxIds - subId
  {
    if readItems < NumEntries(b) && subId < MaxIds {
      if subId !in b.items {
        ScanFinds(b, x, subId + 1, readItems);
      } else if b.items[subId] != x {
        ScanFinds(b, x, subId + 1, readItems + 1);
      }
    } else if subId < MaxIds {
      forall j | subId <= j
        ensures Rank(b.items, subId) <= Rank(b.items, j)
      {
        RankMono(b.items, subId, j);
      }
    }
  }

  /**
   * `Ssf_findBlackListIndex`: the first sub-ID the search reaches whose
   * record has the same mode and address, or -1 (also for a NULL or
   * mode-none address).
   */
  function FindBlackListIndex(b: Blacklist, a: Option<SAddr>): (index: int)
    ensures -1 <= index < MaxIds as int
    ensures !Usable(a) ==> index == -1
    ensures index >= 0 ==> Usable(a) && Listed(b, index) && b.items[index] == a.value
    ensures index >= 0 ==> forall j :: 0 <= j < index && Listed(b, j) ==> b.items[j] != a.value
    ensures index == -1 && Usable(a) ==> forall j :: Listed(b, j) ==> b.items[j] != a.value
  {
    if !Usable(a) || NumEntries(b) == 0 then -1
    else
      ScanFinds(b, a.value, 0, 0);
      Scan(b, a.value, 0, 0)
  }

  /**
   * The search loop of `findUnuedBlackListIndex`: stops at the first
   * sub-ID with no record, or when `readItems` reaches the count or the
   * sub-ID limit.
   */
  function UnusedFrom(b: Blacklist, subId: nat, readItems: nat): (r: nat)
    ensures r >= subId
    decreases MaxIds - subId
  {
    if readItems < NumEntries(b) && subId < MaxIds then
      if subId !in b.items then subId else UnusedFrom(b, subId + 1, readItems + 1)
    else subId
  }

  lemma {:induction false} UnusedFromSpec(b: Blacklist, subId: nat, readItems: nat)
    requires readItems == subId <= MaxIds
    requires forall j :: 0 <= j < subId ==> j in b.items
    ensures UnusedFrom(b, subId, readItems) <= MaxIds
    ensures UnusedFrom(b, subId, readItems) <= NumEntries(b) || UnusedFrom(b, subId, readItems) == subId
    ensures forall j :: 0 <= j < UnusedFrom(b, subId, readItems) ==> j in b.items
    ensures var r := UnusedFrom(b, subId, readItems); r == MaxIds || r >= NumEntries(b) || r !in b.items
    decreases MaxIds - subId
  {
    if readItems < NumEntries(b) && subId < MaxIds && subId in b.items {
      UnusedFromSpec(b, subId + 1, readItems + 1);
    }
  }

  /**
   * `findUnuedBlackListIndex`: the first sub-ID with no record, unless
   * the first `NumEntries` sub-IDs (or all of them up to the limit) hold
   * records, in which case the one just past them.
   */
  function FindUnusedIndex(b: Blacklist): (subId: nat)
    ensures subId <= MaxIds && subId <= NumEntries(b)
    ensures forall j :: 0 <= j < subId ==> j in b.items
    ensures subId == MaxIds || subId == NumEntries(b) || subId !in b.items
  {
    if NumEntries(b) == 0 then 0
    else
      UnusedFromSpec(b, 0, 0);
      UnusedFrom(b, 0, 0)
  }

  /**
   * The blacklist invariant: the stored count is the number of records, at
   * most `SSF_MAX_BLACKLIST_ENTRIES`, every record sits below the sub-ID
   * limit and holds a usable address, and no address is recorded twice.
   */
  predicate BlacklistValid(b: Blacklist)
  {
    && NumEntries(b) == |b.items.Keys|
    && NumEntries(b) <= MaxEntries
    && (forall k :: k in b.items ==> k < MaxIds && b.items[k] != NoAddr)
    && (forall j, k :: j in b.items && k in b.items && b.items[j] == b.items[k] ==> j == k)
  }

  lemma EmptyBlacklistValid()
    ensures BlacklistValid(EmptyBlacklist)
    ensures forall a :: FindBlackListIndex(EmptyBlacklist, a) == -1
  {
  }

  lemma {:induction false} RankIsCard(items: map<nat, SAddr>, k: nat)
    ensures Rank(items, k) == |set j | j in items && j < k|
    decreases k
  {
    if k > 0 {
      RankIsCard(items, k - 1);
      var below := set j | j in items && j < k - 1;
      if k - 1 in items {
        assert (set j | j in items && j < k) == below + {k - 1};
      } else {
        assert (set j | j in items && j < k) == below;
      }
    }
  }

  lemma {:induction false} SubsetCard<T>(a: set<T>, b: set<T>)
    requires a <= b
    ensures |a| <= |b|
    decreases |a|
  {
    if a != {} {
      var x :| x in a;
      SubsetCard(a - {x}, b - {x});
    }
  }

  /** The sub-IDs below `n`. */
  function Range(n: nat): (r: set<nat>)
    ensures forall j: nat :: j in r <==> j < n
  {
    if n == 0 then {} else Range(n - 1) + {n - 1}
  }

  lemma {:induction false} RangeCard(n: nat)
    ensures |Range(n)| == n
    decreases n
  {
    if n > 0 {
      RangeCard(n - 1);
      var r := Range(n - 1);
      assert n - 1 !in r;
      assert |r + {n - 1}| == |r| + 1;
    }
  }

  /** A set holding every sub-ID below `n` has at least `n` elements. */
  lemma PrefixCard(keys: set<nat>, n: nat)
    requires forall j :: 0 <= j < n ==> j in keys
    ensures |keys| >= n
  {
    RangeCard(n);
    SubsetCard(Range(n), keys);
  }

  /** The records below `k` are fewer than all records when `k` holds one. */
  lemma RankBelow(items: map<nat, SAddr>, k: nat)
    requires k in items
    ensures Rank(items, k) < |items.Keys|
  {
    RankIsCard(items, k);
    SubsetCard((set j | j in items && j < k), items.Keys - {k});
  }

  /** In a valid blacklist every record is reached by the search. */
  lemma AllListed(b: Blacklist, j: nat)
    requires BlacklistValid(b) && j in b.items
    ensures Listed(b, j)
  {
    RankBelow(b.items, j);
  }

  /** In a valid blacklist the search finds an address exactly when it is recorded. */
  lemma FindIffRecorded(b: Blacklist, x: SAddr, k: nat)
    requires BlacklistValid(b) && x != NoAddr
    ensures k in b.items && b.items[k] == x <==> FindBlackListIndex(b, Some(x)) == k
  {
    if k in b.items && b.items[k] == x {
      AllListed(b, k);
    }
  }

  /** In a valid blacklist the sub-ID `findUnuedBlackListIndex` picks is free and below the limit. */
  lemma UnusedIsFree(b: Blacklist)
    requires BlacklistValid(b)
    ensures FindUnusedIndex(b) < MaxIds && FindUnusedIndex(b) !in b.items
  {
    var s := FindUnusedIndex(b);
    assert s <= MaxEntries;
    if s in b.items {
      assert s == NumEntries(b);
      PrefixCard(b.items.Keys, s + 1);
    }
  }

  /**
   * Writing `x` at the unused sub-ID and saving the incremented count, if
   * there is room and the record write succeeds.  `saved` is the outcome of
   * the count's own write, which `saveNumBlackListEntries` does not check:
   * when it fails the stored count keeps its old value, and the add still
   * reports success.
   */
  function Insert(b: Blacklist, x: SAddr, written: bool, saved: bool): (r: (Blacklist, bool))
    ensures r.1 <==> NumEntries(b) < MaxEntries && written
    ensures !r.1 ==> r.0 == b
    ensures r.1 ==> r.0.items == b.items[FindUnusedIndex(b) := x]
    ensures r.1 ==> r.0.count == (if saved then Some(NumEntries(b) + 1) else b.count)
  {
    var numEntries := NumEntries(b);
    if numEntries < MaxEntries && written
    then (Blacklist(b.items[FindUnusedIndex(b) := x], if saved then Some(numEntries + 1) else b.count), true)
    else (b, false)
  }

  /**
   * `Ssf_addBlackListItem` as written: `if (Ssf_findBlackListIndex(pAddr))`
   * takes every result but 0 as "already listed", so a new address (-1)
   * is reported added but never written, while an address found at
   * sub-ID 0 is written a second time.
   */
  function AddBlackListItemAsWritten(b: Blacklist, a: Option<SAddr>, written: bool, saved: bool): (r: (Blacklist, bool))
    ensures !Usable(a) ==> r == (b, false)
    ensures r.0 != b ==> FindBlackListIndex(b, a) == 0
    ensures Usable(a) && FindBlackListIndex(b, a) == -1 ==> r == (b, true)
  {
    if !Usable(a) then (b, false)
    else if FindBlackListIndex(b, a) != 0 then (b, true)
    else Insert(b, a.value, written, saved)
  }

  /** As written, adding a new address to the empty blacklist reports success and leaves it empty. */
  lemma NewAddressLostAsWritten(x: SAddr)
    requires x != NoAddr
    ensures AddBlackListItemAsWritten(EmptyBlacklist, Some(x), true, true) == (EmptyBlacklist, true)
    ensures FindBlackListIndex(AddBlackListItemAsWritten(EmptyBlacklist, Some(x), true, true).0, Some(x)) == -1
  {
  }

  /**
   * `Ssf_addBlackListItem` with the evident intent: an address already
   * found succeeds without a write; a new one is written at an unused
   * sub-ID when there is room, and the count saved.
   */
  function AddBlackListItem(b: Blacklist, a: Option<SAddr>, written: bool, saved: bool): (r: (Blacklist, bool))
    ensures !Usable(a) ==> r == (b, false)
    ensures FindBlackListIndex(b, a) >= 0 ==> r == (b, true)
    ensures r.0 != b ==> Usable(a) && FindBlackListIndex(b, a) == -1
  {
    if !Usable(a) then (b, false)
    else if FindBlackListIndex(b, a) >= 0 then (b, true)
    else Insert(b, a.value, written, saved)
  }

  /**
   * Adding succeeds exactly when the address was there or there was room
   * and the record write went through.  When the count is saved too, the
   * blacklist stays valid and a successful add leaves the address
   * findable; when only the count save fails, the stored count is one
   * short of the records.
   */
  lemma AddBlackListItemSpec(b: Blacklist, a: Option<SAddr>, written: bool, saved: bool)
    requires BlacklistValid(b)
    ensures Usable(a) ==>
              (AddBlackListItem(b, a, written, saved).1 <==>
                 FindBlackListIndex(b, a) >= 0 || (NumEntries(b) < MaxEntries && written))
    ensures saved ==> BlacklistValid(AddBlackListItem(b, a, written, saved).0)
    ensures saved && AddBlackListItem(b, a, written, saved).1 ==>
              FindBlackListIndex(AddBlackListItem(b, a, written, saved).0, a) >= 0
    ensures !saved && AddBlackListItem(b, a, written, saved).0 != b ==>
              var r := AddBlackListItem(b, a, written, saved).0;
              NumEntries(r) + 1 == |r.items.Keys| && r.items.Keys == b.items.Keys + {FindUnusedIndex(b)}
  {
    var r := AddBlackListItem(b, a, written, saved);
    if r.0 != b {
      var x := a.value;
      var u := FindUnusedIndex(b);
      UnusedIsFree(b);
      forall k | k in b.items
        ensures b.items[k] != x
      {
        AllListed(b, k);
      }
      assert r.0.items.Keys == b.items.Keys + {u};
      if saved {
        assert BlacklistValid(r.0);
        FindIffRecorded(r.0, x, u);
      } else {
        assert |r.0.items.Keys| == |b.items.Keys| + 1;
      }
    }
  }

  /**
   * `Ssf_removeBlackListItem` as written: `if (index > 0)` skips a record
   * found at sub-ID 0.  `deleted` is the outcome of the NV delete; after
   * one the count is decremented and saved when it is positive, `saved`
   * being the unchecked outcome of that save.
   */
  function RemoveBlackListItemAsWritten(b: Blacklist, a: Option<SAddr>, deleted: bool, saved: bool): (r: Blacklist)
    ensures FindBlackListIndex(b, a) <= 0 || !deleted ==> r == b
    ensures r != b ==> r.items == b.items - {FindBlackListIndex(b, a)}
    ensures r != b ==> r.count == (if saved && NumEntries(b) > 0 then Some(NumEntries(b) - 1) else b.count)
  {
    var index := FindBlackListIndex(b, a);
    if index > 0 && deleted then
      var numEntries := NumEntries(b);
      Blacklist(b.items - {index}, if numEntries > 0 && saved then Some(numEntries - 1) else b.count)
    else b
  }

  /** As written, an address recorded at sub-ID 0 stays listed after its removal. */
  lemma SubIdZeroKeptAsWritten(x: SAddr)
    requires x != NoAddr
    ensures var b := Blacklist(map[0 := x], Some(1));
            RemoveBlackListItemAsWritten(b, Some(x), true, true) == b &&
            FindBlackListIndex(RemoveBlackListItemAsWritten(b, Some(x), true, true), Some(x)) == 0
  {
    var b := Blacklist(map[0 := x], Some(1));
    assert Rank(b.items, 0) == 0;
    assert Listed(b, 0);
  }

  /** `Ssf_removeBlackListItem` with the evident intent: a record found at any sub-ID, 0 included, is deleted. */
  function RemoveBlackListItem(b: Blacklist, a: Option<SAddr>, deleted: bool, saved: bool): (r: Blacklist)
    ensures FindBlackListIndex(b, a) < 0 || !deleted ==> r == b
    ensures r != b ==> r.items == b.items - {FindBlackListIndex(b, a)}
    ensures r != b ==> r.count == (if saved && NumEntries(b) > 0 then Some(NumEntries(b) - 1) else b.count)
  {
    var index := FindBlackListIndex(b, a);
    if index >= 0 && deleted then
      var numEntries := NumEntries(b);
      Blacklist(b.items - {index}, if numEntries > 0 && saved then Some(numEntries - 1) else b.count)
    else b
  }

  /**
   * A successful delete leaves the address unlisted.  When the count is
   * saved the blacklist stays valid; when only the count save fails, the
   * stored count is one more than the records.
   */
  lemma RemoveBlackListItemSpec(b: Blacklist, a: Option<SAddr>, deleted: bool, saved: bool)
    requires BlacklistValid(b)
    ensures saved ==> BlacklistValid(RemoveBlackListItem(b, a, deleted, saved))
    ensures deleted ==> FindBlackListIndex(RemoveBlackListItem(b, a, deleted, saved), a) == -1
    ensures !saved && RemoveBlackListItem(b, a, deleted, saved) != b ==>
              var r := RemoveBlackListItem(b, a, deleted, saved);
              NumEntries(r) == |r.items.Keys| + 1
  {
    var r := RemoveBlackListItem(b, a, deleted, saved);
    var index := FindBlackListIndex(b, a);
    if r != b {
      assert |r.items.Keys| == |b.items.Keys - {index}| == |b.items.Keys| - 1;
    }
  }

  /**
   * When the record write succeeds but the count save does not, a new
   * address added to the empty blacklist is reported added, stored at
   * sub-ID 0, and not found again: the search reads no more records than
   * the stale count of 0.
   */
  lemma UnsavedCountHidesRecord(x: SAddr)
    requires x != NoAddr
    ensures AddBlackListItem(EmptyBlacklist, Some(x), true, false) == (Blacklist(map[0 := x], None), true)
    ensures FindBlackListIndex(Blacklist(map[0 := x], None), Some(x)) == -1
  {
    assert FindUnusedIndex(EmptyBlacklist) == 0;
  }

  /** Adding a new address and then removing it restores the records and the count. */
  lemma AddThenRemove(b: Blacklist, x: SAddr)
    requires BlacklistValid(b) && x != NoAddr
    requires FindBlackListIndex(b, Some(x)) == -1 && NumEntries(b) < MaxEntries
    ensures var b' := RemoveBlackListItem(AddBlackListItem(b, Some(x), true, true).0, Some(x), true, true);
            b'.items == b.items && NumEntries(b') == NumEntries(b)
  {
    var b1 := AddBlackListItem(b, Some(x), true, true).0;
    var u := FindUnusedIndex(b);
    AddBlackListItemSpec(b, Some(x), true, true);
    UnusedIsFree(b);
    FindIffRecorded(b1, x, u);
    assert b1.items - {u} == b.items;
  }
}

=== FILE: types.dfy ===
/**
 * Types shared by the models of the firmware: C's fixed-width unsigned
 * integers and an optional value standing for a pointer that may be NULL.
 */
module Types {

  /** An unsigned 8-bit value, as `uint8_t`. */
  type Byte = x: int | 0 <= x < 0x100

  /** An unsigned 16-bit value, as `uint16_t`. */
  type Uint16 = x: int | 0 <= x < 0x1_0000

  /** 2^32: `uint32_t` arithmetic wraps modulo this. */
  const Wrap32: int := 0x1_0000_0000

  /** An unsigned 32-bit value, as `uint32_t`. */
  type Uint32 = x: int | 0 <= x < 0x1_0000_0000

  /** A value that may be absent: a NULL pointer, an entry that is not there. */
  datatype Option<T> = None | Some(value: T)
}
